=== FILE: README.md ===
# Behaviour-tree ordering, modelled in Dafny

This project models the behaviour-tree ordering subsystem of a Blockly-based block
editor.

Blocks of a behaviour-tree node kind carry two connector icons:
- a right (output) connector;
- a left (input) connector.

Dragging from one connector to the other draws an arrow line: a directed `(from, to)`
edge between two blocks, kept in the workspace's line collection. A new line replaces
every other line into its target, so each block has at most one incoming line, and
the lines reachable from the root form a tree. After each change, and once
`shouldUpdate` holds, the order manager performs these steps:
1. It builds a tree of `TreeNode`s, one per block that ends a line. Each node's
   children are kept sorted by their block's top edge.
2. It gives every node a pre-order running weight offset.
3. It clears the label of the block it was made for.
4. It clears the labels of top blocks outside the tree.
5. It labels the blocks along each node's chain with consecutive order numbers.

Each block shows its label through an order icon. The workspace's label map stands for
the `order` fields of all the blocks' order icons: entry `id` is the order held by the
icon of block `id`.

The model has these parts:

| file | module | what it holds |
|---|---|---|
| `wrappers.dfy` | `Wrappers` | `Option` and `Result` |
| `bt_node_type.dfy` | `BtNodeTypes` | the node-kind enum and its predicates |
| `blocks.dfy` | `Blocks` | the host workspace's blocks as a map from id to block, with an acyclic `next` chain; block labels as a map from id to `Option<int>`; writing a label chain |
| `behavior_node_models.dfy` | `BehaviorNodeModels` | `TreeNode` values in an arena (`seq<TreeNode>`) with children as sorted index lists; the sorted-insert loop, the indexed walk and the pre-order listing as methods, each proved against a function |
| `workspace_arrowline.dfy` | `WorkspaceArrowlines` | the workspace (a class) holding the line collection and the labels; the `WorkspaceArrowline` class; its predicates and serialisation; the parsers |
| `behavior_order.dfy` | `BehaviorOrder` | the specification functions of the order manager: tree building, offsets, annotation, reset, `shouldUpdate`, `update`; and what they are proved to compute |
| `behavior_order_manager.dfy` | `BehaviorOrderManagers` | `BehaviorOrderManager` as a class whose loop-based methods are proved equal to those functions |
| `bt_base_node_icon.dfy` | `Messages`, `BtBaseNodeIcons` | the icon's message map; the shared armed state `FROM_BLOCK`; the release outcome; `createArrowLine` over the line collection, proved against an edge-sequence function |
| `bt_left_node_icon.dfy`, `bt_right_node_icon.dfy` | `BtLeftNodeIcons`, `BtRightNodeIcons` | the two connectors' pointer handlers |
| `bt_order_icon.dfy` | `BtOrderIcons` | the per-block order icon and its text |

Some things the source holds as live objects are modelled as values:
- Block objects are ids into a block map.
- A `TreeNode` is an index into an arena.
- Labels are a map that the manager methods rewrite.

Wherever the core's update and gesture code loops, the model has a `method` with a loop. Its `ensures` ties
the result to a specification function, and lemmas state what that function means. The
`filter`, `join`, `split` and `map` expressions of the message store and of the edge
views are modelled as functions.

The source's recursions over the tree end only when no cycle of lines is reachable
from the root. The model states this with a ghost map `edgeRank` from block id to
rank. A line out of a block of positive rank must go to a block of positive, lower
rank, and the root must have positive rank unless no line leaves it (`LinesRanked`).
Blocks of rank 0 are unconstrained, so cycles the root does not reach are allowed.

## Model

| member | source | states |
|---|---|---|
| BtNodeTypes.NamesDistinct | core/bt_node_type.ts:4-8 | the enum's string values are pairwise distinct, so two kinds are equal exactly when their names are |
| BtNodeTypes.IsNodeExactly | core/bt_node_type.ts:10-16 | `isNode(t)` holds iff `t` is non-null and one of TOP, LEFT, BOTH |
| BtNodeTypes.KindPredicatesRelate | core/bt_node_type.ts:4-22 | `isTop` and `isLeft` never both hold, each implies `isNode`, and BOTH is a node kind that is neither |
| BtNodeTypes.KindPredicatesByName | core/bt_node_type.ts:10-22 | `isTop` and `isLeft` hold iff the kind's string value is 'top' or 'left'; `isNode` iff there is a kind and its value is one of the enum's values |
| BtOrderIcons.NatToDecimal | core/icons/bt_order_icon.ts:137-139 | the decimal string of a natural number is non-empty, all digits, and starts with 0 only for 0 itself |
| BtOrderIcons.DecimalRoundTrip | core/icons/bt_order_icon.ts:137-139 | reading the decimal string back gives the number |
| BtOrderIcons.NumberToString | core/icons/bt_order_icon.ts:137-139 | `String(n)` starts with a minus sign iff `n` is negative, and the digits after it denote the magnitude of `n` |
| BtOrderIcons.OrderText | core/icons/bt_order_icon.ts:137-139 | the shown text is never empty, and is `'...'` exactly when the order is null |
| BtOrderIcons.OrderTextRoundTrip | core/icons/bt_order_icon.ts:137-139 | the shown text determines the order: `'...'` reads back as null and a number's text reads back as that number |
| BtOrderIcons.OrderTextInjective | core/icons/bt_order_icon.ts:137-139 | different orders are shown as different texts |
| BtOrderIcons.BtOrderIcon.constructor | core/icons/bt_order_icon.ts:38-43 | a new icon has order null and no view |
| BtOrderIcons.BtOrderIcon.InitView | core/icons/bt_order_icon.ts:49-86 | the first call creates the text and shows the current order's text; later calls change nothing |
| BtOrderIcons.BtOrderIcon.SetOrder | core/icons/bt_order_icon.ts:121-126 | `setOrder` returns the icon itself and stores the order, so `getOrder` gives back the last value set; the text changes only once the view exists |
| BtOrderIcons.BtOrderIcon.GetOrderText | core/icons/bt_order_icon.ts:133-139 | the text parses back to exactly `getOrder()` |
| BtOrderIcons.BtOrderIcon.UpdateOrderText | core/icons/bt_order_icon.ts:141-146 | nothing changes before the view is initialised; afterwards the text is the order's text |
| BtOrderIcons.BtOrderIcon.GetSize | core/icons/bt_order_icon.ts:96-98 | the icon is always 20 by 20 |
| WorkspaceArrowlines.EdgesOf | core/workspace_arrowline.ts:82-84 | the `(from, to)` pairs of a line sequence, one per line, in order |
| WorkspaceArrowlines.Without | core/workspace_arrowline.ts:91-102 | removing a line never lengthens the collection |
| WorkspaceArrowlines.WithoutFacts | core/workspace_arrowline.ts:91-102 | after removal the line is absent, and the lines left are exactly the other lines of the collection |
| WorkspaceArrowlines.ChooseId | core/workspace_arrowline.ts:52-55 | `opt_id` is kept when it is given, non-empty and not already taken; otherwise the fresh id is used |
| WorkspaceArrowlines.ChooseIdNonEmpty | core/workspace_arrowline.ts:52-55 | a line's id is never empty when the fresh id is not |
| WorkspaceArrowlines.ParseAttributes | core/workspace_arrowline.ts:211-229 | the parse fails, with the "no id" error, iff the id is missing or empty; a missing `from` or `to` reads as `''` |
| WorkspaceArrowlines.ParseAttributesFromState | core/workspace_arrowline.ts:246-264 | the parse fails, with the "no id" error, iff the id is missing or empty; otherwise id, from and to pass through |
| WorkspaceArrowlines.WorkspaceArrowline.constructor | core/workspace_arrowline.ts:46-63 | the line takes the chosen id, is not disposed, and is appended to the workspace's collection, which stays duplicate-free |
| WorkspaceArrowlines.WorkspaceArrowline.GetPair | core/workspace_arrowline.ts:82-84 | `getPair()` is exactly `[from, to]` |
| WorkspaceArrowlines.WorkspaceArrowline.Dispose | core/workspace_arrowline.ts:91-102 | `dispose` is idempotent: the first call removes the line from the collection and marks it disposed; later calls change nothing |
| WorkspaceArrowlines.WorkspaceArrowline.ToXml | core/workspace_arrowline.ts:128-136 | the element always carries `from` and `to`, and carries `id` iff `opt_noId` is false |
| WorkspaceArrowlines.WorkspaceArrowline.SaveState | core/workspace_arrowline.ts:138-146 | the state always carries `from` and `to`, and carries `id` iff `opt_noId` is false |
| WorkspaceArrowlines.DistinctWithout | core/workspace_arrowline.ts:91-102 | removing a line from a duplicate-free collection keeps it duplicate-free |
| WorkspaceArrowlines.ConnectingIsEitherEnd | core/workspace_arrowline.ts:65-75 | `isConnecting(b)` holds iff `isConnectingFrom(b)` or `isConnectingTo(b)` does |
| WorkspaceArrowlines.ConnectingMatchesPair | core/workspace_arrowline.ts:65-84 | `isConnectingFrom(b)` holds iff `b` is `getPair()[0]`, `isConnectingTo(b)` iff `b` is `getPair()[1]`, and `isConnecting(b)` iff `b` is in `getPair()` |
| WorkspaceArrowlines.IsSameIsUnorderedPair | core/workspace_arrowline.ts:77-80 | `isSame` is symmetric and holds iff `{a, b}` is `{from, to}` as an unordered pair |
| WorkspaceArrowlines.SaveStateRoundTrip | core/workspace_arrowline.ts:138-264 | parsing `saveState()` gives back the line's id, from and to; parsing `saveState(true)` fails for the missing id |
| WorkspaceArrowlines.ToXmlRoundTrip | core/workspace_arrowline.ts:128-229 | parsing `toXml()` gives back the line's id, from and to; parsing `toXml(true)` fails for the missing id |
| WorkspaceArrowlines.FromXml | core/workspace_arrowline.ts:186-202 | fails exactly when the parse fails, and then adds nothing; otherwise it registers a new line with the parsed ends and a fresh id, not the parsed one |
| WorkspaceArrowlines.LoadState | core/workspace_arrowline.ts:231-244 | fails exactly when the parse fails, and then adds nothing; otherwise it registers a new line with the parsed ends, passing the parsed id on as `opt_id` |
| WorkspaceArrowlines.LoadStateKeepsSavedId | core/workspace_arrowline.ts:138-264 | a saved line loaded where its id is not taken gets back its own id and ends |
| BehaviorNodeModels.NewTreeNode | core/behavior_node_models.ts:14-18 | a new node has no children and offset 0, with the given block, weight and top |
| BehaviorNodeModels.CompareTo | core/behavior_node_models.ts:24-26 | `compareTo` is negative, zero or positive exactly as the first node's `rectTop` is smaller than, equal to or larger than the other's |
| BehaviorNodeModels.CompareToAntisymmetric | core/behavior_node_models.ts:24-26 | swapping the nodes negates the comparison |
| BehaviorNodeModels.InsertPos | core/behavior_node_models.ts:48-63 | the position the new element takes is within the list |
| BehaviorNodeModels.ScanPast | core/behavior_node_models.ts:56-62 | the scan never runs past the end of the list |
| BehaviorNodeModels.ScanPastBounds | core/behavior_node_models.ts:56-62 | every element the scan passes has a strictly smaller key than the new element, and the one it stops at (if any) does not |
| BehaviorNodeModels.InsertPosMeaning | core/behavior_node_models.ts:48-63 | the new element goes first iff the list is empty or its key is strictly smaller than the head's; otherwise every element between the head and it has a strictly smaller key, and the element after it (if any) does not |
| BehaviorNodeModels.InsertedContents | core/behavior_node_models.ts:48-63 | the new list holds the old elements plus exactly the new one, as a multiset, with the old elements in their old order |
| BehaviorNodeModels.InsertedElements | core/behavior_node_models.ts:48-63 | every old element and the new one are in the new list, and nothing else is |
| BehaviorNodeModels.InsertedSorted | core/behavior_node_models.ts:48-63 | a list whose keys are non-decreasing from head to tail stays so |
| BehaviorNodeModels.InsertedNewHead | core/behavior_node_models.ts:50-54 | an element whose key is strictly smaller than the head's, or any element into an empty list, becomes the new head |
| BehaviorNodeModels.InsertedTieAfterHead | core/behavior_node_models.ts:56-62 | in a sorted list, an element whose key equals the head's is placed directly after the head, ahead of older elements with that key |
| BehaviorNodeModels.InsertInOrder | core/behavior_node_models.ts:48-63 | the head/next pointer loop produces exactly `Inserted`, whose properties are the lemmas above |
| BehaviorNodeModels.ForEach | core/behavior_node_models.ts:65-73 | the walk visits the elements head to tail, with indices 0 to n-1 |
| BehaviorNodeModels.WithChild | core/behavior_node_models.ts:20-22 | `addChild` keeps the arena's size |
| BehaviorNodeModels.WithChildMeaning | core/behavior_node_models.ts:20-63 | `addChild` changes only the parent's children, which gain exactly the new child and stay sorted by `rectTop` when they were |
| BehaviorNodeModels.PreOrder | core/behavior_node_models.ts:76-83 | the pre-order listing of the subtree of a node of positive rank (below which ranks strictly fall, so the recursion ends) starts with its root, and each entry is a node of the arena |
| BehaviorNodeModels.PreOrderAll | core/behavior_node_models.ts:76-83 | the listing of a run of sibling subtrees, each in pre-order, one after another |
| BehaviorNodeModels.PreOrderLength | core/behavior_node_models.ts:76-83 | the listing's length is the subtree's node count |
| BehaviorNodeModels.PreOrderRanks | core/behavior_node_models.ts:76-83 | the root is listed once, first, and every other entry ranks below it |
| BehaviorNodeModels.PreOrderAllPrefix | core/behavior_node_models.ts:76-83 | listing the first j siblings' subtrees is a prefix of listing all of them |
| BehaviorNodeModels.PreOrderChildStep | core/behavior_node_models.ts:76-83 | the node followed by the listings of its first k+1 children equals the node and the first k children's listings followed by child k's listing, and is a prefix of the node's listing |
| BehaviorNodeModels.ChildSubtreeListed | core/behavior_node_models.ts:76-83 | every entry of a child's subtree listing appears in the parent's listing |
| BehaviorNodeModels.PreOrderSameChildren | core/behavior_node_models.ts:76-83 | the listing depends only on the children lists, not on weights or offsets |
| BehaviorNodeModels.TreeToList | core/behavior_node_models.ts:76-83 | `treeToList` appends exactly the pre-order listing to the shared result array |
| Blocks.ChainShape | core/behavior_order_manager.ts:177-188 | a `next` chain starts at its first block, follows `next` links, holds no block twice and ends at a block with no successor |
| Blocks.SetLabel | core/icons/bt_order_icon.ts:121-126 | setting one block's label changes that label and no other |
| Blocks.WriteChain | core/behavior_order_manager.ts:222-232 | writing a chain keeps the set of labelled blocks |
| Blocks.WriteChainLabels | core/behavior_order_manager.ts:222-232 | the k-th block (1-based) of the chain gets `offset + k`, and no block off the chain changes |
| Blocks.ClearAll | core/behavior_order_manager.ts:256-261 | clearing a chain keeps the set of labelled blocks |
| Blocks.ClearAllLabels | core/behavior_order_manager.ts:256-261 | every block of the chain becomes null and no other block changes |
| BehaviorOrder.FollowingCountFacts | core/behavior_order_manager.ts:177-188 | `getFollowingCount(null)` is 0; from a block it is at least 1, and exactly 1 more than from its successor |
| BehaviorOrder.MakeNode | core/behavior_order_manager.ts:137-155 | after visiting an end, the ids with nodes are those before plus that end |
| BehaviorOrder.MakeNodeOk | core/behavior_order_manager.ts:137-155 | the id-to-node index stays consistent with the arena |
| BehaviorOrder.Link | core/behavior_order_manager.ts:156-157 | `nodes[from].addChild(nodes[to])` keeps the builder consistent and leaves the id index and the root as they were |
| BehaviorOrder.AddLine | core/behavior_order_manager.ts:135-158 | after one line, the ids with nodes are those before plus both of its ends |
| BehaviorOrder.AddLines | core/behavior_order_manager.ts:134-158 | the builder stays consistent through every line |
| BehaviorOrder.Ends | core/behavior_order_manager.ts:136-137 | the ends of the lines, two per line, in line-then-`(from, to)` order |
| BehaviorOrder.AddLinesFacts | core/behavior_order_manager.ts:134-158 | there is one node per distinct line end, each made from its block (weight = wrapped-chain length, top = block top, offset 0); the root is the node of the first end whose wrap kind is TOP, if any; each node's children are exactly the `to` ends of its lines, sorted by top |
| BehaviorOrder.AddLinesRanked | core/behavior_order_manager.ts:134-158 | when every line out of a block of positive rank goes to a block of positive, lower rank, the built arena gives every child of a positively ranked node's block a positive, lower rank |
| BehaviorOrder.FirstTopOrWrapper | core/behavior_order_manager.ts:162-163 | the first top block that is a top node or wrapper, and none iff no top block is |
| BehaviorOrder.NodeTreeRanked | core/behavior_order_manager.ts:130-167 | the built arena (with the fallback node) is ranked by the line ranks: below a node of positive rank the ranks strictly fall, so its subtree is finite |
| BehaviorOrder.NodeTreeRootRanked | core/behavior_order_manager.ts:130-167 | the root has positive rank: a root found among the lines is ranked or has no line leaving it, and the fallback root has no children |
| BehaviorOrder.UnrootedLinesRanked | core/behavior_order_manager.ts:160-167 | lines none of whose ends is TOP need no ranks at all, whatever cycles they form, since the root is then the childless fallback node |
| BehaviorOrder.NodeTreeRootFromLines | core/behavior_order_manager.ts:134-158 | when some line end is TOP, the root is the node of the first such end |
| BehaviorOrder.NodeTreeRootFallback | core/behavior_order_manager.ts:160-167 | when no line end is TOP, the root is a fresh childless node of weight 1 at top 0 for the first top-or-wrapper top block, and there is none when no top block qualifies |
| BehaviorOrder.AssignSums | core/behavior_order_manager.ts:196-209 | giving offsets changes no node's block, weight, top or children, only offsets |
| BehaviorOrder.AssignSumsOffsets | core/behavior_order_manager.ts:196-209 | each listed node's offset is the starting weight plus the weights of the nodes listed before it |
| BehaviorOrder.TreeSums | core/behavior_order_manager.ts:196-209 | after `updatePreNodesWeightSum` the root's offset is 0, each node's offset is the sum of the weights of the nodes before it in `treeToList` order, and nodes outside the tree are untouched |
| BehaviorOrder.BuildTree | core/behavior_order_manager.ts:130-174 | `createNodeTree` returns the built arena with offsets assigned from the root: ranked, with a root of positive rank (so no cycle is reachable from it), whose nodes differ from the built ones only in their offsets, and the same root |
| BehaviorOrder.Annotate | core/behavior_order_manager.ts:235-238 | labelling the tree keeps the set of labelled blocks |
| BehaviorOrder.AnnotateLabels | core/behavior_order_manager.ts:217-238 | when the tree's chains are disjoint, the k-th block of a node's chain gets the node's offset + k, and blocks on no chain keep their labels |
| BehaviorOrder.TreeLabelsConsecutive | core/behavior_order_manager.ts:196-238 | when each node's weight is its chain's length, the blocks of all chains, taken in pre-order, are labelled 1, 2, 3, … without gap or repeat |
| BehaviorOrder.Outside | core/behavior_order_manager.ts:252-254 | the outside top blocks are exactly the top blocks that are not tree nodes |
| BehaviorOrder.ResetOne | core/behavior_order_manager.ts:255-265 | resetting one outside top block keeps the set of labelled blocks |
| BehaviorOrder.ResetAll | core/behavior_order_manager.ts:255-265 | resetting all outside top blocks keeps the set of labelled blocks |
| BehaviorOrder.ResetAllLabels | core/behavior_order_manager.ts:247-266 | a block becomes null iff it is in some outside wrapper's wrapped chain or is itself an outside non-wrapper; every other label stays |
| BehaviorOrder.ShouldUpdate | core/behavior_order_manager.ts:96-121 | false without a (wrapped-first) block; true when that block has a label; false when it is disposed; otherwise true iff its successor's label is truthy |
| BehaviorOrder.ShouldUpdateReadings | core/behavior_order_manager.ts:114-117 | the truthiness test and a null test on the successor's label disagree exactly when the block is unlabelled and live and its successor is labelled 0 |
| BehaviorOrder.UpdateResult | core/behavior_order_manager.ts:63-89 | `update` keeps the set of labelled blocks, and when it returns false no label changes; when `shouldUpdate` fails nothing is asked of the lines |
| BehaviorOrder.UpdateRendering | core/behavior_order_manager.ts:63-89 | when `shouldUpdate` holds and a root is built, the tree is ranked with a root of positive rank, every listed node's block has a first child, and the labels are those of clearing the top block, resetting the outside top blocks and labelling the tree |
| BehaviorOrder.BuiltTreeLabels | core/behavior_order_manager.ts:130-238 | after building and labelling, the blocks of the tree's chains in pre-order carry 1, 2, 3, … |
| BehaviorOrder.UpdateLabelsTree | core/behavior_order_manager.ts:63-89 | after an `update` that returns true, the blocks of the tree's chains in pre-order carry 1, 2, 3, … |
| BehaviorOrderManagers.WrappedFirstAtStart | core/behavior_order_manager.ts:53-55 | the wrapped-first block recorded at drag start is the wrapper's first wrapped block |
| BehaviorOrderManagers.BehaviorOrderManager.constructor | core/behavior_order_manager.ts:37-43 | the manager watches the given top block, with its wrapped-first block recorded |
| BehaviorOrderManagers.BehaviorOrderManager.Update | core/behavior_order_manager.ts:63-89 | returns and writes exactly `UpdateResult`: false and no change when `shouldUpdate` fails or no tree is built; otherwise the top block is cleared, the outside blocks are reset, the tree is labelled, and true is returned |
| BehaviorOrderManagers.BehaviorOrderManager.RenderOrders | core/behavior_order_manager.ts:80-86 | the top block's label is cleared, the top blocks outside the tree are reset and the tree is labelled: the labels become exactly `Annotate` over `ResetAll` over the cleared labels |
| BehaviorOrderManagers.BehaviorOrderManager.CreateNodeTree | core/behavior_order_manager.ts:130-174 | the `forEach` over the lines, the fallback root and the offsets produce exactly `BuildTree` |
| BehaviorOrderManagers.BehaviorOrderManager.FinishNodeTree | core/behavior_order_manager.ts:160-171 | once the lines are visited, the root found among them, else a lone node for the first top-or-wrapper top block, and then the offsets from the root, give exactly `BuildTree` |
| BehaviorOrderManagers.BehaviorOrderManager.AddArrowline | core/behavior_order_manager.ts:135-158 | the body of the per-line `forEach` is exactly `AddLine` |
| BehaviorOrderManagers.BehaviorOrderManager.CreateNode | core/behavior_order_manager.ts:137-155 | the body of the per-end `forEach` is exactly `MakeNode` |
| BehaviorOrderManagers.BehaviorOrderManager.GetFollowingCount | core/behavior_order_manager.ts:177-188 | the `do`/`while` loop counts exactly the blocks of the `next` chain |
| BehaviorOrderManagers.BehaviorOrderManager.UpdatePreNodesWeightSum | core/behavior_order_manager.ts:196-209 | assigns exactly the offsets `AssignSums` gives along the pre-order listing, starting from 0 |
| BehaviorOrderManagers.BehaviorOrderManager.LoopNodesWeightSum | core/behavior_order_manager.ts:198-207 | one recursive visit sets the node's offset to the running weight and then visits its children, leaving the running weight increased by the subtree's weights |
| BehaviorOrderManagers.BehaviorOrderManager.RenderTreeOrder | core/behavior_order_manager.ts:217-233 | the loop writes exactly `WriteChain` along the node's first-child chain |
| BehaviorOrderManagers.BehaviorOrderManager.UpdateTreeOrder | core/behavior_order_manager.ts:235-238 | the recursion writes exactly `Annotate` over the subtree in pre-order |
| BehaviorOrderManagers.BehaviorOrderManager.ResetOutsideTreeOrder | core/behavior_order_manager.ts:247-266 | writes exactly `ResetAll` over the top blocks outside the tree |
| BehaviorOrderManagers.BehaviorOrderManager.InsideBlockIds | core/behavior_order_manager.ts:252-253 | the id map holds exactly the blocks of the listed nodes |
| BehaviorOrderManagers.BehaviorOrderManager.ResetTopBlock | core/behavior_order_manager.ts:255-265 | one step of the reset writes exactly `ResetOne` |
| Messages.Keys | core/icons/bt_base_node_icon.ts:41 | the map's ids, one per entry, in insertion order |
| Messages.Values | core/icons/bt_base_node_icon.ts:186-188 | the map's texts, one per entry, in insertion order |
| Messages.Join | core/icons/bt_base_node_icon.ts:186-188 | joining no texts gives the empty string; otherwise the joined text starts with the first text and ends with the last |
| Messages.Get | core/icons/bt_base_node_icon.ts:169 | a text is found iff the id is a key |
| Messages.Set | core/icons/bt_base_node_icon.ts:171-172 | the id then maps to the text and every other id is unchanged; an existing id keeps its place and a new one is appended; ids stay unique |
| Messages.Delete | core/icons/bt_base_node_icon.ts:173-174 | the id then maps to nothing and every other id is unchanged; ids stay unique |
| Messages.Split | core/icons/bt_base_node_icon.ts:186-188 | splitting at newlines gives at least one piece |
| Messages.SplitPrefix | core/icons/bt_base_node_icon.ts:186-188 | a piece without newlines stays in one piece with whatever follows up to the next newline |
| Messages.SplitJoin | core/icons/bt_base_node_icon.ts:186-188 | splitting the joined texts at newlines gives back the texts, when none contains a newline |
| BtBaseNodeIcons.GestureState.constructor | core/icons/bt_base_node_icon.ts:49 | nothing is armed at first |
| BtBaseNodeIcons.Release | core/icons/bt_base_node_icon.ts:273-299 | any line asked for runs from the right connector's block to the left connector's block, and never from a block to itself; the armed state is cleared iff a line is asked for; the release is handled iff the base handles it or a line is asked for |
| BtBaseNodeIcons.KeepEdges | core/icons/bt_base_node_icon.ts:314-326 | the dispose pass never lengthens the edge sequence |
| BtBaseNodeIcons.KeepEdgesFacts | core/icons/bt_base_node_icon.ts:312-326 | the dispose pass keeps exactly the lines that neither enter `to` nor, for a top-or-wrapper `from`, leave `from` |
| BtBaseNodeIcons.AddEdge | core/icons/bt_base_node_icon.ts:301-345 | a self-line or an unresolved block changes nothing; the new line is created iff the ids differ, both resolve and no line joins the two blocks yet |
| BtBaseNodeIcons.AddEdgeCases | core/icons/bt_base_node_icon.ts:314-334 | an existing pair leaves only the lines the dispose pass keeps; otherwise the new line follows them |
| BtBaseNodeIcons.AddEdgeFanIn | core/icons/bt_base_node_icon.ts:322-334 | afterwards at most one line enters `to`, and it is the new one |
| BtBaseNodeIcons.AddEdgeTopFanOut | core/icons/bt_base_node_icon.ts:312-334 | for a top-or-wrapper `from`, afterwards the only line leaving `from` is the new one |
| BtBaseNodeIcons.AddEdgeKeeps | core/icons/bt_base_node_icon.ts:314-334 | every line the dispose rules spare survives, and only the new line is added |
| BtBaseNodeIcons.AddEdgeExisting | core/icons/bt_base_node_icon.ts:314-329 | re-adding an existing line deletes it and creates nothing; a line in the reverse direction blocks the new one and survives |
| BtBaseNodeIcons.KeepLines | core/icons/bt_base_node_icon.ts:314-326 | the dispose pass on line objects never lengthens the collection |
| BtBaseNodeIcons.KeepLinesEdges | core/icons/bt_base_node_icon.ts:314-326 | the pass on line objects keeps the same `(from, to)` pairs as the pass on edges |
| BtBaseNodeIcons.HasPairLines | core/icons/bt_base_node_icon.ts:327-329 | `isExist` over the line objects is `HasPair` over their edges |
| BtBaseNodeIcons.CreateOrders | core/icons/bt_base_node_icon.ts:301-345 | labels change only when a line is created, and then as the first of the two `update`s that returns true leaves them |
| BtBaseNodeIcons.CreateReadyUse | core/icons/bt_base_node_icon.ts:312-344 | when a line already joined the blocks, the survivors of the dispose pass are the result and the labels stay; otherwise the new line follows the survivors, the updates can run on them, and the labels are those they leave |
| BtBaseNodeIcons.CycleOffRootRanked | core/icons/bt_base_node_icon.ts:312-334 | from T -> A -> B -> C with only T of kind TOP, the line C -> A disposes T -> A and leaves the cycle A -> B -> C -> A, which needs no ranks |
| BtBaseNodeIcons.CycleThroughRootUnranked | core/behavior_order_manager.ts:130-209 | the lines T -> A -> X -> T, with T of kind TOP, form a cycle through the root: no ranks admit them |
| BehaviorOrder.UnlabelledNoUpdate | core/behavior_order_manager.ts:96-121 | before any block is labelled, `shouldUpdate` is false for every block |
| BtBaseNodeIcons.UnlabelledCreateReady | core/icons/bt_base_node_icon.ts:301-344 | before any block is labelled, every request between two blocks of the workspace is modelled whatever the lines and ranks, and the labels stay empty |
| BtBaseNodeIcons.QuietCycleThroughRoot | core/icons/bt_base_node_icon.ts:312-344 | from T -> A -> X with nothing labelled, the line X -> T disposes nothing and is added; both updates stop at `shouldUpdate`, so the request is modelled for any ranks and leaves the labels alone |
| BtBaseNodeIcons.UpdateEitherCases | core/icons/bt_base_node_icon.ts:341-344 | when the update on `from` renders, its labels are the result; otherwise it left the labels as they were, and the update on `to` can run and gives the result |
| BtBaseNodeIcons.BtBaseNodeIcon.constructor | core/icons/bt_base_node_icon.ts:41-59 | a new icon is 20 wide and 60 high, active, with no messages |
| BtBaseNodeIcons.BtBaseNodeIcon.SetSize | core/icons/bt_base_node_icon.ts:121-130 | a given number replaces the width or the height; an omitted one leaves it as it was |
| BtBaseNodeIcons.BtBaseNodeIcon.SetActive | core/icons/bt_base_node_icon.ts:351-357 | stores the flag and returns the icon |
| BtBaseNodeIcons.BtBaseNodeIcon.AddMessage | core/icons/bt_base_node_icon.ts:168-179 | nothing changes when the id already holds this text; otherwise a non-empty text is set under the id and an empty one deletes it |
| BtBaseNodeIcons.BtBaseNodeIcon.GetText | core/icons/bt_base_node_icon.ts:186-188 | the text splits back into the messages in insertion order, when there are messages and none contains a newline |
| BtBaseNodeIcons.BtBaseNodeIcon.RecordDownPoint | core/icons/bt_base_node_icon.ts:248-250 | arms `(blockId, isLeft)`, replacing any armed state |
| BtBaseNodeIcons.BtBaseNodeIcon.ClearDownPoint | core/icons/bt_base_node_icon.ts:252-254 | disarms |
| BtBaseNodeIcons.BtBaseNodeIcon.OnMouseUp | core/icons/bt_base_node_icon.ts:273-299 | returns true iff the icon is inactive, nothing is armed, the release was forwarded, or the armed block is this block |
| BtBaseNodeIcons.BtBaseNodeIcon.CreateArrowLine | core/icons/bt_base_node_icon.ts:301-345 | over a snapshot of the lines, the edges afterwards are exactly `AddEdge` and the labels exactly `CreateOrders` |
| BtBaseNodeIcons.BtBaseNodeIcon.LinkBlocks | core/icons/bt_base_node_icon.ts:312-344 | when both blocks resolve and differ, the conflicting lines are disposed and the new line is added unless one already joined them; the edges become exactly `AddEdge` and the labels exactly `CreateOrders` |
| BtBaseNodeIcons.BtBaseNodeIcon.CompleteLine | core/icons/bt_base_node_icon.ts:327-344 | once the dispose pass found no line joining the blocks, adding the line and running the updates gives exactly `AddEdge` and `CreateOrders` of the lines before the pass |
| BtBaseNodeIcons.BtBaseNodeIcon.AppendLine | core/icons/bt_base_node_icon.ts:331-344 | a new line is appended and the labels become those of the first update that succeeds |
| BtBaseNodeIcons.BtBaseNodeIcon.PushLine | core/icons/bt_base_node_icon.ts:331-334 | the new line with the given ends joins the end of the collection |
| BtBaseNodeIcons.BtBaseNodeIcon.RefreshOrders | core/icons/bt_base_node_icon.ts:341-344 | the update is tried on the from block and then the to block, stopping at the first that returns true |
| BtBaseNodeIcons.BtBaseNodeIcon.DisposeOne | core/icons/bt_base_node_icon.ts:318-325 | disposing one line found in the collection removes exactly that line |
| BtBaseNodeIcons.BtBaseNodeIcon.DisposeConflicts | core/icons/bt_base_node_icon.ts:312-329 | the collection afterwards is exactly `KeepLines`, its edges exactly `KeepEdges`, and `isExist` holds iff a line joined the two blocks before the pass |
| BtLeftNodeIcons.BtLeftNodeIcon.OnMouseDown | core/icons/bt_left_node_icon.ts:26-32 | arms `(this block, isLeft = true)`, replacing any armed state |
| BtLeftNodeIcons.BtLeftNodeIcon.OnMouseUp | core/icons/bt_left_node_icon.ts:34-50 | a release the base handles returns true with no line change; with a left source armed it returns false and keeps the armed state; with a right source R armed it performs `createArrowLine(R, this)`, disarms and returns true |
| BtRightNodeIcons.BtRightNodeIcon.OnMouseDown | core/icons/bt_right_node_icon.ts:31-36 | arms `(this block, isLeft = false)`, replacing any armed state |
| BtRightNodeIcons.BtRightNodeIcon.OnMouseUp | core/icons/bt_right_node_icon.ts:38-55 | a release the base handles returns true with no line change; with a right source armed it returns false and keeps the armed state; with a left source L armed it performs `createArrowLine(this, L)`, disarms and returns true |

## Left out

- SVG and DOM rendering is left out: the element creation in both `initView`s, CSS, class-name attributes, `rerenderLine` in `onLocationChange`, and `getLineOffset`. The order icon's text element is modelled as an optional string.
- The base icon's `getWeight`, `getSize`, `onClick`, bubble lifecycle and anchor geometry are presentation only and are left out. So is the order icon's `getWeight` (the constant `BtOrderIcon.WEIGHT`, 10), which only orders icons on a block.
- Event firing (`eventUtils.fire`, `fireCreateEvent`) and `console.log` have no effect on the modelled state and are left out.
- The hit-test branch of `onMouseUp` (`document.elementFromPoint` and the synthetic touch event) becomes the `forwarded` parameter. Its result (true) is modelled; the DOM lookup is not.
- `onMouseDown`'s gesture and bubble start is left out; only its `recordDownPoint` call is modelled. An inactive icon still arms, as in the source.
- Fresh ids (`genUid`) are a `uid` parameter. The comment id lookup that decides whether `opt_id` is taken is the workspace's `commentIds` set.
- `workspace.rendered` and `initSvg` after creating a line are left out (rendering).
- core/workspace_arrowline_svg.ts is not part of this model. It is path drawing over floating-point coordinates, and its parsers delegate to the ones modelled here.
- The host workspace (`getBlockById`, `getTopBlocks`, `getNextBlock`, `getChildren(false)[0]`, `getInput('DO')`, `getBoundingRectangle().top`) is modelled as the `Block` map, the top-block sequence and integer tops. Object identity of blocks is replaced by ids.
- `TreeNode` objects are arena entries addressed by index. The node aliasing the source relies on, through `nodes[blockId]`, is the shared index.
- JavaScript numbers are modelled as unbounded `int`. Floating-point rounding above 2^53 is not modelled.
- `setNodeOrder(null)` and `btOrder?.setOrder` are both modelled as setting the block's entry in the label map, which holds one entry per block that has an order icon.
- BehaviorOrderManagers.BehaviorOrderManager.CreateNodeTree: requires every line end to resolve. In the source, an unresolved `from` end makes `nodes[from].addChild` throw a TypeError. An unresolved `to` end passes `undefined` to `insertInOrder`. That call throws only when the `from` node already has a child, at `newNode.data.compareTo`. Otherwise the undefined child is stored. A later insertion beside it, or `loopNodesWeightSum` reaching it from the root, then throws.
- BehaviorOrderManagers.BehaviorOrderManager.CreateNodeTree: requires that no cycle of lines is reachable from the root (`LinesRanked`). On such a cycle the source's recursion in `updatePreNodesWeightSum` overflows the stack and throws a RangeError. Cycles the root does not reach are allowed.
- BehaviorOrderManagers.BehaviorOrderManager.Update: when `shouldUpdate` holds, requires resolved line ends and `LinesRanked`, as `CreateNodeTree` does. An `update` that gets past `shouldUpdate` and whose root reaches a cycle of lines throws a RangeError in the source, and this model does not describe that call. When `shouldUpdate` fails, nothing is required of the lines, as in the source, which returns false before looking at them.
- BtBaseNodeIcons.BtBaseNodeIcon.CreateArrowLine: requires `CreateReady`, which asks for `LinesRanked` on the new lines only for an update that gets past `shouldUpdate`: the one on `from`, or the one on `to` after the one on `from` returned false. So a gesture that closes a cycle reachable from the root is not modelled when such an update runs; in the source that update throws a RangeError. `QuietCycleThroughRoot` shows that the same gesture is modelled when neither update gets past `shouldUpdate`, and `CycleOffRootRanked` that a gesture closing a cycle the root does not reach is modelled.
- BtLeftNodeIcons.BtLeftNodeIcon.OnMouseUp: a release that closes a cycle reachable from the root is excluded when one of its updates gets past `shouldUpdate`, as for `CreateArrowLine`.
- BtRightNodeIcons.BtRightNodeIcon.OnMouseUp: a release that closes a cycle reachable from the root is excluded when one of its updates gets past `shouldUpdate`, as for `CreateArrowLine`.
- BehaviorOrderManagers.BehaviorOrderManager.Update: a tree node's block without a first child makes `renderTreeOrder` throw. The model requires every such block to have one (`AllRenderable`).
- BehaviorOrder.UpdateLabelsTree: the consecutive-labels result is stated for trees whose chains are disjoint and whose node weights equal their chain lengths. It says nothing about other trees.
- BehaviorOrder.ShouldUpdate: models the source's `?? null !== null`, which parses as `?? false` and tests truthiness. `ShouldUpdateReadings` gives the input (a successor labelled 0) where this differs from a null test.
- WorkspaceArrowlines.FromXml: drops the parsed id and always takes a fresh one, as the source does. `LoadState` passes it on.
- Messages.SplitJoin: `getText` is related back to the messages only when no message contains a newline. With newlines the joined text does not determine the messages.

=== FILE: behavior_node_models.dfy ===
/** Tree nodes, their vertically ordered child lists and the pre-order listing
    of a tree (core/behavior_node_models.ts). Nodes live in an arena (a sequence)
    and refer to their children by arena index. */
module BehaviorNodeModels {
  import opened Blocks

  /** One tree node: the block it wraps, that block's vertical position, its
      weight, the running pre-order weight offset and its children, as arena indices. */
  datatype TreeNode = TreeNode(value: Id, rectTop: int, weight: nat, preNodesWeightSum: int, children: seq<nat>)

  /** `new TreeNode(value, weight, top)`. */
  function NewTreeNode(value: Id, weight: nat, top: int): (n: TreeNode)
    ensures n.value == value && n.weight == weight && n.rectTop == top
    ensures n.preNodesWeightSum == 0 && n.children == []
  {
    TreeNode(value, top, weight, 0, [])
  }

  /** `compareTo`: negative, zero or positive as this node sits above, level with or below the other. */
  function CompareTo(a: TreeNode, b: TreeNode): (d: int)
    ensures d < 0 <==> a.rectTop < b.rectTop
    ensures d == 0 <==> a.rectTop == b.rectTop
    ensures d > 0 <==> a.rectTop > b.rectTop
  {
    a.rectTop - b.rectTop
  }

  /** The ordering is antisymmetric. */
  lemma CompareToAntisymmetric(a: TreeNode, b: TreeNode)
    ensures CompareTo(a, b) == -CompareTo(b, a)
  {
  }

  /** Keys of a list are non-decreasing from head to tail. */
  ghost predicate SortedBy<T>(s: seq<T>, key: T -> int)
  {
    forall i, j :: 0 <= i < j < |s| ==> key(s[i]) <= key(s[j])
  }

  /** Where `insertInOrder` links a new element in: before the head when the list is
      empty or the element's key is below the head's, otherwise after the head and
      after every following element whose key is strictly below the new one's. */
  function InsertPos<T>(s: seq<T>, x: T, key: T -> int): (p: nat)
    ensures p <= |s|
  {
    if s == [] || key(x) < key(s[0]) then 0 else 1 + ScanPast(s[1..], x, key)
  }

  /** The number of leading elements whose key is strictly below the key of `x`. */
  function ScanPast<T>(s: seq<T>, x: T, key: T -> int): (n: nat)
    ensures n <= |s|
  {
    if s != [] && key(s[0]) < key(x) then 1 + ScanPast(s[1..], x, key) else 0
  }

  /** The list after `insertInOrder(x)`. */
  function Inserted<T>(s: seq<T>, x: T, key: T -> int): seq<T>
  {
    var p := InsertPos(s, x, key);
    s[..p] + [x] + s[p..]
  }

  /** What `ScanPast` counts: every skipped element is below `x` and the first one
      not skipped (if any) is not. */
  lemma {:induction false} ScanPastBounds<T>(s: seq<T>, x: T, key: T -> int)
    ensures forall j :: 0 <= j < ScanPast(s, x, key) ==> key(s[j]) < key(x)
    ensures ScanPast(s, x, key) < |s| ==> key(s[ScanPast(s, x, key)]) >= key(x)
  {
    if s != [] && key(s[0]) < key(x) {
      ScanPastBounds(s[1..], x, key);
      forall j | 0 <= j < ScanPast(s, x, key) ensures key(s[j]) < key(x) {
        if j > 0 { assert s[j] == s[1..][j - 1]; }
      }
    }
  }

  /** The insertion position, stated without the scan: zero exactly when the list is
      empty or the element is strictly above the head; otherwise every element strictly
      between the head and the position is strictly above the new element, and the one
      at the position (if any) is not. */
  lemma InsertPosMeaning<T>(s: seq<T>, x: T, key: T -> int)
    ensures var p := InsertPos(s, x, key);
      && (p == 0 <==> s == [] || key(x) < key(s[0]))
      && (p > 0 ==> forall j :: 1 <= j < p ==> key(s[j]) < key(x))
      && (p > 0 && p < |s| ==> key(s[p]) >= key(x))
  {
    if s != [] && !(key(x) < key(s[0])) {
      ScanPastBounds(s[1..], x, key);
      var p := InsertPos(s, x, key);
      forall j | 1 <= j < p ensures key(s[j]) < key(x) { assert s[j] == s[1..][j - 1]; }
      if p < |s| { assert s[p] == s[1..][p - 1]; }
    }
  }

  /** `insertInOrder` adds exactly the new element and keeps every existing one, in order. */
  lemma InsertedContents<T>(s: seq<T>, x: T, key: T -> int)
    ensures |Inserted(s, x, key)| == |s| + 1
    ensures multiset(Inserted(s, x, key)) == multiset(s) + multiset{x}
    ensures var p := InsertPos(s, x, key);
      Inserted(s, x, key)[p] == x && Inserted(s, x, key)[..p] + Inserted(s, x, key)[p + 1..] == s
  {
    var p := InsertPos(s, x, key);
    var r := Inserted(s, x, key);
    assert s == s[..p] + s[p..];
    assert r[..p] == s[..p];
    assert r[p + 1..] == s[p..];
  }

  /** Each element of the new list is the new element or an old one, and every old one is still there. */
  lemma InsertedElements<T>(s: seq<T>, x: T, key: T -> int)
    ensures x in Inserted(s, x, key)
    ensures forall k :: 0 <= k < |Inserted(s, x, key)| ==> Inserted(s, x, key)[k] == x || Inserted(s, x, key)[k] in s
    ensures forall k :: 0 <= k < |s| ==> s[k] in Inserted(s, x, key)
  {
    var p := InsertPos(s, x, key);
    var r := Inserted(s, x, key);
    assert r[p] == x;
    forall k | 0 <= k < |r| ensures r[k] == x || r[k] in s {
      if k < p { assert r[k] == s[k]; } else if k > p { assert r[k] == s[k - 1]; }
    }
    forall k | 0 <= k < |s| ensures s[k] in r {
      if k < p { assert r[k] == s[k]; } else { assert r[k + 1] == s[k]; }
    }
  }

  /** A list kept sorted by key stays sorted after `insertInOrder`. */
  lemma InsertedSorted<T>(s: seq<T>, x: T, key: T -> int)
    requires SortedBy(s, key)
    ensures SortedBy(Inserted(s, x, key), key)
  {
    InsertPosMeaning(s, x, key);
    var p := InsertPos(s, x, key);
    var r := Inserted(s, x, key);
    assert p > 0 ==> key(s[p - 1]) <= key(x);
    forall i, j | 0 <= i < j < |r| ensures key(r[i]) <= key(r[j]) {
      if j < p {
        assert r[i] == s[i] && r[j] == s[j];
      } else if j == p {
        assert r[i] == s[i] && key(s[i]) <= key(s[p - 1]);
      } else if i == p {
        assert r[j] == s[j - 1] && key(s[p]) <= key(s[j - 1]);
      } else if i < p {
        assert r[i] == s[i] && r[j] == s[j - 1];
      } else {
        assert r[i] == s[i - 1] && r[j] == s[j - 1];
      }
    }
  }

  /** An element strictly above the head, or any element of an empty list, becomes the new head. */
  lemma InsertedNewHead<T>(s: seq<T>, x: T, key: T -> int)
    requires s == [] || key(x) < key(s[0])
    ensures Inserted(s, x, key) == [x] + s
  {
  }

  /** Ties are not first-come: in a sorted list, an element level with the head goes
      directly after the head, ahead of any older element with the same key. */
  lemma InsertedTieAfterHead<T>(s: seq<T>, x: T, key: T -> int)
    requires SortedBy(s, key) && s != [] && key(x) == key(s[0])
    ensures Inserted(s, x, key) == [s[0], x] + s[1..]
  {
    InsertPosMeaning(s, x, key);
    assert InsertPos(s, x, key) == 1;
  }

  /** `LinkedList.insertInOrder`: walk from the head while the next element sorts
      strictly above the new one, then link the new element in. */
  method InsertInOrder<T>(items: seq<T>, x: T, key: T -> int) returns (r: seq<T>)
    ensures r == Inserted(items, x, key)
  {
    if items == [] || key(x) < key(items[0]) {
      r := [x] + items;
      return;
    }
    var current := 0;
    while current + 1 < |items| && key(items[current + 1]) < key(x)
      invariant 0 <= current < |items|
      invariant current + ScanPast(items[current + 1..], x, key) == ScanPast(items[1..], x, key)
      decreases |items| - current
    {
      assert items[current + 1..][1..] == items[current + 2..];
      current := current + 1;
    }
    assert ScanPast(items[current + 1..], x, key) == 0;
    r := items[..current + 1] + [x] + items[current + 1..];
  }

  /** `LinkedList.forEach`: the callback's calls, in order, as (element, index) pairs. */
  method ForEach<T>(items: seq<T>) returns (visits: seq<(T, nat)>)
    ensures |visits| == |items|
    ensures forall k :: 0 <= k < |items| ==> visits[k] == (items[k], k)
  {
    visits := [];
    var index := 0;
    while index < |items|
      invariant 0 <= index <= |items| && |visits| == index
      invariant forall k :: 0 <= k < index ==> visits[k] == (items[k], k)
    {
      visits := visits + [(items[index], index)];
      index := index + 1;
    }
  }

  /** The sort key of a child index: its node's `rectTop`. */
  function TopKey(nodes: seq<TreeNode>): nat -> int
  {
    (c: nat) => if c < |nodes| then nodes[c].rectTop else 0
  }

  /** `addChild`: `insertInOrder` into the parent's children, ordered by `rectTop`. */
  function WithChild(nodes: seq<TreeNode>, parent: nat, child: nat): (r: seq<TreeNode>)
    requires parent < |nodes|
    ensures |r| == |nodes|
  {
    nodes[parent := nodes[parent].(children := Inserted(nodes[parent].children, child, TopKey(nodes)))]
  }

  /** `addChild` touches only the parent, and only its children, which gain exactly
      the new child and stay sorted by `rectTop` when they were. */
  lemma WithChildMeaning(nodes: seq<TreeNode>, parent: nat, child: nat)
    requires parent < |nodes|
    ensures var r := WithChild(nodes, parent, child);
      && (forall j :: 0 <= j < |nodes| && j != parent ==> r[j] == nodes[j])
      && r[parent] == nodes[parent].(children := r[parent].children)
      && multiset(r[parent].children) == multiset(nodes[parent].children) + multiset{child}
      && (SortedBy(nodes[parent].children, TopKey(nodes)) ==> SortedBy(r[parent].children, TopKey(nodes)))
  {
    InsertedContents(nodes[parent].children, child, TopKey(nodes));
    if SortedBy(nodes[parent].children, TopKey(nodes)) {
      InsertedSorted(nodes[parent].children, child, TopKey(nodes));
    }
  }

  // ---------------------------------------------------------------------------
  // Pre-order listing

  /** Every child index is in the arena, and the children of a node of positive
      rank have positive, strictly lower ranks: no cycle is reachable from a node
      of positive rank. Nodes of rank 0 are unconstrained, so the arena as a whole
      may hold cycles that the listed subtree does not reach. */
  ghost predicate Ranked(nodes: seq<TreeNode>, rank: seq<nat>)
  {
    && |rank| == |nodes|
    && forall i, k :: 0 <= i < |nodes| && 0 <= k < |nodes[i].children| ==>
         && nodes[i].children[k] < |nodes|
         && (rank[i] > 0 ==> 0 < rank[nodes[i].children[k]] < rank[i])
  }

  /** The node, then each child's subtree in the child list's order. */
  ghost function PreOrder(nodes: seq<TreeNode>, rank: seq<nat>, i: nat): (p: seq<nat>)
    requires Ranked(nodes, rank) && i < |nodes| && rank[i] > 0
    ensures p != [] && p[0] == i
    ensures forall k :: 0 <= k < |p| ==> p[k] < |nodes|
    decreases rank[i], 1
  {
    [i] + PreOrderAll(nodes, rank, nodes[i].children, rank[i])
  }

  /** The subtrees of a list of sibling nodes, one after the other. */
  ghost function PreOrderAll(nodes: seq<TreeNode>, rank: seq<nat>, cs: seq<nat>, bound: nat): (p: seq<nat>)
    requires Ranked(nodes, rank)
    requires forall k :: 0 <= k < |cs| ==> cs[k] < |nodes| && 0 < rank[cs[k]] < bound
    ensures forall k :: 0 <= k < |p| ==> p[k] < |nodes|
    decreases bound, 0, |cs|
  {
    if cs == [] then []
    else PreOrderAll(nodes, rank, cs[..|cs| - 1], bound) + PreOrder(nodes, rank, cs[|cs| - 1])
  }

  /** The number of nodes of the subtree at `i`, counting a shared subtree once per path to it. */
  ghost function Size(nodes: seq<TreeNode>, rank: seq<nat>, i: nat): nat
    requires Ranked(nodes, rank) && i < |nodes| && rank[i] > 0
    decreases rank[i], 1
  {
    1 + SizeAll(nodes, rank, nodes[i].children, rank[i])
  }

  ghost function SizeAll(nodes: seq<TreeNode>, rank: seq<nat>, cs: seq<nat>, bound: nat): nat
    requires Ranked(nodes, rank)
    requires forall k :: 0 <= k < |cs| ==> cs[k] < |nodes| && 0 < rank[cs[k]] < bound
    decreases bound, 0, |cs|
  {
    if cs == [] then 0 else SizeAll(nodes, rank, cs[..|cs| - 1], bound) + Size(nodes, rank, cs[|cs| - 1])
  }

  /** The pre-order listing holds one entry per node of the subtree. */
  lemma {:induction false} PreOrderLength(nodes: seq<TreeNode>, rank: seq<nat>, i: nat)
    requires Ranked(nodes, rank) && i < |nodes| && rank[i] > 0
    ensures |PreOrder(nodes, rank, i)| == Size(nodes, rank, i)
    decreases rank[i], 1
  {
    PreOrderAllLength(nodes, rank, nodes[i].children, rank[i]);
  }

  lemma {:induction false} PreOrderAllLength(nodes: seq<TreeNode>, rank: seq<nat>, cs: seq<nat>, bound: nat)
    requires Ranked(nodes, rank)
    requires forall k :: 0 <= k < |cs| ==> cs[k] < |nodes| && 0 < rank[cs[k]] < bound
    ensures |PreOrderAll(nodes, rank, cs, bound)| == SizeAll(nodes, rank, cs, bound)
    decreases bound, 0, |cs|
  {
    if cs != [] {
      PreOrderAllLength(nodes, rank, cs[..|cs| - 1], bound);
      PreOrderLength(nodes, rank, cs[|cs| - 1]);
    }
  }

  /** Every node listed after the subtree's root ranks below it, so the root is
      listed exactly once. */
  lemma {:induction false} PreOrderRanks(nodes: seq<TreeNode>, rank: seq<nat>, i: nat)
    requires Ranked(nodes, rank) && i < |nodes| && rank[i] > 0
    ensures forall k :: 1 <= k < |PreOrder(nodes, rank, i)| ==> rank[PreOrder(nodes, rank, i)[k]] < rank[i]
    ensures i !in PreOrder(nodes, rank, i)[1..]
    decreases rank[i], 1
  {
    var p := PreOrder(nodes, rank, i);
    var rest := PreOrderAll(nodes, rank, nodes[i].children, rank[i]);
    PreOrderAllRanks(nodes, rank, nodes[i].children, rank[i]);
    assert p[1..] == rest;
  }

  lemma {:induction false} PreOrderAllRanks(nodes: seq<TreeNode>, rank: seq<nat>, cs: seq<nat>, bound: nat)
    requires Ranked(nodes, rank)
    requires forall k :: 0 <= k < |cs| ==> cs[k] < |nodes| && 0 < rank[cs[k]] < bound
    ensures forall k :: 0 <= k < |PreOrderAll(nodes, rank, cs, bound)| ==> rank[PreOrderAll(nodes, rank, cs, bound)[k]] < bound
    decreases bound, 0, |cs|
  {
    if cs != [] {
      var c := cs[|cs| - 1];
      PreOrderAllRanks(nodes, rank, cs[..|cs| - 1], bound);
      PreOrderRanks(nodes, rank, c);
      var a, b := PreOrderAll(nodes, rank, cs[..|cs| - 1], bound), PreOrder(nodes, rank, c);
      forall k | 0 <= k < |a + b| ensures rank[(a + b)[k]] < bound {
        if k > |a| { assert (a + b)[k] == b[k - |a|]; }
      }
    }
  }

  /** The listing of the first j children is a prefix of the listing of all of them. */
  lemma {:induction false} PreOrderAllPrefix(nodes: seq<TreeNode>, rank: seq<nat>, cs: seq<nat>, bound: nat, j: nat)
    requires Ranked(nodes, rank) && j <= |cs|
    requires forall k :: 0 <= k < |cs| ==> cs[k] < |nodes| && 0 < rank[cs[k]] < bound
    ensures PreOrderAll(nodes, rank, cs[..j], bound) <= PreOrderAll(nodes, rank, cs, bound)
    decreases |cs| - j
  {
    if j < |cs| {
      PreOrderAllPrefix(nodes, rank, cs, bound, j + 1);
      assert cs[..j + 1][..j] == cs[..j];
    } else {
      assert cs[..j] == cs;
    }
  }

  /** Walking a node's children: the listing so far grows by the next child's
      subtree and stays a prefix of the node's own listing. */
  lemma PreOrderChildStep(nodes: seq<TreeNode>, rank: seq<nat>, node: nat, k: nat)
    requires Ranked(nodes, rank) && node < |nodes| && rank[node] > 0 && k < |nodes[node].children|
    ensures var cs := nodes[node].children;
      && [node] + PreOrderAll(nodes, rank, cs[..k + 1], rank[node]) ==
         [node] + PreOrderAll(nodes, rank, cs[..k], rank[node]) + PreOrder(nodes, rank, cs[k])
      && [node] + PreOrderAll(nodes, rank, cs[..k + 1], rank[node]) <= PreOrder(nodes, rank, node)
  {
    var cs := nodes[node].children;
    assert cs[..k + 1][..k] == cs[..k];
    PreOrderAllPrefix(nodes, rank, cs, rank[node], k + 1);
  }

  /** Every node listed for a child's subtree is listed for its parent's. */
  lemma ChildSubtreeListed(nodes: seq<TreeNode>, rank: seq<nat>, node: nat, k: nat)
    requires Ranked(nodes, rank) && node < |nodes| && rank[node] > 0 && k < |nodes[node].children|
    ensures forall i :: 0 <= i < |PreOrder(nodes, rank, nodes[node].children[k])| ==>
      PreOrder(nodes, rank, nodes[node].children[k])[i] in PreOrder(nodes, rank, node)
  {
    var cs := nodes[node].children;
    PreOrderAllPrefix(nodes, rank, cs, rank[node], k + 1);
    assert cs[..k + 1][..k] == cs[..k];
    var whole := PreOrderAll(nodes, rank, cs, rank[node]);
    var before := PreOrderAll(nodes, rank, cs[..k], rank[node]);
    var sub := PreOrder(nodes, rank, cs[k]);
    assert before + sub <= whole;
    forall i | 0 <= i < |sub| ensures sub[i] in PreOrder(nodes, rank, node) {
      assert sub[i] == whole[|before| + i];
      assert PreOrder(nodes, rank, node)[1 + |before| + i] == sub[i];
    }
  }

  /** Arenas with the same child lists. */
  ghost predicate SameChildren(a: seq<TreeNode>, b: seq<TreeNode>)
  {
    |a| == |b| && forall j :: 0 <= j < |a| ==> a[j].children == b[j].children
  }

  /** The listing depends on the child lists only. */
  lemma {:induction false} PreOrderSameChildren(a: seq<TreeNode>, b: seq<TreeNode>, rank: seq<nat>, i: nat)
    requires Ranked(a, rank) && SameChildren(a, b) && i < |a| && rank[i] > 0
    ensures Ranked(b, rank) && PreOrder(a, rank, i) == PreOrder(b, rank, i)
    decreases rank[i], 1
  {
    PreOrderAllSameChildren(a, b, rank, a[i].children, rank[i]);
  }

  lemma {:induction false} PreOrderAllSameChildren(a: seq<TreeNode>, b: seq<TreeNode>, rank: seq<nat>, cs: seq<nat>, bound: nat)
    requires Ranked(a, rank) && SameChildren(a, b)
    requires forall k :: 0 <= k < |cs| ==> cs[k] < |a| && 0 < rank[cs[k]] < bound
    ensures Ranked(b, rank) && PreOrderAll(a, rank, cs, bound) == PreOrderAll(b, rank, cs, bound)
    decreases bound, 0, |cs|
  {
    assert Ranked(b, rank) by {
      forall i, k | 0 <= i < |b| && 0 <= k < |b[i].children|
        ensures b[i].children[k] < |b| && (rank[i] > 0 ==> 0 < rank[b[i].children[k]] < rank[i])
      {
        assert b[i].children == a[i].children;
      }
    }
    if cs != [] {
      PreOrderAllSameChildren(a, b, rank, cs[..|cs| - 1], bound);
      PreOrderSameChildren(a, b, rank, cs[|cs| - 1]);
    }
  }

  /** `treeToList(node, result)`: appends the node and then, through `forEach`,
      each child's subtree to the shared result list. */
  method TreeToList(nodes: seq<TreeNode>, ghost rank: seq<nat>, node: nat, result: seq<nat>) returns (r: seq<nat>)
    requires Ranked(nodes, rank) && node < |nodes| && rank[node] > 0
    ensures r == result + PreOrder(nodes, rank, node)
    decreases rank[node], 1
  {
    r := result + [node];
    var cs := nodes[node].children;
    var k := 0;
    while k < |cs|
      invariant 0 <= k <= |cs|
      invariant forall m :: 0 <= m < |cs| ==> cs[m] < |nodes| && 0 < rank[cs[m]] < rank[node]
      invariant r == result + [node] + PreOrderAll(nodes, rank, cs[..k], rank[node])
    {
      assert cs[..k + 1][..k] == cs[..k];
      r := TreeToList(nodes, rank, cs[k], r);
      k := k + 1;
    }
    assert cs[..k] == cs;
  }
}

=== FILE: behavior_order.dfy ===
/** What `BehaviorOrderManager` computes (core/behavior_order_manager.ts), as
    functions of the workspace's blocks, labels and edges: the tree built from
    the arrow lines, its pre-order weight offsets, and the labels the update
    writes. The class in behavior_order_manager.dfy is proved against these. */
module BehaviorOrder {
  import opened Wrappers
  import opened BtNodeTypes
  import opened Blocks
  import opened BehaviorNodeModels
  import opened WorkspaceArrowlines

  // ---------------------------------------------------------------------------
  // Preconditions the source relies on

  /** Every line's ends resolve to live blocks (`nodes[from].addChild(nodes[to])`
      dereferences both). */
  ghost predicate EndpointsResolve(blocks: map<Id, Block>, edges: seq<Edge>)
  {
    forall k :: 0 <= k < |edges| ==> Resolves(blocks, edges[k].from) && Resolves(blocks, edges[k].to)
  }

  /** A block's edge rank; a block the ranking leaves out has rank 0. */
  ghost function Rank(edgeRank: map<Id, nat>, id: Id): nat
  {
    if id in edgeRank then edgeRank[id] else 0
  }

  /** Every line out of a block of positive rank goes to a block of positive,
      strictly lower rank, so no cycle of lines is reachable from a block of
      positive rank. Lines out of blocks of rank 0 are unconstrained: they may
      form cycles, as long as the root does not reach them. */
  ghost predicate EdgesRanked(edges: seq<Edge>, edgeRank: map<Id, nat>)
    decreases |edges|
  {
    edges != [] ==> EdgesRanked(edges[..|edges| - 1], edgeRank) && LineRanked(edges[|edges| - 1], edgeRank)
  }

  /** `EdgesRanked` holds exactly when every line is ranked. */
  lemma {:induction false} EdgesRankedMeaning(edges: seq<Edge>, edgeRank: map<Id, nat>)
    ensures EdgesRanked(edges, edgeRank) <==> forall k :: 0 <= k < |edges| ==> LineRanked(edges[k], edgeRank)
    decreases |edges|
  {
    if edges != [] {
      var front := edges[..|edges| - 1];
      EdgesRankedMeaning(front, edgeRank);
      assert forall k :: 0 <= k < |front| ==> front[k] == edges[k];
    }
  }

  /** A line out of a block of positive rank goes to a block of positive, lower rank. */
  ghost predicate LineRanked(e: Edge, edgeRank: map<Id, nat>)
  {
    Rank(edgeRank, e.from) > 0 ==> 0 < Rank(edgeRank, e.to) < Rank(edgeRank, e.from)
  }

  /** The root `createNodeTree` takes from the lines, the first TOP end in
      line-then-(from, to) order, has a positive rank unless no line leaves it:
      together with `EdgesRanked`, the lines reachable from the root form no cycle. */
  ghost predicate RootRanked(blocks: map<Id, Block>, edges: seq<Edge>, edgeRank: map<Id, nat>)
  {
    forall m: nat :: FirstTopAt(blocks, Ends(edges), m) ==>
      Rank(edgeRank, Ends(edges)[m]) > 0 || Targets(edges, Ends(edges)[m]) == []
  }

  /** The edge ranks witness that no cycle of lines is reachable from the root. */
  ghost predicate LinesRanked(blocks: map<Id, Block>, edges: seq<Edge>, edgeRank: map<Id, nat>)
  {
    EdgesRanked(edges, edgeRank) && RootRanked(blocks, edges, edgeRank)
  }

  /** Lines none of whose ends is a TOP block need no ranks: with every rank 0
      they are `LinesRanked`, whatever cycles they form, because the root is then
      the fallback node, which no line leaves. */
  lemma UnrootedLinesRanked(blocks: map<Id, Block>, edges: seq<Edge>)
    requires forall m :: 0 <= m < |Ends(edges)| ==> !TopOf(blocks, Ends(edges)[m])
    ensures LinesRanked(blocks, edges, map[])
  {
    EdgesRankedMeaning(edges, map[]);
  }

  /** The block has a first child block (`value.getChildren(false)[0]` is dereferenced). */
  predicate Renderable(blocks: map<Id, Block>, id: Id)
  {
    id in blocks && blocks[id].firstChild.Some?
  }

  // ---------------------------------------------------------------------------
  // createNodeTree

  /** The tree builder's state: the arena of nodes, the `nodes` dictionary from
      block id to arena index, and the root found so far. */
  datatype Builder = Builder(nodes: seq<TreeNode>, index: map<Id, nat>, topNode: Option<nat>)

  /** Every child index names a node of the arena. */
  ghost predicate ChildrenInRange(nodes: seq<TreeNode>)
  {
    forall i, k :: 0 <= i < |nodes| && 0 <= k < |nodes[i].children| ==> nodes[i].children[k] < |nodes|
  }

  /** The dictionary and the arena agree (one node per id, each node at its
      id's index), every child index is in the arena, and the root is a node. */
  ghost predicate BuilderOk(b: Builder)
  {
    && (forall id :: id in b.index ==> b.index[id] < |b.nodes| && b.nodes[b.index[id]].value == id)
    && (forall j :: 0 <= j < |b.nodes| ==> b.nodes[j].value in b.index && b.index[b.nodes[j].value] == j)
    && ChildrenInRange(b.nodes)
    && (b.topNode.Some? ==> b.topNode.value < |b.nodes|)
  }

  /** `getFollowingCount`: the length of the `next` chain from the block, 0 for null. */
  ghost function FollowingCount(blocks: map<Id, Block>, depth: map<Id, nat>, start: Option<Id>): nat
    requires WellLinked(blocks, depth) && Known(blocks, start)
  {
    |Chain(blocks, depth, start)|
  }

  /** `getFollowingCount(null)` is 0; from a block it is at least 1, and exactly
      1 more than from that block's successor. */
  lemma FollowingCountFacts(blocks: map<Id, Block>, depth: map<Id, nat>, start: Option<Id>)
    requires WellLinked(blocks, depth) && Known(blocks, start)
    ensures start.None? ==> FollowingCount(blocks, depth, start) == 0
    ensures start.Some? ==> FollowingCount(blocks, depth, start) >= 1
    ensures start.Some? ==> FollowingCount(blocks, depth, start) == 1 + FollowingCount(blocks, depth, blocks[start.value].next)
  {
  }

  /** The body of `pair.forEach`: the first time an id is met, a node is created
      for it, weighted by the length of its wrapped chain and placed at its block's
      top; it becomes the root if no root has been found and its wrap kind is TOP. */
  ghost function MakeNode(b: Builder, blocks: map<Id, Block>, depth: map<Id, nat>, blockId: Id): (r: Builder)
    requires WellLinked(blocks, depth) && Resolves(blocks, blockId)
    ensures blockId in r.index
    ensures r.index.Keys == b.index.Keys + {blockId}
  {
    if blockId in b.index then b
    else
      var block := blocks[blockId];
      Builder(b.nodes + [NewTreeNode(blockId, FollowingCount(blocks, depth, block.wrappedFirst), block.top)],
              b.index[blockId := |b.nodes|],
              if b.topNode.None? && IsTop(block.wrapKind) then Some(|b.nodes|) else b.topNode)
  }

  lemma MakeNodeOk(b: Builder, blocks: map<Id, Block>, depth: map<Id, nat>, blockId: Id)
    requires WellLinked(blocks, depth) && Resolves(blocks, blockId) && BuilderOk(b)
    ensures BuilderOk(MakeNode(b, blocks, depth, blockId))
  {
    if blockId !in b.index {
      var r := MakeNode(b, blocks, depth, blockId);
      var n := |b.nodes|;
      assert r.nodes[n].value == blockId;
      forall j | 0 <= j < |r.nodes| ensures r.nodes[j].value in r.index && r.index[r.nodes[j].value] == j {
        if j < n { assert r.nodes[j] == b.nodes[j]; }
      }
      forall i, k | 0 <= i < |r.nodes| && 0 <= k < |r.nodes[i].children| ensures r.nodes[i].children[k] < |r.nodes| {
        assert i < n && r.nodes[i] == b.nodes[i];
      }
    }
  }

  /** `nodes[from].addChild(nodes[to])` on the builder. */
  ghost function Link(b: Builder, from: Id, to: Id): (r: Builder)
    requires BuilderOk(b) && from in b.index && to in b.index
    ensures BuilderOk(r) && r.index == b.index && r.topNode == b.topNode
  {
    var p := b.index[from];
    var r := b.(nodes := WithChild(b.nodes, p, b.index[to]));
    assert BuilderOk(r) by {
      InsertedElements(b.nodes[p].children, b.index[to], TopKey(b.nodes));
      forall i, k | 0 <= i < |r.nodes| && 0 <= k < |r.nodes[i].children| ensures r.nodes[i].children[k] < |r.nodes| {
        if i != p { assert r.nodes[i] == b.nodes[i]; }
      }
    }
    r
  }

  /** One `lines.forEach` step: make the nodes of both ends, then `addChild`. */
  ghost function AddLine(b: Builder, blocks: map<Id, Block>, depth: map<Id, nat>, e: Edge): (r: Builder)
    requires WellLinked(blocks, depth) && Resolves(blocks, e.from) && Resolves(blocks, e.to)
    requires BuilderOk(b)
    ensures BuilderOk(r)
    ensures r.index.Keys == b.index.Keys + {e.from, e.to}
  {
    var b1 := MakeNode(b, blocks, depth, e.from);
    MakeNodeOk(b, blocks, depth, e.from);
    var b2 := MakeNode(b1, blocks, depth, e.to);
    MakeNodeOk(b1, blocks, depth, e.to);
    Link(b2, e.from, e.to)
  }

  /** The builder after the forEach over all lines. */
  ghost function AddLines(blocks: map<Id, Block>, depth: map<Id, nat>, edges: seq<Edge>): (r: Builder)
    requires WellLinked(blocks, depth) && EndpointsResolve(blocks, edges)
    ensures BuilderOk(r)
    decreases |edges|
  {
    if edges == [] then Builder([], map[], None)
    else
      var front := edges[..|edges| - 1];
      assert forall k :: 0 <= k < |front| ==> front[k] == edges[k];
      AddLine(AddLines(blocks, depth, front), blocks, depth, edges[|edges| - 1])
  }

  /** Visiting one more line of a prefix of the lines. */
  lemma AddLinesStep(blocks: map<Id, Block>, depth: map<Id, nat>, edges: seq<Edge>, i: nat)
    requires WellLinked(blocks, depth) && EndpointsResolve(blocks, edges) && i < |edges|
    ensures EndpointsResolve(blocks, edges[..i]) && EndpointsResolve(blocks, edges[..i + 1])
    ensures AddLines(blocks, depth, edges[..i + 1]) == AddLine(AddLines(blocks, depth, edges[..i]), blocks, depth, edges[i])
  {
    assert edges[..i + 1][..i] == edges[..i];
  }

  // ---------------------------------------------------------------------------
  // What the built arena is

  /** Both ends of every line, line by line (`getPair()` is `[from, to]`). */
  function Ends(edges: seq<Edge>): (s: seq<Id>)
    ensures |s| == 2 * |edges|
  {
    if edges == [] then []
    else Ends(edges[..|edges| - 1]) + [edges[|edges| - 1].from, edges[|edges| - 1].to]
  }

  /** The `to` ends of the lines leaving `id`, in line order. */
  function Targets(edges: seq<Edge>, id: Id): seq<Id>
  {
    if edges == [] then []
    else Targets(edges[..|edges| - 1], id) + (if edges[|edges| - 1].from == id then [edges[|edges| - 1].to] else [])
  }

  /** The block ids of a list of child indices. */
  function Values(nodes: seq<TreeNode>, cs: seq<nat>): (v: seq<Id>)
    requires forall k :: 0 <= k < |cs| ==> cs[k] < |nodes|
    ensures |v| == |cs| && forall k :: 0 <= k < |cs| ==> v[k] == nodes[cs[k]].value
  {
    seq(|cs|, k requires 0 <= k < |cs| => nodes[cs[k]].value)
  }

  /** The block's wrap kind is TOP. */
  predicate TopOf(blocks: map<Id, Block>, id: Id)
  {
    id in blocks && IsTop(blocks[id].wrapKind)
  }

  /** Each node was made from its block: weight = length of the wrapped chain,
      `rectTop` = the block's top, no weight offset yet. */
  ghost predicate Faithful(nodes: seq<TreeNode>, blocks: map<Id, Block>, depth: map<Id, nat>)
    requires WellLinked(blocks, depth)
  {
    forall j :: 0 <= j < |nodes| ==>
      && nodes[j].value in blocks
      && nodes[j].weight == FollowingCount(blocks, depth, blocks[nodes[j].value].wrappedFirst)
      && nodes[j].rectTop == blocks[nodes[j].value].top
      && nodes[j].preNodesWeightSum == 0
  }

  /** The root is the first node, in creation order, whose block is TOP; there is
      none exactly when no node's block is TOP. */
  ghost predicate RootIsFirstTop(b: Builder, blocks: map<Id, Block>)
  {
    && (b.topNode.Some? ==> b.topNode.value < |b.nodes| && TopOf(blocks, b.nodes[b.topNode.value].value))
    && forall j :: 0 <= j < |b.nodes| && (b.topNode.None? || j < b.topNode.value) ==> !TopOf(blocks, b.nodes[j].value)
  }

  /** The root's block is the first TOP block among the lines' ends in
      line-then-(from, to) order; there is no root exactly when none is TOP. */
  ghost predicate RootInEnds(b: Builder, blocks: map<Id, Block>, edges: seq<Edge>)
  {
    var ends := Ends(edges);
    && (b.topNode.Some? ==>
          && b.topNode.value < |b.nodes|
          && exists m :: 0 <= m < |ends| && ends[m] == b.nodes[b.topNode.value].value && FirstTopAt(blocks, ends, m))
    && (b.topNode.None? ==> forall m :: 0 <= m < |ends| ==> !TopOf(blocks, ends[m]))
  }

  /** `ids[m]` is TOP and no earlier one is. */
  ghost predicate FirstTopAt(blocks: map<Id, Block>, ids: seq<Id>, m: nat)
  {
    m < |ids| && TopOf(blocks, ids[m]) && forall m' :: 0 <= m' < m ==> !TopOf(blocks, ids[m'])
  }

  /** The children of a node whose block has positive edge rank have blocks of
      positive, strictly lower edge rank. */
  ghost predicate RankedBy(nodes: seq<TreeNode>, edgeRank: map<Id, nat>)
  {
    forall i, k :: 0 <= i < |nodes| && 0 <= k < |nodes[i].children| ==>
      && nodes[i].children[k] < |nodes|
      && (Rank(edgeRank, nodes[i].value) > 0 ==>
            0 < Rank(edgeRank, nodes[nodes[i].children[k]].value) < Rank(edgeRank, nodes[i].value))
  }

  /** Every child list is ordered by `rectTop`. */
  ghost predicate ChildrenSorted(nodes: seq<TreeNode>)
  {
    forall i :: 0 <= i < |nodes| ==> SortedBy(nodes[i].children, TopKey(nodes))
  }

  /** Each node's children are the `to` ends of its block's lines, as many times
      as the lines occur. */
  ghost predicate ChildrenAreLines(nodes: seq<TreeNode>, edges: seq<Edge>)
    requires ChildrenInRange(nodes)
  {
    forall i :: 0 <= i < |nodes| ==> multiset(Values(nodes, nodes[i].children)) == multiset(Targets(edges, nodes[i].value))
  }

  /** Everything `AddLines` establishes about the arena. */
  ghost predicate BuildInv(b: Builder, blocks: map<Id, Block>, depth: map<Id, nat>, edges: seq<Edge>)
    requires WellLinked(blocks, depth)
  {
    && BuilderOk(b)
    && (forall id :: id in b.index <==> id in Ends(edges))
    && Faithful(b.nodes, blocks, depth)
    && RootIsFirstTop(b, blocks)
    && RootInEnds(b, blocks, edges)
    && ChildrenSorted(b.nodes)
    && ChildrenAreLines(b.nodes, edges)
  }

  /** Two arenas whose nodes agree on everything but their children. */
  ghost predicate SameNodes(a: seq<TreeNode>, b: seq<TreeNode>)
  {
    && |a| == |b|
    && forall j :: 0 <= j < |a| ==>
         a[j].value == b[j].value && a[j].weight == b[j].weight &&
         a[j].rectTop == b[j].rectTop && a[j].preNodesWeightSum == b[j].preNodesWeightSum
  }

  lemma SortedByAgree(s: seq<nat>, k1: nat -> int, k2: nat -> int)
    requires SortedBy(s, k1)
    requires forall k :: 0 <= k < |s| ==> k1(s[k]) == k2(s[k])
    ensures SortedBy(s, k2)
  {
    forall i, j | 0 <= i < j < |s| ensures k2(s[i]) <= k2(s[j]) {
      assert k1(s[i]) <= k1(s[j]);
    }
  }

  lemma ValuesAppend(nodes: seq<TreeNode>, a: seq<nat>, b: seq<nat>)
    requires forall k :: 0 <= k < |a| ==> a[k] < |nodes|
    requires forall k :: 0 <= k < |b| ==> b[k] < |nodes|
    ensures Values(nodes, a + b) == Values(nodes, a) + Values(nodes, b)
  {
  }

  lemma ValuesInserted(nodes: seq<TreeNode>, cs: seq<nat>, c: nat, key: nat -> int)
    requires forall k :: 0 <= k < |cs| ==> cs[k] < |nodes|
    requires c < |nodes|
    ensures forall k :: 0 <= k < |Inserted<nat>(cs, c, key)| ==> Inserted<nat>(cs, c, key)[k] < |nodes|
    ensures multiset(Values(nodes, Inserted<nat>(cs, c, key))) == multiset(Values(nodes, cs)) + multiset{nodes[c].value}
  {
    var p := InsertPos(cs, c, key);
    var a, b := cs[..p], cs[p..];
    assert Inserted<nat>(cs, c, key) == a + [c] + b;
    var v := nodes[c].value;
    var va, vb := Values(nodes, a), Values(nodes, b);
    assert Values(nodes, a + [c] + b) == va + [v] + vb by {
      ValuesAppend(nodes, a + [c], b);
      ValuesAppend(nodes, a, [c]);
    }
    assert Values(nodes, cs) == va + vb by {
      assert cs == a + b;
      ValuesAppend(nodes, a, b);
    }
  }

  lemma {:induction false} TargetsOutside(edges: seq<Edge>, id: Id)
    requires id !in Ends(edges)
    ensures Targets(edges, id) == []
    decreases |edges|
  {
    if edges != [] {
      var front := edges[..|edges| - 1];
      assert Ends(edges) == Ends(front) + [edges[|edges| - 1].from, edges[|edges| - 1].to];
      TargetsOutside(front, id);
    }
  }

  // MakeNode appends at most one node and leaves the others alone.

  lemma MakeNodeShape(b: Builder, blocks: map<Id, Block>, depth: map<Id, nat>, id: Id)
    requires WellLinked(blocks, depth) && Resolves(blocks, id)
    ensures var r := MakeNode(b, blocks, depth, id);
      && |b.nodes| <= |r.nodes| <= |b.nodes| + 1
      && (forall j :: 0 <= j < |b.nodes| ==> r.nodes[j] == b.nodes[j])
      && (|r.nodes| == |b.nodes| + 1 ==>
            id !in b.index && r.nodes[|b.nodes|].value == id && r.nodes[|b.nodes|].children == [])
      && (|r.nodes| == |b.nodes| ==> r == b)
  {
  }

  lemma MakeNodeFaithful(b: Builder, blocks: map<Id, Block>, depth: map<Id, nat>, id: Id)
    requires WellLinked(blocks, depth) && Resolves(blocks, id) && Faithful(b.nodes, blocks, depth)
    ensures Faithful(MakeNode(b, blocks, depth, id).nodes, blocks, depth)
  {
    MakeNodeShape(b, blocks, depth, id);
  }

  lemma MakeNodeRoot(b: Builder, blocks: map<Id, Block>, depth: map<Id, nat>, id: Id)
    requires WellLinked(blocks, depth) && Resolves(blocks, id) && RootIsFirstTop(b, blocks)
    ensures RootIsFirstTop(MakeNode(b, blocks, depth, id), blocks)
  {
    MakeNodeShape(b, blocks, depth, id);
  }

  lemma MakeNodeRanked(b: Builder, blocks: map<Id, Block>, depth: map<Id, nat>, edgeRank: map<Id, nat>, id: Id)
    requires WellLinked(blocks, depth) && Resolves(blocks, id) && RankedBy(b.nodes, edgeRank)
    ensures RankedBy(MakeNode(b, blocks, depth, id).nodes, edgeRank)
  {
    MakeNodeShape(b, blocks, depth, id);
  }

  lemma MakeNodeSorted(b: Builder, blocks: map<Id, Block>, depth: map<Id, nat>, id: Id)
    requires WellLinked(blocks, depth) && Resolves(blocks, id)
    requires ChildrenInRange(b.nodes) && ChildrenSorted(b.nodes)
    ensures ChildrenSorted(MakeNode(b, blocks, depth, id).nodes)
  {
    MakeNodeShape(b, blocks, depth, id);
    var r := MakeNode(b, blocks, depth, id);
    forall i | 0 <= i < |r.nodes| ensures SortedBy(r.nodes[i].children, TopKey(r.nodes)) {
      if i < |b.nodes| {
        SortedByAgree(b.nodes[i].children, TopKey(b.nodes), TopKey(r.nodes));
      }
    }
  }

  lemma MakeNodeLines(b: Builder, blocks: map<Id, Block>, depth: map<Id, nat>, edges: seq<Edge>, id: Id)
    requires WellLinked(blocks, depth) && Resolves(blocks, id)
    requires BuilderOk(b) && (forall x :: x in Ends(edges) ==> x in b.index)
    requires ChildrenAreLines(b.nodes, edges)
    ensures BuilderOk(MakeNode(b, blocks, depth, id))
    ensures ChildrenAreLines(MakeNode(b, blocks, depth, id).nodes, edges)
  {
    MakeNodeShape(b, blocks, depth, id);
    MakeNodeOk(b, blocks, depth, id);
    var r := MakeNode(b, blocks, depth, id);
    if r != b {
      var n := |b.nodes|;
      forall i | 0 <= i < |r.nodes|
        ensures multiset(Values(r.nodes, r.nodes[i].children)) == multiset(Targets(edges, r.nodes[i].value))
      {
        if i < n {
          assert r.nodes[i] == b.nodes[i];
          assert Values(r.nodes, b.nodes[i].children) == Values(b.nodes, b.nodes[i].children);
        } else {
          assert r.nodes[i].value == id && r.nodes[i].children == [];
          TargetsOutside(edges, id);
        }
      }
    }
  }

  // Link changes the parent's child list and nothing else.

  lemma LinkShape(b: Builder, from: Id, to: Id)
    requires BuilderOk(b) && from in b.index && to in b.index
    ensures var r := Link(b, from, to);
      && SameNodes(b.nodes, r.nodes)
      && (forall j :: 0 <= j < |b.nodes| && j != b.index[from] ==> r.nodes[j] == b.nodes[j])
      && r.nodes[b.index[from]].children == Inserted<nat>(b.nodes[b.index[from]].children, b.index[to], TopKey(b.nodes))
  {
  }

  lemma SameFaithful(a: seq<TreeNode>, b: seq<TreeNode>, blocks: map<Id, Block>, depth: map<Id, nat>)
    requires WellLinked(blocks, depth) && SameNodes(a, b) && Faithful(a, blocks, depth)
    ensures Faithful(b, blocks, depth)
  {
  }

  lemma SameRoot(a: Builder, b: Builder, blocks: map<Id, Block>)
    requires SameNodes(a.nodes, b.nodes) && a.topNode == b.topNode && RootIsFirstTop(a, blocks)
    ensures RootIsFirstTop(b, blocks)
  {
  }

  lemma LinkRanked(b: Builder, edgeRank: map<Id, nat>, e: Edge)
    requires BuilderOk(b) && e.from in b.index && e.to in b.index
    requires LineRanked(e, edgeRank) && RankedBy(b.nodes, edgeRank)
    ensures RankedBy(Link(b, e.from, e.to).nodes, edgeRank)
  {
    LinkShape(b, e.from, e.to);
    var r := Link(b, e.from, e.to);
    var p, c := b.index[e.from], b.index[e.to];
    var cs := b.nodes[p].children;
    InsertedElements(cs, c, TopKey(b.nodes));
    forall i, k | 0 <= i < |r.nodes| && 0 <= k < |r.nodes[i].children|
      ensures && r.nodes[i].children[k] < |r.nodes|
              && (Rank(edgeRank, r.nodes[i].value) > 0 ==>
                    0 < Rank(edgeRank, r.nodes[r.nodes[i].children[k]].value) < Rank(edgeRank, r.nodes[i].value))
    {
      if i == p && r.nodes[p].children[k] != c {
        var m :| 0 <= m < |cs| && cs[m] == r.nodes[p].children[k];
      }
    }
  }

  lemma LinkSorted(b: Builder, e: Edge)
    requires BuilderOk(b) && e.from in b.index && e.to in b.index
    requires ChildrenSorted(b.nodes)
    ensures ChildrenSorted(Link(b, e.from, e.to).nodes)
  {
    LinkShape(b, e.from, e.to);
    var r := Link(b, e.from, e.to);
    var p, c := b.index[e.from], b.index[e.to];
    forall i | 0 <= i < |r.nodes| ensures SortedBy(r.nodes[i].children, TopKey(r.nodes)) {
      if i == p {
        InsertedSorted(b.nodes[p].children, c, TopKey(b.nodes));
        InsertedElements(b.nodes[p].children, c, TopKey(b.nodes));
        SortedByAgree(r.nodes[p].children, TopKey(b.nodes), TopKey(r.nodes));
      } else {
        SortedByAgree(b.nodes[i].children, TopKey(b.nodes), TopKey(r.nodes));
      }
    }
  }

  /** The targets of `id` after one more line. */
  lemma TargetsSnoc(edges: seq<Edge>, e: Edge, id: Id)
    ensures Targets(edges + [e], id) == Targets(edges, id) + (if e.from == id then [e.to] else [])
  {
    assert (edges + [e])[..|edges|] == edges;
  }

  /** Node i after `Link`: same block, the same children unless it is the parent,
      and its children name the same blocks in the new arena. */
  lemma LinkNodeAt(b: Builder, from: Id, to: Id, i: nat)
    requires BuilderOk(b) && from in b.index && to in b.index && i < |b.nodes|
    ensures var r := Link(b, from, to);
      && i < |r.nodes| && r.nodes[i].value == b.nodes[i].value
      && (forall k :: 0 <= k < |r.nodes[i].children| ==> r.nodes[i].children[k] < |b.nodes|)
      && Values(r.nodes, r.nodes[i].children) == Values(b.nodes, r.nodes[i].children)
      && r.nodes[i].children ==
         if i == b.index[from] then Inserted<nat>(b.nodes[i].children, b.index[to], TopKey(b.nodes)) else b.nodes[i].children
  {
    LinkShape(b, from, to);
    var r := Link(b, from, to);
    assert ChildrenInRange(r.nodes);
    var cs := r.nodes[i].children;
    assert forall k :: 0 <= k < |cs| ==> cs[k] < |r.nodes|;
  }

  lemma LinkLinesAt(b: Builder, edges: seq<Edge>, e: Edge, i: nat)
    requires BuilderOk(b) && e.from in b.index && e.to in b.index && i < |b.nodes|
    requires multiset(Values(b.nodes, b.nodes[i].children)) == multiset(Targets(edges, b.nodes[i].value))
    ensures BuilderOk(Link(b, e.from, e.to))
    ensures var r := Link(b, e.from, e.to);
      multiset(Values(r.nodes, r.nodes[i].children)) == multiset(Targets(edges + [e], r.nodes[i].value))
  {
    LinkNodeAt(b, e.from, e.to, i);
    var id := b.nodes[i].value;
    TargetsSnoc(edges, e, id);
    if i == b.index[e.from] {
      ValuesInserted(b.nodes, b.nodes[i].children, b.index[e.to], TopKey(b.nodes));
    } else {
      assert e.from != id;
    }
  }

  lemma LinkLines(b: Builder, edges: seq<Edge>, e: Edge)
    requires BuilderOk(b) && e.from in b.index && e.to in b.index
    requires ChildrenAreLines(b.nodes, edges)
    ensures ChildrenAreLines(Link(b, e.from, e.to).nodes, edges + [e])
  {
    var r := Link(b, e.from, e.to);
    forall i | 0 <= i < |r.nodes|
      ensures multiset(Values(r.nodes, r.nodes[i].children)) == multiset(Targets(edges + [e], r.nodes[i].value))
    {
      LinkLinesAt(b, edges, e, i);
    }
  }

  lemma FirstTopAtExtend(blocks: map<Id, Block>, a: seq<Id>, b: seq<Id>, m: nat)
    requires FirstTopAt(blocks, a, m)
    ensures FirstTopAt(blocks, a + b, m) && (a + b)[m] == a[m]
  {
  }

  lemma AddLineShape(b: Builder, blocks: map<Id, Block>, depth: map<Id, nat>, e: Edge)
    requires WellLinked(blocks, depth) && Resolves(blocks, e.from) && Resolves(blocks, e.to) && BuilderOk(b)
    ensures var b2 := MakeNode(MakeNode(b, blocks, depth, e.from), blocks, depth, e.to);
      var r := AddLine(b, blocks, depth, e);
      r.topNode == b2.topNode && SameNodes(b2.nodes, r.nodes)
  {
    var b1 := MakeNode(b, blocks, depth, e.from);
    MakeNodeOk(b, blocks, depth, e.from);
    MakeNodeOk(b1, blocks, depth, e.to);
    LinkShape(MakeNode(b1, blocks, depth, e.to), e.from, e.to);
  }

  /** With no TOP block among `ids`, the first TOP block of `extra` is the first
      of `ids + extra`. */
  lemma FirstTopAfter(blocks: map<Id, Block>, ids: seq<Id>, extra: seq<Id>, j: nat)
    requires forall m :: 0 <= m < |ids| ==> !TopOf(blocks, ids[m])
    requires FirstTopAt(blocks, extra, j)
    ensures FirstTopAt(blocks, ids + extra, |ids| + j) && (ids + extra)[|ids| + j] == extra[j]
  {
    var s := ids + extra;
    forall m' | 0 <= m' < |ids| + j ensures !TopOf(blocks, s[m']) {
      if m' < |ids| { assert s[m'] == ids[m']; } else { assert s[m'] == extra[m' - |ids|]; }
    }
  }

  lemma AddLineRoot(b: Builder, blocks: map<Id, Block>, depth: map<Id, nat>, front: seq<Edge>, e: Edge)
    requires WellLinked(blocks, depth) && Resolves(blocks, e.from) && Resolves(blocks, e.to)
    requires BuilderOk(b) && (forall id :: id in b.index <==> id in Ends(front))
    requires RootInEnds(b, blocks, front)
    ensures RootInEnds(AddLine(b, blocks, depth, e), blocks, front + [e])
  {
    assert Ends(front + [e]) == Ends(front) + [e.from, e.to] by {
      assert (front + [e])[..|front|] == front;
    }
    if b.topNode.Some? {
      AddLineRootKept(b, blocks, depth, front, e);
    } else {
      AddLineRootNew(b, blocks, depth, front, e);
    }
  }

  /** A root found before the line stays the root. */
  lemma AddLineRootKept(b: Builder, blocks: map<Id, Block>, depth: map<Id, nat>, front: seq<Edge>, e: Edge)
    requires WellLinked(blocks, depth) && Resolves(blocks, e.from) && Resolves(blocks, e.to)
    requires BuilderOk(b) && b.topNode.Some? && RootInEnds(b, blocks, front)
    requires Ends(front + [e]) == Ends(front) + [e.from, e.to]
    ensures RootInEnds(AddLine(b, blocks, depth, e), blocks, front + [e])
  {
    var ends := Ends(front);
    var b1 := MakeNode(b, blocks, depth, e.from);
    MakeNodeShape(b, blocks, depth, e.from);
    var b2 := MakeNode(b1, blocks, depth, e.to);
    MakeNodeShape(b1, blocks, depth, e.to);
    AddLineShape(b, blocks, depth, e);
    var t := b.topNode.value;
    var m :| 0 <= m < |ends| && ends[m] == b.nodes[t].value && FirstTopAt(blocks, ends, m);
    FirstTopAtExtend(blocks, ends, [e.from, e.to], m);
    assert b2.topNode == b.topNode && b2.nodes[t] == b.nodes[t];
    RootAt(AddLine(b, blocks, depth, e), blocks, front + [e], t, m);
  }

  /** With no root before the line, the root is the line's first TOP end, if any. */
  lemma AddLineRootNew(b: Builder, blocks: map<Id, Block>, depth: map<Id, nat>, front: seq<Edge>, e: Edge)
    requires WellLinked(blocks, depth) && Resolves(blocks, e.from) && Resolves(blocks, e.to)
    requires BuilderOk(b) && (forall id :: id in b.index <==> id in Ends(front))
    requires b.topNode.None? && RootInEnds(b, blocks, front)
    requires Ends(front + [e]) == Ends(front) + [e.from, e.to]
    ensures RootInEnds(AddLine(b, blocks, depth, e), blocks, front + [e])
  {
    var ends := Ends(front);
    var b1 := MakeNode(b, blocks, depth, e.from);
    MakeNodeShape(b, blocks, depth, e.from);
    var b2 := MakeNode(b1, blocks, depth, e.to);
    MakeNodeShape(b1, blocks, depth, e.to);
    AddLineShape(b, blocks, depth, e);
    if TopOf(blocks, e.from) {
      assert e.from !in ends;
      assert b1.topNode == Some(|b.nodes|) && b1.nodes[|b.nodes|].value == e.from;
      FirstTopAfter(blocks, ends, [e.from, e.to], 0);
      RootAt(AddLine(b, blocks, depth, e), blocks, front + [e], |b.nodes|, |ends|);
    } else if TopOf(blocks, e.to) {
      assert e.to !in ends && e.to != e.from;
      assert b1.topNode.None?;
      assert b2.topNode == Some(|b1.nodes|) && b2.nodes[|b1.nodes|].value == e.to;
      FirstTopAfter(blocks, ends, [e.from, e.to], 1);
      RootAt(AddLine(b, blocks, depth, e), blocks, front + [e], |b1.nodes|, |ends| + 1);
    } else {
      assert b1.topNode.None? && b2.topNode.None?;
      NoRoot(AddLine(b, blocks, depth, e), blocks, front, e);
    }
  }

  /** A root at node `t`, whose block is the first TOP end, at position `m`. */
  lemma RootAt(r: Builder, blocks: map<Id, Block>, edges: seq<Edge>, t: nat, m: nat)
    requires r.topNode == Some(t) && t < |r.nodes|
    requires m < |Ends(edges)| && Ends(edges)[m] == r.nodes[t].value && FirstTopAt(blocks, Ends(edges), m)
    ensures RootInEnds(r, blocks, edges)
  {
  }

  /** No root, and no TOP block among the ends. */
  lemma NoRoot(r: Builder, blocks: map<Id, Block>, front: seq<Edge>, e: Edge)
    requires r.topNode.None?
    requires forall m :: 0 <= m < |Ends(front)| ==> !TopOf(blocks, Ends(front)[m])
    requires !TopOf(blocks, e.from) && !TopOf(blocks, e.to)
    requires Ends(front + [e]) == Ends(front) + [e.from, e.to]
    ensures RootInEnds(r, blocks, front + [e])
  {
    var ends, ends' := Ends(front), Ends(front + [e]);
    forall m | 0 <= m < |ends'| ensures !TopOf(blocks, ends'[m]) {
      if m < |ends| { assert ends'[m] == ends[m]; }
    }
  }

  /** The arena `createNodeTree` builds from the lines: the nodes are exactly the
      lines' ends, each made from its block; the root is the first-made TOP node;
      each node's children are its lines' `to` ends, ordered by top. */
  lemma {:induction false} AddLinesFacts(blocks: map<Id, Block>, depth: map<Id, nat>, edges: seq<Edge>)
    requires WellLinked(blocks, depth) && EndpointsResolve(blocks, edges)
    ensures BuildInv(AddLines(blocks, depth, edges), blocks, depth, edges)
    decreases |edges|
  {
    if edges != [] {
      var front := edges[..|edges| - 1];
      var e := edges[|edges| - 1];
      assert edges == front + [e];
      assert forall k :: 0 <= k < |front| ==> front[k] == edges[k];
      AddLinesFacts(blocks, depth, front);
      var b := AddLines(blocks, depth, front);
      var b1 := MakeNode(b, blocks, depth, e.from);
      var b2 := MakeNode(b1, blocks, depth, e.to);
      MakeNodeFaithful(b, blocks, depth, e.from);
      MakeNodeFaithful(b1, blocks, depth, e.to);
      MakeNodeRoot(b, blocks, depth, e.from);
      MakeNodeRoot(b1, blocks, depth, e.to);
      AddLineRoot(b, blocks, depth, front, e);
      MakeNodeSorted(b, blocks, depth, e.from);
      MakeNodeLines(b, blocks, depth, front, e.from);
      MakeNodeSorted(b1, blocks, depth, e.to);
      MakeNodeLines(b1, blocks, depth, front, e.to);
      LinkShape(b2, e.from, e.to);
      SameFaithful(b2.nodes, Link(b2, e.from, e.to).nodes, blocks, depth);
      SameRoot(b2, Link(b2, e.from, e.to), blocks);
      LinkSorted(b2, e);
      LinkLines(b2, front, e);
      assert Ends(edges) == Ends(front) + [e.from, e.to];
    }
  }

  /** `getTopBlocks().filter(block => block.isBtTopNodeOrWrapper())[0]`. */
  function FirstTopOrWrapper(blocks: map<Id, Block>, topBlocks: seq<Id>): (r: Option<Id>)
    requires forall k :: 0 <= k < |topBlocks| ==> topBlocks[k] in blocks
    ensures r.Some? <==> exists k :: 0 <= k < |topBlocks| && blocks[topBlocks[k]].isTopNodeOrWrapper
    ensures r.Some? ==>
      exists k :: 0 <= k < |topBlocks| && topBlocks[k] == r.value && blocks[r.value].isTopNodeOrWrapper &&
        forall m :: 0 <= m < k ==> !blocks[topBlocks[m]].isTopNodeOrWrapper
  {
    if topBlocks == [] then None
    else if blocks[topBlocks[0]].isTopNodeOrWrapper then Some(topBlocks[0])
    else
      var r := FirstTopOrWrapper(blocks, topBlocks[1..]);
      assert forall k :: 1 <= k < |topBlocks| ==> topBlocks[k] == topBlocks[1..][k - 1];
      if r.Some? then
        var k' :| 0 <= k' < |topBlocks[1..]| && topBlocks[1..][k'] == r.value &&
          blocks[r.value].isTopNodeOrWrapper &&
          forall m :: 0 <= m < k' ==> !blocks[topBlocks[1..][m]].isTopNodeOrWrapper;
        assert topBlocks[k' + 1] == r.value;
        assert forall m :: 0 <= m < k' + 1 ==> !blocks[topBlocks[m]].isTopNodeOrWrapper by {
          forall m | 0 <= m < k' + 1 ensures !blocks[topBlocks[m]].isTopNodeOrWrapper {
            if m > 0 { assert topBlocks[m] == topBlocks[1..][m - 1]; }
          }
        }
        r
      else r
  }

  /** The arena and root `createNodeTree` has before it assigns weight offsets: the
      root found among the lines' ends, else a lone node of weight 1 at top 0 for the
      first top-or-wrapper top block, else no root. */
  ghost function NodeTree(blocks: map<Id, Block>, depth: map<Id, nat>, topBlocks: seq<Id>, edges: seq<Edge>): (t: (seq<TreeNode>, Option<nat>))
    requires WellLinked(blocks, depth) && EndpointsResolve(blocks, edges)
    requires forall k :: 0 <= k < |topBlocks| ==> topBlocks[k] in blocks
    ensures t.1.Some? ==> t.1.value < |t.0|
  {
    var b := AddLines(blocks, depth, edges);
    if b.topNode.Some? then (b.nodes, b.topNode)
    else
      match FirstTopOrWrapper(blocks, topBlocks)
      case None => (b.nodes, None)
      case Some(t) =>
        var root: nat := |b.nodes|;
        (b.nodes + [NewTreeNode(t, 1, 0)], Some(root))
  }

  /** The rank of each arena node: 1 for a childless node, else its block's edge rank. */
  ghost function RankSeq(nodes: seq<TreeNode>, edgeRank: map<Id, nat>): (r: seq<nat>)
    ensures |r| == |nodes|
    ensures forall j :: 0 <= j < |nodes| ==> r[j] == if |nodes[j].children| == 0 then 1 else Rank(edgeRank, nodes[j].value)
  {
    seq(|nodes|, j requires 0 <= j < |nodes| => if |nodes[j].children| == 0 then 1 else Rank(edgeRank, nodes[j].value))
  }

  /** Under edge ranks, the arena built from the lines keeps children of ranked
      nodes ranked and lower. */
  lemma {:induction false} AddLinesRanked(blocks: map<Id, Block>, depth: map<Id, nat>, edges: seq<Edge>, edgeRank: map<Id, nat>)
    requires WellLinked(blocks, depth) && EndpointsResolve(blocks, edges) && EdgesRanked(edges, edgeRank)
    ensures RankedBy(AddLines(blocks, depth, edges).nodes, edgeRank)
    decreases |edges|
  {
    if edges != [] {
      var front := edges[..|edges| - 1];
      var e := edges[|edges| - 1];
      assert edges == front + [e];
      assert forall k :: 0 <= k < |front| ==> front[k] == edges[k];
      AddLinesRanked(blocks, depth, front, edgeRank);
      var b := AddLines(blocks, depth, front);
      var b1 := MakeNode(b, blocks, depth, e.from);
      var b2 := MakeNode(b1, blocks, depth, e.to);
      MakeNodeOk(b, blocks, depth, e.from);
      MakeNodeOk(b1, blocks, depth, e.to);
      MakeNodeRanked(b, blocks, depth, edgeRank, e.from);
      MakeNodeRanked(b1, blocks, depth, edgeRank, e.to);
      LinkRanked(b2, edgeRank, e);
    }
  }

  lemma AddLinesRoot(blocks: map<Id, Block>, depth: map<Id, nat>, edges: seq<Edge>)
    requires WellLinked(blocks, depth) && EndpointsResolve(blocks, edges)
    ensures RootInEnds(AddLines(blocks, depth, edges), blocks, edges)
  {
    AddLinesFacts(blocks, depth, edges);
  }

  /** The arena `createNodeTree` builds is ranked by the lines' ranks, so it is a
      finite DAG (the fallback root has no children and is nobody's child). */
  lemma NodeTreeRanked(blocks: map<Id, Block>, depth: map<Id, nat>, topBlocks: seq<Id>, edges: seq<Edge>, edgeRank: map<Id, nat>)
    requires WellLinked(blocks, depth) && EndpointsResolve(blocks, edges) && EdgesRanked(edges, edgeRank)
    requires forall k :: 0 <= k < |topBlocks| ==> topBlocks[k] in blocks
    ensures var t := NodeTree(blocks, depth, topBlocks, edges); Ranked(t.0, RankSeq(t.0, edgeRank))
  {
    AddLinesRanked(blocks, depth, edges, edgeRank);
    NodeTreeExtends(blocks, depth, topBlocks, edges);
    RankedByLeaves(AddLines(blocks, depth, edges).nodes, NodeTree(blocks, depth, topBlocks, edges).0, edgeRank);
  }

  /** The root of the arena `createNodeTree` builds has positive rank: a root from
      the lines is ranked or childless, and the fallback root is childless. */
  lemma NodeTreeRootRanked(blocks: map<Id, Block>, depth: map<Id, nat>, topBlocks: seq<Id>, edges: seq<Edge>, edgeRank: map<Id, nat>)
    requires WellLinked(blocks, depth) && EndpointsResolve(blocks, edges) && RootRanked(blocks, edges, edgeRank)
    requires forall k :: 0 <= k < |topBlocks| ==> topBlocks[k] in blocks
    ensures var t := NodeTree(blocks, depth, topBlocks, edges); t.1.Some? ==> RankSeq(t.0, edgeRank)[t.1.value] > 0
  {
    NodeTreeCases(blocks, depth, topBlocks, edges);
    var b := AddLines(blocks, depth, edges);
    if b.topNode.Some? {
      AddLinesRootRanked(blocks, depth, edges, edgeRank);
    }
  }

  /** A root found among the lines' ends has positive rank. */
  lemma AddLinesRootRanked(blocks: map<Id, Block>, depth: map<Id, nat>, edges: seq<Edge>, edgeRank: map<Id, nat>)
    requires WellLinked(blocks, depth) && EndpointsResolve(blocks, edges) && RootRanked(blocks, edges, edgeRank)
    requires AddLines(blocks, depth, edges).topNode.Some?
    ensures var b := AddLines(blocks, depth, edges); RankSeq(b.nodes, edgeRank)[b.topNode.value] > 0
  {
    AddLinesFacts(blocks, depth, edges);
    BuilderRootRanked(AddLines(blocks, depth, edges), blocks, edges, edgeRank);
  }

  lemma BuilderRootRanked(b: Builder, blocks: map<Id, Block>, edges: seq<Edge>, edgeRank: map<Id, nat>)
    requires BuilderOk(b) && RootInEnds(b, blocks, edges) && ChildrenAreLines(b.nodes, edges)
    requires RootRanked(blocks, edges, edgeRank) && b.topNode.Some?
    ensures RankSeq(b.nodes, edgeRank)[b.topNode.value] > 0
  {
    var r := b.topNode.value;
    var ends := Ends(edges);
    var m :| 0 <= m < |ends| && ends[m] == b.nodes[r].value && FirstTopAt(blocks, ends, m);
    if b.nodes[r].children != [] {
      var vs := Values(b.nodes, b.nodes[r].children);
      assert vs[0] in multiset(vs);
      assert Targets(edges, ends[m]) != [];
    }
  }

  /** The tree's arena is the lines' arena, maybe followed by a childless fallback root. */
  lemma NodeTreeExtends(blocks: map<Id, Block>, depth: map<Id, nat>, topBlocks: seq<Id>, edges: seq<Edge>)
    requires WellLinked(blocks, depth) && EndpointsResolve(blocks, edges)
    requires forall k :: 0 <= k < |topBlocks| ==> topBlocks[k] in blocks
    ensures var nodes := AddLines(blocks, depth, edges).nodes;
      var ext := NodeTree(blocks, depth, topBlocks, edges).0;
      && |nodes| <= |ext|
      && (forall j :: 0 <= j < |nodes| ==> ext[j] == nodes[j])
      && (forall j :: |nodes| <= j < |ext| ==> ext[j].children == [])
  {
    var b := AddLines(blocks, depth, edges);
    var f := FirstTopOrWrapper(blocks, topBlocks);
    if b.topNode.None? && f.Some? {
      assert NodeTree(blocks, depth, topBlocks, edges).0 == b.nodes + [NewTreeNode(f.value, 1, 0)];
    } else {
      assert NodeTree(blocks, depth, topBlocks, edges).0 == b.nodes;
    }
  }

  /** Appending childless nodes to an arena ranked by the edge ranks keeps it ranked. */
  lemma RankedByLeaves(nodes: seq<TreeNode>, ext: seq<TreeNode>, edgeRank: map<Id, nat>)
    requires RankedBy(nodes, edgeRank) && |nodes| <= |ext|
    requires forall j :: 0 <= j < |nodes| ==> ext[j] == nodes[j]
    requires forall j :: |nodes| <= j < |ext| ==> ext[j].children == []
    ensures Ranked(ext, RankSeq(ext, edgeRank))
  {
    var rank := RankSeq(ext, edgeRank);
    forall i, k | 0 <= i < |ext| && 0 <= k < |ext[i].children|
      ensures ext[i].children[k] < |ext| && (rank[i] > 0 ==> 0 < rank[ext[i].children[k]] < rank[i])
    {
      assert i < |nodes| && ext[i] == nodes[i];
      var c := ext[i].children[k];
      assert c < |nodes| && ext[c] == nodes[c];
    }
  }

  /** When some line end is TOP, the root `createNodeTree` finds is the node of the
      first TOP end in line-then-(from, to) order. */
  lemma NodeTreeRootFromLines(blocks: map<Id, Block>, depth: map<Id, nat>, topBlocks: seq<Id>, edges: seq<Edge>, m0: nat)
    requires WellLinked(blocks, depth) && EndpointsResolve(blocks, edges)
    requires forall k :: 0 <= k < |topBlocks| ==> topBlocks[k] in blocks
    requires m0 < |Ends(edges)| && TopOf(blocks, Ends(edges)[m0])
    ensures var t := NodeTree(blocks, depth, topBlocks, edges);
      var ends := Ends(edges);
      && t.1.Some? && t.1.value < |t.0|
      && exists m :: 0 <= m < |ends| && FirstTopAt(blocks, ends, m) && t.0[t.1.value].value == ends[m]
  {
    AddLinesRoot(blocks, depth, edges);
    var b := AddLines(blocks, depth, edges);
    var ends := Ends(edges);
    assert b.topNode.Some?;
    var m :| 0 <= m < |ends| && ends[m] == b.nodes[b.topNode.value].value && FirstTopAt(blocks, ends, m);
    var t := NodeTree(blocks, depth, topBlocks, edges);
    assert t == (b.nodes, b.topNode);
    assert FirstTopAt(blocks, ends, m) && t.0[t.1.value].value == ends[m];
  }

  /** When no line end is TOP, the root is a fresh childless node of weight 1 and
      top 0 for the first top-or-wrapper top block, and there is none when no top
      block qualifies. */
  lemma NodeTreeRootFallback(blocks: map<Id, Block>, depth: map<Id, nat>, topBlocks: seq<Id>, edges: seq<Edge>)
    requires WellLinked(blocks, depth) && EndpointsResolve(blocks, edges)
    requires forall k :: 0 <= k < |topBlocks| ==> topBlocks[k] in blocks
    requires forall m :: 0 <= m < |Ends(edges)| ==> !TopOf(blocks, Ends(edges)[m])
    ensures var t := NodeTree(blocks, depth, topBlocks, edges);
      && (t.1.Some? <==> FirstTopOrWrapper(blocks, topBlocks).Some?)
      && (t.1.Some? ==> t.0[t.1.value] == NewTreeNode(FirstTopOrWrapper(blocks, topBlocks).value, 1, 0))
  {
    AddLinesRoot(blocks, depth, edges);
    var b := AddLines(blocks, depth, edges);
    assert b.topNode.None?;
  }

  // ---------------------------------------------------------------------------
  // updatePreNodesWeightSum

  /** The weights of the listed nodes, added up. */
  ghost function WeightSum(nodes: seq<TreeNode>, P: seq<nat>): nat
    requires forall k :: 0 <= k < |P| ==> P[k] < |nodes|
  {
    if P == [] then 0 else nodes[P[0]].weight + WeightSum(nodes, P[1..])
  }

  lemma {:induction false} WeightSumAppend(nodes: seq<TreeNode>, P: seq<nat>, Q: seq<nat>)
    requires forall k :: 0 <= k < |P| ==> P[k] < |nodes|
    requires forall k :: 0 <= k < |Q| ==> Q[k] < |nodes|
    ensures WeightSum(nodes, P + Q) == WeightSum(nodes, P) + WeightSum(nodes, Q)
  {
    if P == [] {
      assert P + Q == Q;
    } else {
      assert (P + Q)[1..] == P[1..] + Q;
      WeightSumAppend(nodes, P[1..], Q);
    }
  }

  /** Arenas that differ in the weight offsets at most. */
  ghost predicate SameButSums(a: seq<TreeNode>, b: seq<TreeNode>)
  {
    |a| == |b| && forall j :: 0 <= j < |a| ==> b[j] == a[j].(preNodesWeightSum := b[j].preNodesWeightSum)
  }

  /** Arenas that differ only in offsets have the same children, hence the same ranks. */
  lemma SameButSumsRanks(a: seq<TreeNode>, b: seq<TreeNode>, edgeRank: map<Id, nat>)
    requires SameButSums(a, b)
    ensures SameChildren(a, b) && RankSeq(a, edgeRank) == RankSeq(b, edgeRank)
  {
    assert forall j :: 0 <= j < |a| ==> a[j].children == b[j].children && a[j].value == b[j].value;
  }

  lemma {:induction false} WeightSumSame(a: seq<TreeNode>, b: seq<TreeNode>, P: seq<nat>)
    requires SameButSums(a, b) && forall k :: 0 <= k < |P| ==> P[k] < |a|
    ensures WeightSum(a, P) == WeightSum(b, P)
  {
    if P != [] {
      WeightSumSame(a, b, P[1..]);
    }
  }

  /** `loopNodesWeightSum` over a listing: each listed node gets the running weight
      total before it, and the total grows by its weight. */
  ghost function AssignSums(nodes: seq<TreeNode>, P: seq<nat>, acc: int): (r: seq<TreeNode>)
    requires forall k :: 0 <= k < |P| ==> P[k] < |nodes|
    ensures SameButSums(nodes, r)
    decreases |P|
  {
    if P == [] then nodes
    else AssignSums(nodes[P[0] := nodes[P[0]].(preNodesWeightSum := acc)], P[1..], acc + nodes[P[0]].weight)
  }

  lemma {:induction false} AssignSumsAppend(nodes: seq<TreeNode>, P: seq<nat>, Q: seq<nat>, acc: int)
    requires forall k :: 0 <= k < |P| ==> P[k] < |nodes|
    requires forall k :: 0 <= k < |Q| ==> Q[k] < |nodes|
    ensures AssignSums(nodes, P + Q, acc) == AssignSums(AssignSums(nodes, P, acc), Q, acc + WeightSum(nodes, P))
    decreases |P|
  {
    if P == [] {
      assert P + Q == Q;
    } else {
      var n1 := nodes[P[0] := nodes[P[0]].(preNodesWeightSum := acc)];
      var w := nodes[P[0]].weight;
      assert (P + Q)[0] == P[0] && (P + Q)[1..] == P[1..] + Q;
      assert AssignSums(nodes, P + Q, acc) == AssignSums(n1, P[1..] + Q, acc + w);
      AssignSumsAppend(n1, P[1..], Q, acc + w);
      WeightSumSame(nodes, n1, P[1..]);
    }
  }

  /** One child of `loopNodesWeightSum`: the sums written so far leave the tree's
      shape alone, and assigning the next child's subtree from the running total
      extends both the assignment and the total. */
  lemma AssignSumsChildStep(nodes: seq<TreeNode>, rank: seq<nat>, node: nat, k: nat, acc: int)
    requires Ranked(nodes, rank) && node < |nodes| && rank[node] > 0 && k < |nodes[node].children|
    ensures var cs := nodes[node].children;
      var done := [node] + PreOrderAll(nodes, rank, cs[..k], rank[node]);
      var next := [node] + PreOrderAll(nodes, rank, cs[..k + 1], rank[node]);
      var sub := PreOrder(nodes, rank, cs[k]);
      var r := AssignSums(nodes, done, acc);
      && Ranked(r, rank) && PreOrder(r, rank, cs[k]) == sub
      && AssignSums(nodes, next, acc) == AssignSums(r, sub, acc + WeightSum(nodes, done))
      && WeightSum(nodes, next) == WeightSum(nodes, done) + WeightSum(r, sub)
  {
    var cs := nodes[node].children;
    var done := [node] + PreOrderAll(nodes, rank, cs[..k], rank[node]);
    var sub := PreOrder(nodes, rank, cs[k]);
    var next := [node] + PreOrderAll(nodes, rank, cs[..k + 1], rank[node]);
    var r := AssignSums(nodes, done, acc);
    PreOrderChildStep(nodes, rank, node, k);
    assert next == done + sub;
    PreOrderSameChildren(nodes, r, rank, cs[k]);
    WeightSumSame(nodes, r, sub);
    AssignSumsAppend(nodes, done, sub, acc);
    WeightSumAppend(nodes, done, sub);
  }

  /** The state after one child of `loopNodesWeightSum`, in terms of the listing so far. */
  lemma AssignSumsChildDone(nodes: seq<TreeNode>, rank: seq<nat>, node: nat, k: nat, acc: int,
                            r0: seq<TreeNode>, total0: int, r1: seq<TreeNode>, total1: int)
    requires Ranked(nodes, rank) && node < |nodes| && rank[node] > 0 && k < |nodes[node].children|
    requires var cs := nodes[node].children;
      var done := [node] + PreOrderAll(nodes, rank, cs[..k], rank[node]);
      && r0 == AssignSums(nodes, done, acc) && total0 == acc + WeightSum(nodes, done)
      && Ranked(r0, rank) && cs[k] < |r0|
      && r1 == AssignSums(r0, PreOrder(r0, rank, cs[k]), total0)
      && total1 == total0 + WeightSum(r0, PreOrder(r0, rank, cs[k]))
    ensures var cs := nodes[node].children;
      var next := [node] + PreOrderAll(nodes, rank, cs[..k + 1], rank[node]);
      r1 == AssignSums(nodes, next, acc) && total1 == acc + WeightSum(nodes, next)
  {
    AssignSumsChildStep(nodes, rank, node, k, acc);
  }

  /** The assignment leaves unlisted nodes untouched. */
  lemma {:induction false} AssignSumsUntouched(nodes: seq<TreeNode>, P: seq<nat>, acc: int)
    requires forall k :: 0 <= k < |P| ==> P[k] < |nodes|
    ensures forall j :: 0 <= j < |nodes| && j !in P ==> AssignSums(nodes, P, acc)[j] == nodes[j]
    decreases |P|
  {
    if P != [] {
      AssignSumsUntouched(nodes[P[0] := nodes[P[0]].(preNodesWeightSum := acc)], P[1..], acc + nodes[P[0]].weight);
    }
  }

  /** After the assignment, each listed node that is not listed again later holds
      the start value plus the weights of the nodes listed before it. */
  lemma AssignSumsOffsets(nodes: seq<TreeNode>, P: seq<nat>, acc: int)
    requires forall k :: 0 <= k < |P| ==> P[k] < |nodes|
    ensures forall k :: 0 <= k < |P| && P[k] !in P[k + 1..] ==>
      AssignSums(nodes, P, acc)[P[k]].preNodesWeightSum == acc + WeightSum(nodes, P[..k])
  {
    forall k | 0 <= k < |P| && P[k] !in P[k + 1..]
      ensures AssignSums(nodes, P, acc)[P[k]].preNodesWeightSum == acc + WeightSum(nodes, P[..k])
    {
      AssignSumsOffsetAt(nodes, P, acc, k);
    }
  }

  /** The offset of the node at one position of the listing. */
  lemma {:induction false} AssignSumsOffsetAt(nodes: seq<TreeNode>, P: seq<nat>, acc: int, k: nat)
    requires forall i :: 0 <= i < |P| ==> P[i] < |nodes|
    requires k < |P| && P[k] !in P[k + 1..]
    ensures AssignSums(nodes, P, acc)[P[k]].preNodesWeightSum == acc + WeightSum(nodes, P[..k])
    decreases |P|
  {
    var x := P[0];
    var n1 := nodes[x := nodes[x].(preNodesWeightSum := acc)];
    var Q := P[1..];
    assert AssignSums(nodes, P, acc) == AssignSums(n1, Q, acc + nodes[x].weight);
    if k == 0 {
      assert P[k + 1..] == Q && x !in Q;
      AssignSumsUntouched(n1, Q, acc + nodes[x].weight);
      assert AssignSums(n1, Q, acc + nodes[x].weight)[x] == n1[x];
      assert P[..0] == [] && WeightSum(nodes, P[..0]) == 0;
    } else {
      OffsetsShift(nodes, P, acc, k);
      AssignSumsOffsetAt(n1, Q, acc + nodes[x].weight, k - 1);
    }
  }

  /** Position `k > 0` of `P` seen from `P[1..]`, after the first node's sum is written. */
  lemma OffsetsShift(nodes: seq<TreeNode>, P: seq<nat>, acc: int, k: nat)
    requires forall k :: 0 <= k < |P| ==> P[k] < |nodes|
    requires 0 < k < |P|
    ensures var n1 := nodes[P[0] := nodes[P[0]].(preNodesWeightSum := acc)];
      && P[k] == P[1..][k - 1] && P[k + 1..] == P[1..][k..]
      && WeightSum(nodes, P[..k]) == nodes[P[0]].weight + WeightSum(n1, P[1..][..k - 1])
  {
    var n1 := nodes[P[0] := nodes[P[0]].(preNodesWeightSum := acc)];
    assert P[..k][1..] == P[1..][..k - 1];
    WeightSumSame(nodes, n1, P[1..][..k - 1]);
  }

  /** The offsets `updatePreNodesWeightSum` gives a tree: the root gets 0, and each
      node listed once by `treeToList` gets the weights of the nodes listed before it. */
  lemma TreeSums(nodes: seq<TreeNode>, rank: seq<nat>, root: nat)
    requires Ranked(nodes, rank) && root < |nodes| && rank[root] > 0
    ensures var P := PreOrder(nodes, rank, root);
      var r := AssignSums(nodes, P, 0);
      && r[root].preNodesWeightSum == 0
      && (forall k :: 0 <= k < |P| && P[k] !in P[k + 1..] ==> r[P[k]].preNodesWeightSum == WeightSum(nodes, P[..k]))
      && (forall j :: 0 <= j < |nodes| && j !in P ==> r[j] == nodes[j])
  {
    var P := PreOrder(nodes, rank, root);
    PreOrderRanks(nodes, rank, root);
    AssignSumsUntouched(nodes, P, 0);
    AssignSumsOffsets(nodes, P, 0);
    assert P[..0] == [];
  }

  /** `NodeTree` by cases: the root found among the lines, else the fallback node,
      else none. */
  lemma NodeTreeCases(blocks: map<Id, Block>, depth: map<Id, nat>, topBlocks: seq<Id>, edges: seq<Edge>)
    requires WellLinked(blocks, depth) && EndpointsResolve(blocks, edges)
    requires forall k :: 0 <= k < |topBlocks| ==> topBlocks[k] in blocks
    ensures var b := AddLines(blocks, depth, edges);
      var f := FirstTopOrWrapper(blocks, topBlocks);
      var t := NodeTree(blocks, depth, topBlocks, edges);
      && (b.topNode.Some? ==> t == (b.nodes, b.topNode))
      && (b.topNode.None? && f.None? ==> t == (b.nodes, None))
      && (b.topNode.None? && f.Some? ==> t == (b.nodes + [NewTreeNode(f.value, 1, 0)], Some(|b.nodes|)))
  {
    var b := AddLines(blocks, depth, edges);
    if b.topNode.None? {
      match FirstTopOrWrapper(blocks, topBlocks)
      case None =>
      case Some(_) =>
    }
  }

  /** `BuildTree` in terms of `NodeTree`: offsets are assigned from the root when
      there is one, and the arena is then ranked. */
  lemma BuildTreeUnfold(blocks: map<Id, Block>, depth: map<Id, nat>, topBlocks: seq<Id>, edges: seq<Edge>, edgeRank: map<Id, nat>)
    requires WellLinked(blocks, depth) && EndpointsResolve(blocks, edges) && LinesRanked(blocks, edges, edgeRank)
    requires forall k :: 0 <= k < |topBlocks| ==> topBlocks[k] in blocks
    ensures var t := NodeTree(blocks, depth, topBlocks, edges);
      && (t.1.Some? ==> Ranked(t.0, RankSeq(t.0, edgeRank)) && t.1.value < |t.0| && RankSeq(t.0, edgeRank)[t.1.value] > 0)
      && BuildTree(blocks, depth, topBlocks, edges, edgeRank) ==
         if t.1.None? then t else (AssignSums(t.0, PreOrder(t.0, RankSeq(t.0, edgeRank), t.1.value), 0), t.1)
  {
    NodeTreeRanked(blocks, depth, topBlocks, edges, edgeRank);
    NodeTreeRootRanked(blocks, depth, topBlocks, edges, edgeRank);
  }

  /** The tree `createNodeTree` returns: the arena with the offsets assigned from the root. */
  ghost function BuildTree(blocks: map<Id, Block>, depth: map<Id, nat>, topBlocks: seq<Id>, edges: seq<Edge>, edgeRank: map<Id, nat>): (t: (seq<TreeNode>, Option<nat>))
    requires WellLinked(blocks, depth) && EndpointsResolve(blocks, edges) && LinesRanked(blocks, edges, edgeRank)
    requires forall k :: 0 <= k < |topBlocks| ==> topBlocks[k] in blocks
    ensures Ranked(t.0, RankSeq(t.0, edgeRank)) && (t.1.Some? ==> t.1.value < |t.0| && RankSeq(t.0, edgeRank)[t.1.value] > 0)
    ensures SameButSums(NodeTree(blocks, depth, topBlocks, edges).0, t.0)
    ensures t.1 == NodeTree(blocks, depth, topBlocks, edges).1
  {
    var (nodes, root) := NodeTree(blocks, depth, topBlocks, edges);
    NodeTreeRanked(blocks, depth, topBlocks, edges, edgeRank);
    if root.None? then (nodes, None)
    else
      var rank := RankSeq(nodes, edgeRank);
      NodeTreeRootRanked(blocks, depth, topBlocks, edges, edgeRank);
      var r := AssignSums(nodes, PreOrder(nodes, rank, root.value), 0);
      SameButSumsRanks(nodes, r, edgeRank);
      PreOrderSameChildren(nodes, r, rank, root.value);
      (r, root)
  }

  // ---------------------------------------------------------------------------
  // renderTreeOrder / updateTreeOrder

  /** The blocks `renderTreeOrder` labels for a node: its block's first child and
      that child's successors. */
  ghost function NodeChain(blocks: map<Id, Block>, depth: map<Id, nat>, id: Id): seq<Id>
    requires WellLinked(blocks, depth) && Renderable(blocks, id)
  {
    Chain(blocks, depth, blocks[id].firstChild)
  }

  /** Every listed node is in the arena and its block has a first child. */
  ghost predicate AllRenderable(blocks: map<Id, Block>, nodes: seq<TreeNode>, P: seq<nat>)
  {
    forall k :: 0 <= k < |P| ==> P[k] < |nodes| && Renderable(blocks, nodes[P[k]].value)
  }

  /** A prefix of a renderable listing is renderable. */
  lemma AllRenderablePrefix(blocks: map<Id, Block>, nodes: seq<TreeNode>, P: seq<nat>, Q: seq<nat>)
    requires AllRenderable(blocks, nodes, P) && Q <= P
    ensures AllRenderable(blocks, nodes, Q)
  {
    assert forall k :: 0 <= k < |Q| ==> Q[k] == P[k];
  }

  /** Both parts of a renderable listing are renderable. */
  lemma AllRenderableSplit(blocks: map<Id, Block>, nodes: seq<TreeNode>, P: seq<nat>, Q: seq<nat>)
    requires AllRenderable(blocks, nodes, P + Q)
    ensures AllRenderable(blocks, nodes, P) && AllRenderable(blocks, nodes, Q)
  {
    assert forall k :: 0 <= k < |P| ==> (P + Q)[k] == P[k];
    assert forall k :: 0 <= k < |Q| ==> (P + Q)[|P| + k] == Q[k];
  }

  /** `renderTreeOrder` on each listed node in turn. */
  ghost function Annotate(orders: map<Id, Option<int>>, blocks: map<Id, Block>, depth: map<Id, nat>,
                          nodes: seq<TreeNode>, P: seq<nat>): (r: map<Id, Option<int>>)
    requires WellLinked(blocks, depth) && AllRenderable(blocks, nodes, P)
    ensures r.Keys == orders.Keys
    decreases |P|
  {
    if P == [] then orders
    else
      var node := nodes[P[0]];
      Annotate(WriteChain(orders, NodeChain(blocks, depth, node.value), node.preNodesWeightSum), blocks, depth, nodes, P[1..])
  }

  lemma {:induction false} AnnotateAppend(orders: map<Id, Option<int>>, blocks: map<Id, Block>, depth: map<Id, nat>,
                                          nodes: seq<TreeNode>, P: seq<nat>, Q: seq<nat>)
    requires WellLinked(blocks, depth) && AllRenderable(blocks, nodes, P) && AllRenderable(blocks, nodes, Q)
    ensures AllRenderable(blocks, nodes, P + Q)
    ensures Annotate(orders, blocks, depth, nodes, P + Q) ==
            Annotate(Annotate(orders, blocks, depth, nodes, P), blocks, depth, nodes, Q)
    decreases |P|
  {
    if P == [] {
      assert P + Q == Q;
    } else {
      var node := nodes[P[0]];
      assert (P + Q)[1..] == P[1..] + Q;
      AnnotateAppend(WriteChain(orders, NodeChain(blocks, depth, node.value), node.preNodesWeightSum),
                     blocks, depth, nodes, P[1..], Q);
    }
  }

  /** The listed nodes' chains share no block. */
  ghost predicate ChainsDisjoint(blocks: map<Id, Block>, depth: map<Id, nat>, nodes: seq<TreeNode>, P: seq<nat>)
    requires WellLinked(blocks, depth) && AllRenderable(blocks, nodes, P)
  {
    forall m, m', x :: 0 <= m < m' < |P| && x in NodeChain(blocks, depth, nodes[P[m]].value) ==>
      x !in NodeChain(blocks, depth, nodes[P[m']].value)
  }

  /** With disjoint chains, annotating gives the k-th block (k from 0) of each
      listed node's chain the label offset + k + 1, and leaves every block on no
      chain alone. */
  lemma AnnotateLabels(orders: map<Id, Option<int>>, blocks: map<Id, Block>, depth: map<Id, nat>,
                        nodes: seq<TreeNode>, P: seq<nat>)
    requires WellLinked(blocks, depth) && AllRenderable(blocks, nodes, P) && ChainsDisjoint(blocks, depth, nodes, P)
    ensures forall m, k ::
      0 <= m < |P| && 0 <= k < |NodeChain(blocks, depth, nodes[P[m]].value)| &&
      NodeChain(blocks, depth, nodes[P[m]].value)[k] in orders
      ==>
        Label(Annotate(orders, blocks, depth, nodes, P), NodeChain(blocks, depth, nodes[P[m]].value)[k]) ==
          Some(nodes[P[m]].preNodesWeightSum + k + 1)
    ensures forall x :: (forall m :: 0 <= m < |P| ==> x !in NodeChain(blocks, depth, nodes[P[m]].value)) ==>
      Label(Annotate(orders, blocks, depth, nodes, P), x) == Label(orders, x)
  {
    forall m, k | 0 <= m < |P| && 0 <= k < |NodeChain(blocks, depth, nodes[P[m]].value)| &&
      NodeChain(blocks, depth, nodes[P[m]].value)[k] in orders
      ensures Label(Annotate(orders, blocks, depth, nodes, P), NodeChain(blocks, depth, nodes[P[m]].value)[k]) ==
        Some(nodes[P[m]].preNodesWeightSum + k + 1)
    {
      AnnotateLabelAt(orders, blocks, depth, nodes, P, m, k);
    }
    forall x | forall m :: 0 <= m < |P| ==> x !in NodeChain(blocks, depth, nodes[P[m]].value)
      ensures Label(Annotate(orders, blocks, depth, nodes, P), x) == Label(orders, x)
    {
      AnnotateOutside(orders, blocks, depth, nodes, P, x);
    }
  }

  /** Annotating leaves a block on none of the listed chains alone. */
  lemma {:induction false} AnnotateOutside(orders: map<Id, Option<int>>, blocks: map<Id, Block>, depth: map<Id, nat>,
                                           nodes: seq<TreeNode>, P: seq<nat>, x: Id)
    requires WellLinked(blocks, depth) && AllRenderable(blocks, nodes, P)
    requires forall m :: 0 <= m < |P| ==> x !in NodeChain(blocks, depth, nodes[P[m]].value)
    ensures Label(Annotate(orders, blocks, depth, nodes, P), x) == Label(orders, x)
    decreases |P|
  {
    if P != [] {
      var c0 := NodeChain(blocks, depth, nodes[P[0]].value);
      var o1 := WriteChain(orders, c0, nodes[P[0]].preNodesWeightSum);
      var Q := P[1..];
      ChainShape(blocks, depth, blocks[nodes[P[0]].value].firstChild);
      WriteChainLabels(orders, c0, nodes[P[0]].preNodesWeightSum);
      assert x !in c0;
      forall m | 0 <= m < |Q| ensures x !in NodeChain(blocks, depth, nodes[Q[m]].value) {
        assert Q[m] == P[m + 1];
      }
      AnnotateOutside(o1, blocks, depth, nodes, Q, x);
    }
  }

  /** With disjoint chains, the k-th block (k from 0) of the m-th listed node's
      chain gets that node's offset + k + 1. */
  lemma {:induction false} AnnotateLabelAt(orders: map<Id, Option<int>>, blocks: map<Id, Block>, depth: map<Id, nat>,
                                           nodes: seq<TreeNode>, P: seq<nat>, m: nat, k: nat)
    requires WellLinked(blocks, depth) && AllRenderable(blocks, nodes, P) && ChainsDisjoint(blocks, depth, nodes, P)
    requires m < |P| && k < |NodeChain(blocks, depth, nodes[P[m]].value)|
    requires NodeChain(blocks, depth, nodes[P[m]].value)[k] in orders
    ensures Label(Annotate(orders, blocks, depth, nodes, P), NodeChain(blocks, depth, nodes[P[m]].value)[k]) ==
      Some(nodes[P[m]].preNodesWeightSum + k + 1)
    decreases |P|
  {
    var c0 := NodeChain(blocks, depth, nodes[P[0]].value);
    var o1 := WriteChain(orders, c0, nodes[P[0]].preNodesWeightSum);
    var Q := P[1..];
    var x := NodeChain(blocks, depth, nodes[P[m]].value)[k];
    assert Annotate(orders, blocks, depth, nodes, P) == Annotate(o1, blocks, depth, nodes, Q);
    if m == 0 {
      AnnotateLabelHead(orders, blocks, depth, nodes, P, k);
    } else {
      ChainsDisjointTail(blocks, depth, nodes, P);
      assert P[m] == Q[m - 1];
      AnnotateLabelAt(o1, blocks, depth, nodes, Q, m - 1, k);
      assert Label(Annotate(o1, blocks, depth, nodes, Q), x) == Some(nodes[Q[m - 1]].preNodesWeightSum + k + 1);
    }
  }

  /** The first listed node's chain keeps the labels its own write gives it. */
  lemma AnnotateLabelHead(orders: map<Id, Option<int>>, blocks: map<Id, Block>, depth: map<Id, nat>,
                          nodes: seq<TreeNode>, P: seq<nat>, k: nat)
    requires WellLinked(blocks, depth) && AllRenderable(blocks, nodes, P) && ChainsDisjoint(blocks, depth, nodes, P)
    requires P != [] && k < |NodeChain(blocks, depth, nodes[P[0]].value)|
    requires NodeChain(blocks, depth, nodes[P[0]].value)[k] in orders
    ensures var o1 := WriteChain(orders, NodeChain(blocks, depth, nodes[P[0]].value), nodes[P[0]].preNodesWeightSum);
      Label(Annotate(o1, blocks, depth, nodes, P[1..]), NodeChain(blocks, depth, nodes[P[0]].value)[k]) ==
      Some(nodes[P[0]].preNodesWeightSum + k + 1)
  {
    var c0 := NodeChain(blocks, depth, nodes[P[0]].value);
    var o1 := WriteChain(orders, c0, nodes[P[0]].preNodesWeightSum);
    var Q := P[1..];
    var x := c0[k];
    ChainLabelAt(orders, blocks, depth, nodes[P[0]].value, nodes[P[0]].preNodesWeightSum, k);
    HeadChainOutsideTail(blocks, depth, nodes, P, x);
    AnnotateOutside(o1, blocks, depth, nodes, Q, x);
  }

  /** A block of the first listed node's chain is on no later node's chain. */
  lemma HeadChainOutsideTail(blocks: map<Id, Block>, depth: map<Id, nat>, nodes: seq<TreeNode>, P: seq<nat>, x: Id)
    requires WellLinked(blocks, depth) && AllRenderable(blocks, nodes, P) && ChainsDisjoint(blocks, depth, nodes, P)
    requires P != [] && x in NodeChain(blocks, depth, nodes[P[0]].value)
    ensures AllRenderable(blocks, nodes, P[1..])
    ensures forall m :: 0 <= m < |P[1..]| ==> x !in NodeChain(blocks, depth, nodes[P[1..][m]].value)
  {
    var Q := P[1..];
    forall m | 0 <= m < |Q| ensures Q[m] < |nodes| && Renderable(blocks, nodes[Q[m]].value) {
      assert Q[m] == P[m + 1];
    }
    forall m | 0 <= m < |Q| ensures x !in NodeChain(blocks, depth, nodes[Q[m]].value) {
      assert Q[m] == P[m + 1];
    }
  }

  /** Writing a node's chain gives its k-th block (k from 0) the label base + k + 1. */
  lemma ChainLabelAt(orders: map<Id, Option<int>>, blocks: map<Id, Block>, depth: map<Id, nat>, id: Id, base: int, k: nat)
    requires WellLinked(blocks, depth) && Renderable(blocks, id)
    requires k < |NodeChain(blocks, depth, id)| && NodeChain(blocks, depth, id)[k] in orders
    ensures Label(WriteChain(orders, NodeChain(blocks, depth, id), base), NodeChain(blocks, depth, id)[k]) == Some(base + k + 1)
  {
    ChainShape(blocks, depth, blocks[id].firstChild);
    WriteChainLabels(orders, NodeChain(blocks, depth, id), base);
  }

  /** Dropping the first listed node keeps the chains disjoint. */
  lemma ChainsDisjointTail(blocks: map<Id, Block>, depth: map<Id, nat>, nodes: seq<TreeNode>, P: seq<nat>)
    requires WellLinked(blocks, depth) && AllRenderable(blocks, nodes, P) && ChainsDisjoint(blocks, depth, nodes, P)
    requires P != []
    ensures AllRenderable(blocks, nodes, P[1..]) && ChainsDisjoint(blocks, depth, nodes, P[1..])
  {
    var Q := P[1..];
    forall m, m', x | 0 <= m < m' < |Q| && x in NodeChain(blocks, depth, nodes[Q[m]].value)
      ensures x !in NodeChain(blocks, depth, nodes[Q[m']].value)
    {
      assert Q[m] == P[m + 1] && Q[m'] == P[m' + 1];
    }
  }

  /** The listed nodes' chains, one after the other. */
  ghost function Flat(blocks: map<Id, Block>, depth: map<Id, nat>, nodes: seq<TreeNode>, P: seq<nat>): seq<Id>
    requires WellLinked(blocks, depth) && AllRenderable(blocks, nodes, P)
    decreases |P|
  {
    if P == [] then [] else NodeChain(blocks, depth, nodes[P[0]].value) + Flat(blocks, depth, nodes, P[1..])
  }

  /** `Flat` position i holds the k-th block of the m-th listed node's chain. */
  ghost predicate FlatAt(blocks: map<Id, Block>, depth: map<Id, nat>, nodes: seq<TreeNode>, P: seq<nat>, i: nat, m: nat, k: nat)
    requires WellLinked(blocks, depth) && AllRenderable(blocks, nodes, P)
  {
    && m < |P| && k < |NodeChain(blocks, depth, nodes[P[m]].value)|
    && i == |Flat(blocks, depth, nodes, P[..m])| + k
    && i < |Flat(blocks, depth, nodes, P)|
    && Flat(blocks, depth, nodes, P)[i] == NodeChain(blocks, depth, nodes[P[m]].value)[k]
  }

  /** Each position of `Flat` is the k-th block of the m-th listed node's chain,
      where the chains before it fill the first positions. */
  lemma {:induction false} FlatLocate(blocks: map<Id, Block>, depth: map<Id, nat>, nodes: seq<TreeNode>, P: seq<nat>, i: nat)
    returns (m: nat, k: nat)
    requires WellLinked(blocks, depth) && AllRenderable(blocks, nodes, P) && i < |Flat(blocks, depth, nodes, P)|
    ensures FlatAt(blocks, depth, nodes, P, i, m, k)
    decreases |P|
  {
    var c0 := NodeChain(blocks, depth, nodes[P[0]].value);
    assert P[..0] == [];
    if i < |c0| {
      m, k := 0, i;
    } else {
      var Q := P[1..];
      var m', k' := FlatLocate(blocks, depth, nodes, Q, i - |c0|);
      m, k := m' + 1, k';
      assert P[..m][1..] == Q[..m'] && P[m] == Q[m'];
      assert Flat(blocks, depth, nodes, P[..m]) == c0 + Flat(blocks, depth, nodes, Q[..m']);
    }
  }

  /** When each listed node's weight is its chain's length, the weights add up to the chains' total length. */
  lemma {:induction false} WeightSumFlat(blocks: map<Id, Block>, depth: map<Id, nat>, nodes: seq<TreeNode>, P: seq<nat>)
    requires WellLinked(blocks, depth) && AllRenderable(blocks, nodes, P)
    requires forall k :: 0 <= k < |P| ==> nodes[P[k]].weight == |NodeChain(blocks, depth, nodes[P[k]].value)|
    ensures WeightSum(nodes, P) == |Flat(blocks, depth, nodes, P)|
    decreases |P|
  {
    if P != [] {
      WeightSumFlat(blocks, depth, nodes, P[1..]);
    }
  }

  /** Disjoint non-empty chains make the listing repeat no node. */
  lemma DisjointListsOnce(blocks: map<Id, Block>, depth: map<Id, nat>, nodes: seq<TreeNode>, P: seq<nat>, m: nat)
    requires WellLinked(blocks, depth) && AllRenderable(blocks, nodes, P) && ChainsDisjoint(blocks, depth, nodes, P)
    requires m < |P|
    ensures P[m] !in P[m + 1..]
  {
    var id := nodes[P[m]].value;
    ChainShape(blocks, depth, blocks[id].firstChild);
    var x := NodeChain(blocks, depth, id)[0];
    forall j | m < j < |P| ensures P[j] != P[m] {
      assert x !in NodeChain(blocks, depth, nodes[P[j]].value);
    }
  }

  lemma SumsKeepChains(blocks: map<Id, Block>, depth: map<Id, nat>, nodes: seq<TreeNode>, P: seq<nat>)
    requires WellLinked(blocks, depth) && AllRenderable(blocks, nodes, P) && ChainsDisjoint(blocks, depth, nodes, P)
    ensures var r := AssignSums(nodes, P, 0);
      && (forall j :: 0 <= j < |nodes| ==> r[j].value == nodes[j].value)
      && AllRenderable(blocks, r, P) && ChainsDisjoint(blocks, depth, r, P)
  {
  }

  lemma OffsetIsFlatPrefix(blocks: map<Id, Block>, depth: map<Id, nat>, nodes: seq<TreeNode>, P: seq<nat>, m: nat)
    requires WellLinked(blocks, depth) && AllRenderable(blocks, nodes, P) && ChainsDisjoint(blocks, depth, nodes, P)
    requires forall k :: 0 <= k < |P| ==> nodes[P[k]].weight == |NodeChain(blocks, depth, nodes[P[k]].value)|
    requires m < |P|
    ensures AssignSums(nodes, P, 0)[P[m]].preNodesWeightSum == |Flat(blocks, depth, nodes, P[..m])|
  {
    DisjointListsOnce(blocks, depth, nodes, P, m);
    AssignSumsOffsetAt(nodes, P, 0, m);
    WeightSumFlat(blocks, depth, nodes, P[..m]);
  }

  lemma TreeLabelAt(orders: map<Id, Option<int>>, blocks: map<Id, Block>, depth: map<Id, nat>,
                    nodes: seq<TreeNode>, P: seq<nat>, i: nat)
    requires WellLinked(blocks, depth) && AllRenderable(blocks, nodes, P) && ChainsDisjoint(blocks, depth, nodes, P)
    requires forall k :: 0 <= k < |P| ==> nodes[P[k]].weight == |NodeChain(blocks, depth, nodes[P[k]].value)|
    requires i < |Flat(blocks, depth, nodes, P)| && Flat(blocks, depth, nodes, P)[i] in orders
    ensures AllRenderable(blocks, AssignSums(nodes, P, 0), P)
    ensures Label(Annotate(orders, blocks, depth, AssignSums(nodes, P, 0), P), Flat(blocks, depth, nodes, P)[i]) == Some(i + 1)
  {
    var m, k := FlatLocate(blocks, depth, nodes, P, i);
    ChainLabelAtFlat(orders, blocks, depth, nodes, P, i, m, k);
  }

  /** The block at `Flat` position i, the k-th of the m-th listed node's chain, is
      labelled by that node's offset + k + 1, which is i + 1. */
  lemma ChainLabelAtFlat(orders: map<Id, Option<int>>, blocks: map<Id, Block>, depth: map<Id, nat>,
                         nodes: seq<TreeNode>, P: seq<nat>, i: nat, m: nat, k: nat)
    requires WellLinked(blocks, depth) && AllRenderable(blocks, nodes, P) && ChainsDisjoint(blocks, depth, nodes, P)
    requires forall k :: 0 <= k < |P| ==> nodes[P[k]].weight == |NodeChain(blocks, depth, nodes[P[k]].value)|
    requires FlatAt(blocks, depth, nodes, P, i, m, k) && Flat(blocks, depth, nodes, P)[i] in orders
    ensures AllRenderable(blocks, AssignSums(nodes, P, 0), P)
    ensures Label(Annotate(orders, blocks, depth, AssignSums(nodes, P, 0), P), Flat(blocks, depth, nodes, P)[i]) == Some(i + 1)
  {
    var c := NodeChain(blocks, depth, nodes[P[m]].value);
    assert Flat(blocks, depth, nodes, P)[i] == c[k];
    OffsetLabel(orders, blocks, depth, nodes, P, i, m, k);
  }

  /** The k-th block of the m-th listed node's chain is labelled i + 1, where i is
      the length of the chains listed before it, + k. */
  lemma OffsetLabel(orders: map<Id, Option<int>>, blocks: map<Id, Block>, depth: map<Id, nat>,
                    nodes: seq<TreeNode>, P: seq<nat>, i: nat, m: nat, k: nat)
    requires WellLinked(blocks, depth) && AllRenderable(blocks, nodes, P) && ChainsDisjoint(blocks, depth, nodes, P)
    requires forall k :: 0 <= k < |P| ==> nodes[P[k]].weight == |NodeChain(blocks, depth, nodes[P[k]].value)|
    requires m < |P| && k < |NodeChain(blocks, depth, nodes[P[m]].value)|
    requires i == |Flat(blocks, depth, nodes, P[..m])| + k
    requires NodeChain(blocks, depth, nodes[P[m]].value)[k] in orders
    ensures AllRenderable(blocks, AssignSums(nodes, P, 0), P)
    ensures Label(Annotate(orders, blocks, depth, AssignSums(nodes, P, 0), P), NodeChain(blocks, depth, nodes[P[m]].value)[k]) ==
      Some(i + 1)
  {
    var r := AssignSums(nodes, P, 0);
    SumsKeepChains(blocks, depth, nodes, P);
    OffsetIsFlatPrefix(blocks, depth, nodes, P, m);
    assert r[P[m]].value == nodes[P[m]].value;
    LabelAtOffset(orders, blocks, depth, r, P, m, k, i);
  }

  /** `AnnotateLabelAt` with the node's offset plus `k` named `i`. */
  lemma LabelAtOffset(orders: map<Id, Option<int>>, blocks: map<Id, Block>, depth: map<Id, nat>,
                      r: seq<TreeNode>, P: seq<nat>, m: nat, k: nat, i: nat)
    requires WellLinked(blocks, depth) && AllRenderable(blocks, r, P) && ChainsDisjoint(blocks, depth, r, P)
    requires m < |P| && k < |NodeChain(blocks, depth, r[P[m]].value)|
    requires NodeChain(blocks, depth, r[P[m]].value)[k] in orders
    requires r[P[m]].preNodesWeightSum + k == i
    ensures Label(Annotate(orders, blocks, depth, r, P), NodeChain(blocks, depth, r[P[m]].value)[k]) == Some(i + 1)
  {
    AnnotateLabelAt(orders, blocks, depth, r, P, m, k);
  }

  /** The point of the annotator: when the tree's nodes have disjoint chains and
      each node's weight is the length of the chain it labels, the tree's blocks,
      listed chain by chain in `treeToList` order, are labelled 1, 2, 3, ... in
      that order. */
  lemma TreeLabelsConsecutive(orders: map<Id, Option<int>>, blocks: map<Id, Block>, depth: map<Id, nat>,
                              nodes: seq<TreeNode>, rank: seq<nat>, root: nat)
    requires WellLinked(blocks, depth) && Ranked(nodes, rank) && root < |nodes| && rank[root] > 0
    requires AllRenderable(blocks, nodes, PreOrder(nodes, rank, root))
    requires ChainsDisjoint(blocks, depth, nodes, PreOrder(nodes, rank, root))
    requires var P := PreOrder(nodes, rank, root);
      forall k :: 0 <= k < |P| ==> nodes[P[k]].weight == |NodeChain(blocks, depth, nodes[P[k]].value)|
    ensures var P := PreOrder(nodes, rank, root);
      var F := Flat(blocks, depth, nodes, P);
      AllRenderable(blocks, AssignSums(nodes, P, 0), P) &&
      forall i :: 0 <= i < |F| && F[i] in orders ==>
        Label(Annotate(orders, blocks, depth, AssignSums(nodes, P, 0), P), F[i]) == Some(i + 1)
  {
    var P := PreOrder(nodes, rank, root);
    var F := Flat(blocks, depth, nodes, P);
    assert AllRenderable(blocks, AssignSums(nodes, P, 0), P);
    forall i | 0 <= i < |F| && F[i] in orders
      ensures Label(Annotate(orders, blocks, depth, AssignSums(nodes, P, 0), P), F[i]) == Some(i + 1)
    {
      TreeLabelAt(orders, blocks, depth, nodes, P, i);
    }
  }

  // ---------------------------------------------------------------------------
  // resetOutsideTreeOrder

  /** The blocks of the listed nodes (`insideBlockIdMap`). */
  ghost function TreeIds(nodes: seq<TreeNode>, P: seq<nat>): set<Id>
    requires forall k :: 0 <= k < |P| ==> P[k] < |nodes|
  {
    set k | 0 <= k < |P| :: nodes[P[k]].value
  }

  /** `getTopBlocks().filter(block => !insideBlockIdMap.has(block.id))`. */
  function Outside(topBlocks: seq<Id>, inside: set<Id>): (r: seq<Id>)
    ensures forall k :: 0 <= k < |r| ==> r[k] in topBlocks && r[k] !in inside
    ensures forall k :: 0 <= k < |topBlocks| && topBlocks[k] !in inside ==> topBlocks[k] in r
  {
    if topBlocks == [] then []
    else (if topBlocks[0] in inside then [] else [topBlocks[0]]) + Outside(topBlocks[1..], inside)
  }

  /** The blocks the reset clears for one outside top block: the whole wrapped
      chain for a wrapper, the block alone otherwise. */
  ghost function ClearedBy(blocks: map<Id, Block>, depth: map<Id, nat>, t: Id): seq<Id>
    requires WellLinked(blocks, depth) && t in blocks
  {
    if blocks[t].isWrapper then Chain(blocks, depth, blocks[t].wrappedFirst) else [t]
  }

  /** The body of `outSideTopBlocks.forEach`. */
  ghost function ResetOne(orders: map<Id, Option<int>>, blocks: map<Id, Block>, depth: map<Id, nat>, t: Id): (r: map<Id, Option<int>>)
    requires WellLinked(blocks, depth) && t in blocks
    ensures r.Keys == orders.Keys
  {
    if blocks[t].isWrapper then ClearAll(orders, Chain(blocks, depth, blocks[t].wrappedFirst))
    else SetLabel(orders, t, None)
  }

  /** `outSideTopBlocks.forEach(...)`. */
  ghost function ResetAll(orders: map<Id, Option<int>>, blocks: map<Id, Block>, depth: map<Id, nat>, outs: seq<Id>): (r: map<Id, Option<int>>)
    requires WellLinked(blocks, depth) && forall k :: 0 <= k < |outs| ==> outs[k] in blocks
    ensures r.Keys == orders.Keys
    decreases |outs|
  {
    if outs == [] then orders else ResetAll(ResetOne(orders, blocks, depth, outs[0]), blocks, depth, outs[1..])
  }

  /** The reset nulls exactly the blocks cleared for some visited top block: a
      wrapper's whole wrapped chain, a non-wrapper's own block only. */
  lemma {:induction false} ResetAllLabels(orders: map<Id, Option<int>>, blocks: map<Id, Block>, depth: map<Id, nat>, outs: seq<Id>)
    requires WellLinked(blocks, depth) && forall k :: 0 <= k < |outs| ==> outs[k] in blocks
    ensures forall x ::
      Label(ResetAll(orders, blocks, depth, outs), x) ==
      if exists k :: 0 <= k < |outs| && x in ClearedBy(blocks, depth, outs[k]) then None else Label(orders, x)
    decreases |outs|
  {
    if outs != [] {
      var t := outs[0];
      var o1 := ResetOne(orders, blocks, depth, t);
      ResetAllLabels(o1, blocks, depth, outs[1..]);
      assert forall x :: Label(o1, x) == if x in ClearedBy(blocks, depth, t) then None else Label(orders, x) by {
        if blocks[t].isWrapper {
          ClearAllLabels(orders, Chain(blocks, depth, blocks[t].wrappedFirst));
        }
      }
      forall x ensures Label(ResetAll(orders, blocks, depth, outs), x) ==
        if exists k :: 0 <= k < |outs| && x in ClearedBy(blocks, depth, outs[k]) then None else Label(orders, x)
      {
        if exists k :: 0 <= k < |outs| && x in ClearedBy(blocks, depth, outs[k]) {
          var k :| 0 <= k < |outs| && x in ClearedBy(blocks, depth, outs[k]);
          if k > 0 { assert outs[k] == outs[1..][k - 1]; }
        } else {
          assert x !in ClearedBy(blocks, depth, t);
          forall k | 0 <= k < |outs[1..]| ensures x !in ClearedBy(blocks, depth, outs[1..][k]) {
            assert outs[1..][k] == outs[k + 1];
          }
        }
      }
    }
  }

  // ---------------------------------------------------------------------------
  // shouldUpdate / update

  /** JavaScript truthiness of an order label: null and 0 are falsy. */
  predicate Truthy(v: Option<int>)
  {
    v.Some? && v.value != 0
  }

  /** The block `shouldUpdate` inspects: the dragged block, or for a wrapper the
      first block it wrapped when the drag began. */
  function Subject(blocks: map<Id, Block>, topBlock: Id, wrappedFirstBlock: Option<Id>): Option<Id>
    requires topBlock in blocks
  {
    if blocks[topBlock].isWrapper then wrappedFirstBlock else Some(topBlock)
  }

  /** `shouldUpdate`: false without a subject block; true when the subject has a
      label; false when it is disposed; otherwise whether its successor's label is
      truthy (`x ?? null !== null` parses as `x ?? false`). */
  function ShouldUpdate(blocks: map<Id, Block>, orders: map<Id, Option<int>>, topBlock: Id, wrappedFirstBlock: Option<Id>): (b: bool)
    requires topBlock in blocks && Known(blocks, wrappedFirstBlock)
    ensures Subject(blocks, topBlock, wrappedFirstBlock).None? ==> !b
    ensures var s := Subject(blocks, topBlock, wrappedFirstBlock);
      s.Some? && Label(orders, s.value).Some? ==> b
    ensures var s := Subject(blocks, topBlock, wrappedFirstBlock);
      s.Some? && Label(orders, s.value).None? && blocks[s.value].disposed ==> !b
    ensures var s := Subject(blocks, topBlock, wrappedFirstBlock);
      s.Some? && Label(orders, s.value).None? && !blocks[s.value].disposed ==>
        (b <==> blocks[s.value].next.Some? && Truthy(Label(orders, blocks[s.value].next.value)))
  {
    var block := Subject(blocks, topBlock, wrappedFirstBlock);
    if block.None? then false
    else
      var preOrder := Label(orders, block.value);
      if preOrder.Some? then true
      else if blocks[block.value].disposed then false
      else
        var next := blocks[block.value].next;
        next.Some? && Truthy(Label(orders, next.value))
  }

  /** `update` on a block before anything is labelled stops at `shouldUpdate`. */
  lemma UnlabelledNoUpdate(blocks: map<Id, Block>, topBlock: Id, wrappedFirstBlock: Option<Id>)
    requires topBlock in blocks && Known(blocks, wrappedFirstBlock)
    ensures !ShouldUpdate(blocks, map[], topBlock, wrappedFirstBlock)
  {
  }

  /** `shouldUpdate` with the successor test read as a null test. */
  function ShouldUpdateNullTest(blocks: map<Id, Block>, orders: map<Id, Option<int>>, topBlock: Id, wrappedFirstBlock: Option<Id>): bool
    requires topBlock in blocks && Known(blocks, wrappedFirstBlock)
  {
    var block := Subject(blocks, topBlock, wrappedFirstBlock);
    if block.None? then false
    else if Label(orders, block.value).Some? then true
    else if blocks[block.value].disposed then false
    else blocks[block.value].next.Some? && Label(orders, blocks[block.value].next.value).Some?
  }

  /** The two readings of the successor test differ exactly when the subject is
      unlabelled and live and its successor's label is 0. */
  lemma ShouldUpdateReadings(blocks: map<Id, Block>, orders: map<Id, Option<int>>, topBlock: Id, wrappedFirstBlock: Option<Id>)
    requires topBlock in blocks && Known(blocks, wrappedFirstBlock)
    ensures ShouldUpdate(blocks, orders, topBlock, wrappedFirstBlock) != ShouldUpdateNullTest(blocks, orders, topBlock, wrappedFirstBlock)
      <==> var s := Subject(blocks, topBlock, wrappedFirstBlock);
           && s.Some? && Label(orders, s.value).None? && !blocks[s.value].disposed
           && blocks[s.value].next.Some? && Label(orders, blocks[s.value].next.value) == Some(0)
  {
  }

  /** What the source demands of a call to `update`. Only when `shouldUpdate`
      holds does it build the tree, and then the lines' ends must resolve, no cycle
      of lines may be reachable from the root, and every tree node's block must
      have a first child. */
  ghost predicate CanUpdate(blocks: map<Id, Block>, depth: map<Id, nat>, topBlocks: seq<Id>, orders: map<Id, Option<int>>,
                            edges: seq<Edge>, edgeRank: map<Id, nat>, topBlock: Id, wrappedFirstBlock: Option<Id>)
  {
    && WellLinked(blocks, depth)
    && (forall k :: 0 <= k < |topBlocks| ==> topBlocks[k] in blocks)
    && topBlock in blocks && Known(blocks, wrappedFirstBlock)
    && (ShouldUpdate(blocks, orders, topBlock, wrappedFirstBlock) ==>
          EndpointsResolve(blocks, edges) && LinesRanked(blocks, edges, edgeRank) &&
          var t := BuildTree(blocks, depth, topBlocks, edges, edgeRank);
          t.1.Some? ==> AllRenderable(blocks, t.0, PreOrder(t.0, RankSeq(t.0, edgeRank), t.1.value)))
  }

  /** `update`: whether it rendered, and the labels afterwards. */
  ghost function UpdateResult(blocks: map<Id, Block>, depth: map<Id, nat>, topBlocks: seq<Id>, orders: map<Id, Option<int>>,
                              edges: seq<Edge>, edgeRank: map<Id, nat>, topBlock: Id, wrappedFirstBlock: Option<Id>): (r: (bool, map<Id, Option<int>>))
    requires CanUpdate(blocks, depth, topBlocks, orders, edges, edgeRank, topBlock, wrappedFirstBlock)
    ensures r.1.Keys == orders.Keys
    ensures !r.0 ==> r.1 == orders
  {
    if !ShouldUpdate(blocks, orders, topBlock, wrappedFirstBlock) then (false, orders)
    else
      var (nodes, root) := BuildTree(blocks, depth, topBlocks, edges, edgeRank);
      if root.None? then (false, orders)
      else
        var P := PreOrder(nodes, RankSeq(nodes, edgeRank), root.value);
        var cleared := SetLabel(orders, topBlock, None);
        var outs := Outside(topBlocks, TreeIds(nodes, P));
        var reset := ResetAll(cleared, blocks, depth, outs);
        (true, Annotate(reset, blocks, depth, nodes, P))
  }
  /** The rendering case of `update`, with what its steps need: the built tree is
      ranked with a ranked root, every listed node is renderable, and the labels
      are those of clearing, resetting and annotating. */
  lemma UpdateRendering(blocks: map<Id, Block>, depth: map<Id, nat>, topBlocks: seq<Id>, orders: map<Id, Option<int>>,
                        edges: seq<Edge>, edgeRank: map<Id, nat>, topBlock: Id, wrappedFirstBlock: Option<Id>)
    requires CanUpdate(blocks, depth, topBlocks, orders, edges, edgeRank, topBlock, wrappedFirstBlock)
    requires ShouldUpdate(blocks, orders, topBlock, wrappedFirstBlock)
    requires BuildTree(blocks, depth, topBlocks, edges, edgeRank).1.Some?
    ensures var t := BuildTree(blocks, depth, topBlocks, edges, edgeRank);
      var rank := RankSeq(t.0, edgeRank);
      var root := t.1.value;
      && Ranked(t.0, rank) && root < |t.0| && rank[root] > 0
      && AllRenderable(blocks, t.0, PreOrder(t.0, rank, root))
      && UpdateResult(blocks, depth, topBlocks, orders, edges, edgeRank, topBlock, wrappedFirstBlock) ==
         (true, Annotate(ResetAll(SetLabel(orders, topBlock, None), blocks, depth,
                                  Outside(topBlocks, TreeIds(t.0, PreOrder(t.0, rank, root)))),
                         blocks, depth, t.0, PreOrder(t.0, rank, root)))
  {
  }

  /** Arenas whose nodes wrap the same blocks list the same chains. */
  lemma {:induction false} FlatSameValues(blocks: map<Id, Block>, depth: map<Id, nat>, a: seq<TreeNode>, b: seq<TreeNode>, P: seq<nat>)
    requires WellLinked(blocks, depth) && AllRenderable(blocks, a, P)
    requires |a| == |b| && forall j :: 0 <= j < |a| ==> a[j].value == b[j].value
    ensures AllRenderable(blocks, b, P) && Flat(blocks, depth, a, P) == Flat(blocks, depth, b, P)
    decreases |P|
  {
    if P != [] {
      AllRenderableSplit(blocks, a, [P[0]], P[1..]);
      assert [P[0]] + P[1..] == P;
      FlatSameValues(blocks, depth, a, b, P[1..]);
    }
  }

  /** The labels annotating the built tree writes: when the chains of its nodes
      are disjoint and each node's weight is the length of the chain it labels,
      the tree's blocks, chain by chain in `treeToList` order, get 1, 2, 3, ... */
  lemma BuiltTreeLabels(orders: map<Id, Option<int>>, blocks: map<Id, Block>, depth: map<Id, nat>, topBlocks: seq<Id>,
                        edges: seq<Edge>, edgeRank: map<Id, nat>)
    requires WellLinked(blocks, depth) && EndpointsResolve(blocks, edges) && LinesRanked(blocks, edges, edgeRank)
    requires forall k :: 0 <= k < |topBlocks| ==> topBlocks[k] in blocks
    requires BuildTree(blocks, depth, topBlocks, edges, edgeRank).1.Some?
    requires var t := BuildTree(blocks, depth, topBlocks, edges, edgeRank);
      var P := PreOrder(t.0, RankSeq(t.0, edgeRank), t.1.value);
      && AllRenderable(blocks, t.0, P)
      && ChainsDisjoint(blocks, depth, t.0, P)
      && forall k :: 0 <= k < |P| ==> t.0[P[k]].weight == |NodeChain(blocks, depth, t.0[P[k]].value)|
    ensures var t := BuildTree(blocks, depth, topBlocks, edges, edgeRank);
      var P := PreOrder(t.0, RankSeq(t.0, edgeRank), t.1.value);
      var F := Flat(blocks, depth, t.0, P);
      forall i :: 0 <= i < |F| && F[i] in orders ==> Label(Annotate(orders, blocks, depth, t.0, P), F[i]) == Some(i + 1)
  {
    var t := BuildTree(blocks, depth, topBlocks, edges, edgeRank);
    var n0, rank := BuildTreeSummed(blocks, depth, topBlocks, edges, edgeRank);
    SummedTreeLabels(orders, blocks, depth, n0, rank, t.1.value, t.0);
  }

  /** The built tree is an arena whose offsets were assigned from the root, ranked
      like that arena. */
  lemma BuildTreeSummed(blocks: map<Id, Block>, depth: map<Id, nat>, topBlocks: seq<Id>, edges: seq<Edge>, edgeRank: map<Id, nat>)
    returns (n0: seq<TreeNode>, rank: seq<nat>)
    requires WellLinked(blocks, depth) && EndpointsResolve(blocks, edges) && LinesRanked(blocks, edges, edgeRank)
    requires forall k :: 0 <= k < |topBlocks| ==> topBlocks[k] in blocks
    requires BuildTree(blocks, depth, topBlocks, edges, edgeRank).1.Some?
    ensures var t := BuildTree(blocks, depth, topBlocks, edges, edgeRank);
      && Ranked(n0, rank) && t.1.value < |n0| && rank[t.1.value] > 0
      && t.0 == AssignSums(n0, PreOrder(n0, rank, t.1.value), 0)
      && RankSeq(t.0, edgeRank) == rank
  {
    var t := BuildTree(blocks, depth, topBlocks, edges, edgeRank);
    var root;
    n0, root := NodeTree(blocks, depth, topBlocks, edges).0, NodeTree(blocks, depth, topBlocks, edges).1;
    NodeTreeRanked(blocks, depth, topBlocks, edges, edgeRank);
    rank := RankSeq(n0, edgeRank);
    SameButSumsRanks(n0, t.0, edgeRank);
    assert t.0 == AssignSums(n0, PreOrder(n0, rank, root.value), 0);
  }

  /** The labels annotating a tree with its offsets assigned writes, stated over
      the tree after the assignment. */
  lemma SummedTreeLabels(orders: map<Id, Option<int>>, blocks: map<Id, Block>, depth: map<Id, nat>,
                         n0: seq<TreeNode>, rank: seq<nat>, root: nat, r: seq<TreeNode>)
    requires WellLinked(blocks, depth) && Ranked(n0, rank) && root < |n0| && rank[root] > 0
    requires r == AssignSums(n0, PreOrder(n0, rank, root), 0)
    requires Ranked(r, rank)
    requires var P := PreOrder(r, rank, root);
      && AllRenderable(blocks, r, P)
      && ChainsDisjoint(blocks, depth, r, P)
      && forall k :: 0 <= k < |P| ==> r[P[k]].weight == |NodeChain(blocks, depth, r[P[k]].value)|
    ensures var P := PreOrder(r, rank, root);
      var F := Flat(blocks, depth, r, P);
      forall i :: 0 <= i < |F| && F[i] in orders ==> Label(Annotate(orders, blocks, depth, r, P), F[i]) == Some(i + 1)
  {
    var P := PreOrder(n0, rank, root);
    PreOrderSameChildren(n0, r, rank, root);
    FlatSameValues(blocks, depth, r, n0, P);
    assert forall m :: 0 <= m < |P| ==> n0[P[m]].value == r[P[m]].value && n0[P[m]].weight == r[P[m]].weight;
    TreeLabelsConsecutive(orders, blocks, depth, n0, rank, root);
  }

  /** What `update` achieves: when it renders, the chains of the tree's nodes are
      disjoint and each node's weight is the length of the chain it labels, the
      tree's blocks, listed chain by chain in `treeToList` order, carry the labels
      1, 2, 3, ... in that order. */
  lemma UpdateLabelsTree(blocks: map<Id, Block>, depth: map<Id, nat>, topBlocks: seq<Id>, orders: map<Id, Option<int>>,
                         edges: seq<Edge>, edgeRank: map<Id, nat>, topBlock: Id, wrappedFirstBlock: Option<Id>)
    requires CanUpdate(blocks, depth, topBlocks, orders, edges, edgeRank, topBlock, wrappedFirstBlock)
    requires UpdateResult(blocks, depth, topBlocks, orders, edges, edgeRank, topBlock, wrappedFirstBlock).0
    requires var t := BuildTree(blocks, depth, topBlocks, edges, edgeRank);
      var P := PreOrder(t.0, RankSeq(t.0, edgeRank), t.1.value);
      && ChainsDisjoint(blocks, depth, t.0, P)
      && forall k :: 0 <= k < |P| ==> t.0[P[k]].weight == |NodeChain(blocks, depth, t.0[P[k]].value)|
    ensures var t := BuildTree(blocks, depth, topBlocks, edges, edgeRank);
      var F := Flat(blocks, depth, t.0, PreOrder(t.0, RankSeq(t.0, edgeRank), t.1.value));
      forall i :: 0 <= i < |F| && F[i] in orders ==>
        Label(UpdateResult(blocks, depth, topBlocks, orders, edges, edgeRank, topBlock, wrappedFirstBlock).1, F[i]) == Some(i + 1)
  {
    var t := BuildTree(blocks, depth, topBlocks, edges, edgeRank);
    var P := PreOrder(t.0, RankSeq(t.0, edgeRank), t.1.value);
    var reset := ResetAll(SetLabel(orders, topBlock, None), blocks, depth, Outside(topBlocks, TreeIds(t.0, P)));
    assert UpdateResult(blocks, depth, topBlocks, orders, edges, edgeRank, topBlock, wrappedFirstBlock).1 ==
           Annotate(reset, blocks, depth, t.0, P);
    BuiltTreeLabels(reset, blocks, depth, topBlocks, edges, edgeRank);
  }
}

=== FILE: behavior_order_manager.dfy ===
/** `BehaviorOrderManager` (core/behavior_order_manager.ts): after a drag, rebuilds
    the behaviour tree from the workspace's arrow lines and writes the order labels.
    Each method is proved against the functions of module BehaviorOrder. */
module BehaviorOrderManagers {
  import opened Wrappers
  import opened BtNodeTypes
  import opened Blocks
  import opened BehaviorNodeModels
  import opened WorkspaceArrowlines
  import opened BehaviorOrder

  /** The block the manager of a dragged block remembers: the first block a
      wrapper wraps, nothing for any other block. */
  function WrappedFirstAtStart(blocks: map<Id, Block>, block: Id): (w: Option<Id>)
    requires block in blocks
    ensures w.Some? ==> blocks[block].isWrapper && w == blocks[block].wrappedFirst
    ensures !blocks[block].isWrapper ==> w.None?
  {
    if blocks[block].isWrapper then blocks[block].wrappedFirst else None
  }

  class BehaviorOrderManager {
    /** The top block of the dragged stack. */
    const topBlock: Id
    /** For a wrapper, the first block it wrapped when the drag began. */
    const wrappedFirstBlock: Option<Id>
    const workspace: Workspace

    constructor (block: Id, workspace: Workspace)
      requires block in workspace.blocks
      ensures topBlock == block && this.workspace == workspace
      ensures wrappedFirstBlock == WrappedFirstAtStart(workspace.blocks, block)
    {
      topBlock := block;
      wrappedFirstBlock := WrappedFirstAtStart(workspace.blocks, block);
      this.workspace := workspace;
    }

    /** `update`: nothing happens unless `shouldUpdate` holds and a tree is built;
        otherwise the dragged block's label is cleared, the labels of top blocks
        outside the tree are reset, the tree is annotated, and the result is true. */
    method Update(ghost edgeRank: map<Id, nat>) returns (updated: bool)
      requires CanUpdate(workspace.blocks, workspace.depth, workspace.topBlocks, workspace.orders,
                         workspace.Edges(), edgeRank, topBlock, wrappedFirstBlock)
      modifies workspace`orders
      ensures (updated, workspace.orders) ==
        UpdateResult(workspace.blocks, workspace.depth, workspace.topBlocks, old(workspace.orders),
                     workspace.Edges(), edgeRank, topBlock, wrappedFirstBlock)
    {
      var shouldUpdate := ShouldUpdate(workspace.blocks, workspace.orders, topBlock, wrappedFirstBlock);
      if !shouldUpdate {
        return false;
      }
      var nodes, topNode := CreateNodeTree(edgeRank);
      if topNode.None? {
        return false;
      }
      UpdateRendering(workspace.blocks, workspace.depth, workspace.topBlocks, workspace.orders,
                      workspace.Edges(), edgeRank, topBlock, wrappedFirstBlock);
      RenderOrders(nodes, RankSeq(nodes, edgeRank), topNode.value);
      return true;
    }

    /** The rendering steps of `update` over the built tree: the dragged block's
        label is cleared, top blocks outside the tree are reset, and the tree is
        annotated from its root. */
    method RenderOrders(nodes: seq<TreeNode>, ghost rank: seq<nat>, root: nat)
      requires WellLinked(workspace.blocks, workspace.depth)
      requires forall k :: 0 <= k < |workspace.topBlocks| ==> workspace.topBlocks[k] in workspace.blocks
      requires Ranked(nodes, rank) && root < |nodes| && rank[root] > 0
      requires AllRenderable(workspace.blocks, nodes, PreOrder(nodes, rank, root))
      modifies workspace`orders
      ensures var P := PreOrder(nodes, rank, root);
        workspace.orders ==
          Annotate(ResetAll(SetLabel(old(workspace.orders), topBlock, None), workspace.blocks, workspace.depth,
                            Outside(workspace.topBlocks, TreeIds(nodes, P))),
                   workspace.blocks, workspace.depth, nodes, P)
    {
      workspace.orders := SetLabel(workspace.orders, topBlock, None);
      ResetOutsideTreeOrder(nodes, rank, root);
      UpdateTreeOrder(nodes, rank, root);
    }

    /** `createNodeTree`: the arena and root of `BuildTree`. The `nodes` dictionary
        is `index`, and `addChild` is `insertInOrder` by `rectTop`. */
    method CreateNodeTree(ghost edgeRank: map<Id, nat>) returns (nodes: seq<TreeNode>, topNode: Option<nat>)
      requires WellLinked(workspace.blocks, workspace.depth)
      requires forall k :: 0 <= k < |workspace.topBlocks| ==> workspace.topBlocks[k] in workspace.blocks
      requires EndpointsResolve(workspace.blocks, workspace.Edges()) && LinesRanked(workspace.blocks, workspace.Edges(), edgeRank)
      ensures (nodes, topNode) == BuildTree(workspace.blocks, workspace.depth, workspace.topBlocks, workspace.Edges(), edgeRank)
    {
      var lines := workspace.arrowlines;
      ghost var edges := EdgesOf(lines);
      var b := Builder([], map[], None);
      for i := 0 to |lines|
        invariant b == AddLines(workspace.blocks, workspace.depth, edges[..i])
      {
        AddLinesStep(workspace.blocks, workspace.depth, edges, i);
        var pair := lines[i].GetPair();
        b := AddArrowline(b, pair[0], pair[1]);
      }
      assert edges[..|lines|] == edges;
      nodes, topNode := FinishNodeTree(workspace.blocks, workspace.depth, workspace.topBlocks, edges, edgeRank, b);
    }

    /** The end of `createNodeTree`, once the lines are visited: the root found
        among them, else a lone node for the first top-or-wrapper top block, and
        then the weight offsets from the root. */
    method FinishNodeTree(blocks: map<Id, Block>, ghost depth: map<Id, nat>, topBlocks: seq<Id>, ghost edges: seq<Edge>,
                          ghost edgeRank: map<Id, nat>, b: Builder) returns (nodes: seq<TreeNode>, topNode: Option<nat>)
      requires WellLinked(blocks, depth) && forall k :: 0 <= k < |topBlocks| ==> topBlocks[k] in blocks
      requires EndpointsResolve(blocks, edges) && LinesRanked(blocks, edges, edgeRank)
      requires b == AddLines(blocks, depth, edges)
      ensures (nodes, topNode) == BuildTree(blocks, depth, topBlocks, edges, edgeRank)
    {
      ghost var t := NodeTree(blocks, depth, topBlocks, edges);
      NodeTreeCases(blocks, depth, topBlocks, edges);
      if b.topNode.Some? {
        nodes, topNode := b.nodes, b.topNode;
      } else {
        var topBlock := FirstTopOrWrapper(blocks, topBlocks);
        if topBlock.Some? {
          nodes, topNode := b.nodes + [NewTreeNode(topBlock.value, 1, 0)], Some(|b.nodes|);
        } else {
          nodes, topNode := b.nodes, None;
        }
      }
      assert nodes == t.0 && topNode == t.1;
      BuildTreeUnfold(blocks, depth, topBlocks, edges, edgeRank);
      if topNode.Some? {
        nodes := UpdatePreNodesWeightSum(nodes, RankSeq(nodes, edgeRank), topNode.value);
      }
    }

    /** One step of `lines.forEach`: `pair.forEach` creates the node of each end
        not yet in the dictionary, then the `to` node becomes a child of the
        `from` node through `addChild`. */
    method AddArrowline(b: Builder, from: Id, to: Id) returns (r: Builder)
      requires WellLinked(workspace.blocks, workspace.depth) && BuilderOk(b)
      requires Resolves(workspace.blocks, from) && Resolves(workspace.blocks, to)
      ensures r == AddLine(b, workspace.blocks, workspace.depth, Edge(from, to))
    {
      var pair := [from, to];
      r := b;
      for j := 0 to 2
        invariant BuilderOk(r)
        invariant j == 0 ==> r == b
        invariant j == 1 ==> r == MakeNode(b, workspace.blocks, workspace.depth, from)
        invariant j == 2 ==>
          r == MakeNode(MakeNode(b, workspace.blocks, workspace.depth, from), workspace.blocks, workspace.depth, to)
      {
        r := CreateNode(r, pair[j]);
      }
      var p, c := r.index[from], r.index[to];
      var children := InsertInOrder(r.nodes[p].children, c, TopKey(r.nodes));
      r := r.(nodes := r.nodes[p := r.nodes[p].(children := children)]);
    }

    /** The body of `pair.forEach`: a block met for the first time gets a node
        weighted by `getFollowingCount` of its wrapped chain, and becomes the root
        when there is none yet and its wrap kind is TOP. */
    method CreateNode(b: Builder, blockId: Id) returns (r: Builder)
      requires WellLinked(workspace.blocks, workspace.depth) && Resolves(workspace.blocks, blockId)
      ensures r == MakeNode(b, workspace.blocks, workspace.depth, blockId)
      ensures BuilderOk(b) ==> BuilderOk(r)
    {
      if BuilderOk(b) {
        MakeNodeOk(b, workspace.blocks, workspace.depth, blockId);
      }
      r := b;
      if blockId !in b.index {
        var block := workspace.blocks[blockId];
        var wrapBlockCount := GetFollowingCount(block.wrappedFirst);
        var topNode := b.topNode;
        if topNode.None? && IsTop(block.wrapKind) {
          topNode := Some(|b.nodes|);
        }
        r := Builder(b.nodes + [NewTreeNode(blockId, wrapBlockCount, block.top)], b.index[blockId := |b.nodes|], topNode);
      }
    }

    /** `getFollowingCount`: counts the blocks of the `next` chain with a do-while loop. */
    method GetFollowingCount(block: Option<Id>) returns (blockCount: nat)
      requires WellLinked(workspace.blocks, workspace.depth) && Known(workspace.blocks, block)
      ensures blockCount == FollowingCount(workspace.blocks, workspace.depth, block)
    {
      if block.None? {
        return 0;
      }
      var blocks := workspace.blocks;
      ghost var depth := workspace.depth;
      blockCount := 1;
      var nextBlock := blocks[block.value].next;
      while nextBlock.Some?
        invariant Known(blocks, nextBlock)
        invariant blockCount + |Chain(blocks, depth, nextBlock)| == |Chain(blocks, depth, block)|
        decreases if nextBlock.Some? then depth[nextBlock.value] + 1 else 0
      {
        blockCount := blockCount + 1;
        nextBlock := blocks[nextBlock.value].next;
      }
    }

    /** `updatePreNodesWeightSum`: offsets from 0 over the tree at `root`. */
    method UpdatePreNodesWeightSum(nodes: seq<TreeNode>, ghost rank: seq<nat>, root: nat) returns (r: seq<TreeNode>)
      requires Ranked(nodes, rank) && root < |nodes| && rank[root] > 0
      ensures r == AssignSums(nodes, PreOrder(nodes, rank, root), 0)
    {
      var accumulatedWeight;
      r, accumulatedWeight := LoopNodesWeightSum(nodes, rank, root, 0);
    }

    /** The closure `loopNodesWeightSum`: the node takes the running total, the
        total grows by its weight, then each child's subtree follows. */
    method LoopNodesWeightSum(nodes: seq<TreeNode>, ghost rank: seq<nat>, node: nat, accumulatedWeight: int)
      returns (r: seq<TreeNode>, total: int)
      requires Ranked(nodes, rank) && node < |nodes| && rank[node] > 0
      ensures r == AssignSums(nodes, PreOrder(nodes, rank, node), accumulatedWeight)
      ensures total == accumulatedWeight + WeightSum(nodes, PreOrder(nodes, rank, node))
      decreases rank[node]
    {
      r := nodes[node := nodes[node].(preNodesWeightSum := accumulatedWeight)];
      total := accumulatedWeight + nodes[node].weight;
      var cs := nodes[node].children;
      assert [node] + PreOrderAll(nodes, rank, cs[..0], rank[node]) == [node];
      var k := 0;
      while k < |cs|
        invariant 0 <= k <= |cs|
        invariant forall m :: 0 <= m < |cs| ==> cs[m] < |nodes| && 0 < rank[cs[m]] < rank[node]
        invariant r == AssignSums(nodes, [node] + PreOrderAll(nodes, rank, cs[..k], rank[node]), accumulatedWeight)
        invariant total == accumulatedWeight + WeightSum(nodes, [node] + PreOrderAll(nodes, rank, cs[..k], rank[node]))
      {
        ghost var r0, total0 := r, total;
        AssignSumsChildStep(nodes, rank, node, k, accumulatedWeight);
        r, total := LoopNodesWeightSum(r, rank, cs[k], total);
        AssignSumsChildDone(nodes, rank, node, k, accumulatedWeight, r0, total0, r, total);
        k := k + 1;
      }
      assert cs[..k] == cs;
    }

    /** `renderTreeOrder`: labels the node's first child `offset + 1`, and each
        following block one more than the one before. */
    method RenderTreeOrder(nodes: seq<TreeNode>, node: nat)
      requires WellLinked(workspace.blocks, workspace.depth)
      requires node < |nodes| && Renderable(workspace.blocks, nodes[node].value)
      modifies workspace`orders
      ensures workspace.orders ==
        WriteChain(old(workspace.orders), NodeChain(workspace.blocks, workspace.depth, nodes[node].value), nodes[node].preNodesWeightSum)
    {
      var blocks := workspace.blocks;
      ghost var depth := workspace.depth;
      var value, preNodesWeightSum := nodes[node].value, nodes[node].preNodesWeightSum;
      var firstBlock := blocks[value].firstChild.value;
      var count := 1;
      workspace.orders := SetLabel(workspace.orders, firstBlock, Some(preNodesWeightSum + count));
      var nextBlock := blocks[firstBlock].next;
      while nextBlock.Some?
        invariant Known(blocks, nextBlock)
        invariant WriteChain(workspace.orders, Chain(blocks, depth, nextBlock), preNodesWeightSum + count) ==
          WriteChain(old(workspace.orders), NodeChain(blocks, depth, value), preNodesWeightSum)
        decreases if nextBlock.Some? then depth[nextBlock.value] + 1 else 0
      {
        count := count + 1;
        workspace.orders := SetLabel(workspace.orders, nextBlock.value, Some(preNodesWeightSum + count));
        nextBlock := blocks[nextBlock.value].next;
      }
    }

    /** `updateTreeOrder`: renders the node, then each child's subtree in child order. */
    method UpdateTreeOrder(nodes: seq<TreeNode>, ghost rank: seq<nat>, node: nat)
      requires WellLinked(workspace.blocks, workspace.depth)
      requires Ranked(nodes, rank) && node < |nodes| && rank[node] > 0
      requires AllRenderable(workspace.blocks, nodes, PreOrder(nodes, rank, node))
      modifies workspace`orders
      ensures workspace.orders ==
        Annotate(old(workspace.orders), workspace.blocks, workspace.depth, nodes, PreOrder(nodes, rank, node))
      decreases rank[node]
    {
      RenderTreeOrder(nodes, node);
      var cs := nodes[node].children;
      assert [node] + PreOrderAll(nodes, rank, cs[..0], rank[node]) == [node];
      var k := 0;
      while k < |cs|
        invariant 0 <= k <= |cs|
        invariant forall m :: 0 <= m < |cs| ==> cs[m] < |nodes| && 0 < rank[cs[m]] < rank[node]
        invariant AllRenderable(workspace.blocks, nodes, [node] + PreOrderAll(nodes, rank, cs[..k], rank[node]))
        invariant workspace.orders == Annotate(old(workspace.orders), workspace.blocks, workspace.depth, nodes,
                                               [node] + PreOrderAll(nodes, rank, cs[..k], rank[node]))
      {
        ghost var done := [node] + PreOrderAll(nodes, rank, cs[..k], rank[node]);
        ghost var sub := PreOrder(nodes, rank, cs[k]);
        PreOrderChildStep(nodes, rank, node, k);
        AllRenderablePrefix(workspace.blocks, nodes, PreOrder(nodes, rank, node), done + sub);
        AllRenderableSplit(workspace.blocks, nodes, done, sub);
        AnnotateAppend(old(workspace.orders), workspace.blocks, workspace.depth, nodes, done, sub);
        UpdateTreeOrder(nodes, rank, cs[k]);
        k := k + 1;
      }
      assert cs[..k] == cs;
    }

    /** `resetOutsideTreeOrder`: for every top block that is not a tree node, a
        wrapper has its whole wrapped chain cleared, any other block only itself. */
    method ResetOutsideTreeOrder(nodes: seq<TreeNode>, ghost rank: seq<nat>, topNode: nat)
      requires WellLinked(workspace.blocks, workspace.depth)
      requires forall k :: 0 <= k < |workspace.topBlocks| ==> workspace.topBlocks[k] in workspace.blocks
      requires Ranked(nodes, rank) && topNode < |nodes| && rank[topNode] > 0
      modifies workspace`orders
      ensures workspace.orders ==
        ResetAll(old(workspace.orders), workspace.blocks, workspace.depth,
                 Outside(workspace.topBlocks, TreeIds(nodes, PreOrder(nodes, rank, topNode))))
    {
      var blocks := workspace.blocks;
      ghost var depth := workspace.depth;
      var list := TreeToList(nodes, rank, topNode, []);
      assert list == PreOrder(nodes, rank, topNode) by {
        assert [] + PreOrder(nodes, rank, topNode) == PreOrder(nodes, rank, topNode);
      }
      var insideBlockIdMap := InsideBlockIds(nodes, list);
      assert insideBlockIdMap == TreeIds(nodes, PreOrder(nodes, rank, topNode));
      var outSideTopBlocks := Outside(workspace.topBlocks, insideBlockIdMap);
      for i := 0 to |outSideTopBlocks|
        invariant ResetAll(workspace.orders, blocks, depth, outSideTopBlocks[i..]) ==
          ResetAll(old(workspace.orders), blocks, depth, outSideTopBlocks)
      {
        assert outSideTopBlocks[i..][1..] == outSideTopBlocks[i + 1..];
        ResetTopBlock(outSideTopBlocks[i]);
      }
      assert outSideTopBlocks[|outSideTopBlocks|..] == [];
      assert workspace.orders == ResetAll(old(workspace.orders), blocks, depth, outSideTopBlocks);
    }

    /** `list.forEach(node => insideBlockIdMap.set(node.value.id, 1))`: the keys of the map. */
    method InsideBlockIds(nodes: seq<TreeNode>, list: seq<nat>) returns (insideBlockIdMap: set<Id>)
      requires forall k :: 0 <= k < |list| ==> list[k] < |nodes|
      ensures forall k :: 0 <= k < |list| ==> nodes[list[k]].value in insideBlockIdMap
      ensures forall id :: id in insideBlockIdMap ==> exists k :: 0 <= k < |list| && nodes[list[k]].value == id
    {
      insideBlockIdMap := {};
      for i := 0 to |list|
        invariant forall k :: 0 <= k < i ==> nodes[list[k]].value in insideBlockIdMap
        invariant forall id :: id in insideBlockIdMap ==> exists k :: 0 <= k < i && nodes[list[k]].value == id
      {
        insideBlockIdMap := insideBlockIdMap + {nodes[list[i]].value};
      }
    }

    /** The body of `outSideTopBlocks.forEach`: a wrapper's wrapped chain is
        cleared block by block; any other block only clears its own label. */
    method ResetTopBlock(block: Id)
      requires WellLinked(workspace.blocks, workspace.depth) && block in workspace.blocks
      modifies workspace`orders
      ensures workspace.orders == ResetOne(old(workspace.orders), workspace.blocks, workspace.depth, block)
    {
      var blocks := workspace.blocks;
      ghost var depth := workspace.depth;
      if blocks[block].isWrapper {
        var nextBlock := blocks[block].wrappedFirst;
        while nextBlock.Some?
          invariant Known(blocks, nextBlock)
          invariant ClearAll(workspace.orders, Chain(blocks, depth, nextBlock)) ==
            ClearAll(old(workspace.orders), Chain(blocks, depth, blocks[block].wrappedFirst))
          decreases if nextBlock.Some? then depth[nextBlock.value] + 1 else 0
        {
          workspace.orders := SetLabel(workspace.orders, nextBlock.value, None);
          nextBlock := blocks[nextBlock.value].next;
        }
      } else {
        workspace.orders := SetLabel(workspace.orders, block, None);
      }
    }
  }
}

=== FILE: blocks.dfy ===
/** The host editor's blocks, as far as the ordering subsystem queries them,
    and the per-block order label store written by the annotator. */
module Blocks {
  import opened Wrappers
  import opened BtNodeTypes

  type Id = string

  /** One block, through the host queries the ordering code calls on it. */
  datatype Block = Block(
    next: Option<Id>,               // getNextBlock()
    wrappedFirst: Option<Id>,       // getInput('DO')?.connection?.targetBlock() ?? null
    firstChild: Option<Id>,         // getChildren(false)[0]
    isWrapper: bool,                // isBtWrapper()
    wrapKind: Option<BtNodeType>,   // getBtWrapNodeType()
    isTopNodeOrWrapper: bool,       // isBtTopNodeOrWrapper()
    top: int,                       // getBoundingRectangle().top
    disposed: bool)                 // isDisposed()

  /** Every link names a known block, and following `next` strictly lowers
      `depth`, so every chain ends (the host editor's chains are acyclic). */
  ghost predicate WellLinked(blocks: map<Id, Block>, depth: map<Id, nat>)
  {
    forall id :: id in blocks ==>
      && id in depth
      && (blocks[id].next.Some? ==>
            blocks[id].next.value in blocks && blocks[id].next.value in depth &&
            depth[blocks[id].next.value] < depth[id])
      && (blocks[id].wrappedFirst.Some? ==> blocks[id].wrappedFirst.value in blocks)
      && (blocks[id].firstChild.Some? ==> blocks[id].firstChild.value in blocks)
  }

  /** `workspace.getBlockById(id)` finds a live block. */
  predicate Resolves(blocks: map<Id, Block>, id: Id)
  {
    id in blocks && !blocks[id].disposed
  }

  /** A start block that is absent or known. */
  predicate Known(blocks: map<Id, Block>, start: Option<Id>)
  {
    start.Some? ==> start.value in blocks
  }

  /** The blocks met by starting at `start` and following `getNextBlock()` until it is null. */
  ghost function Chain(blocks: map<Id, Block>, depth: map<Id, nat>, start: Option<Id>): (c: seq<Id>)
    requires WellLinked(blocks, depth) && Known(blocks, start)
    decreases if start.Some? then depth[start.value] + 1 else 0
  {
    if start.None? then [] else [start.value] + Chain(blocks, depth, blocks[start.value].next)
  }

  /** No two positions of a sequence hold the same id. */
  ghost predicate Distinct(s: seq<Id>)
  {
    forall i, j :: 0 <= i < j < |s| ==> s[i] != s[j]
  }

  /** A chain starts at its start block, each element is the previous one's
      next block, the last one has no next block, and no block repeats. */
  lemma {:induction false} ChainShape(blocks: map<Id, Block>, depth: map<Id, nat>, start: Option<Id>)
    requires WellLinked(blocks, depth) && Known(blocks, start)
    ensures var c := Chain(blocks, depth, start);
      && (start.None? <==> c == [])
      && (start.Some? ==> c[0] == start.value)
      && (forall k :: 0 <= k < |c| ==> c[k] in blocks)
      && (forall k :: 0 <= k < |c| - 1 ==> blocks[c[k]].next == Some(c[k + 1]))
      && (c != [] ==> blocks[c[|c| - 1]].next.None?)
      && (forall k :: 0 <= k < |c| ==> start.Some? && depth[c[k]] <= depth[start.value] - k)
      && Distinct(c)
    decreases if start.Some? then depth[start.value] + 1 else 0
  {
    if start.Some? {
      var nx := blocks[start.value].next;
      ChainShape(blocks, depth, nx);
      var c := Chain(blocks, depth, start);
      var t := Chain(blocks, depth, nx);
      assert c == [start.value] + t;
      forall k | 1 <= k < |c|
        ensures depth[c[k]] <= depth[start.value] - k
      {
        assert c[k] == t[k - 1];
      }
      forall i, j | 0 <= i < j < |c|
        ensures c[i] != c[j]
      {
        assert depth[c[j]] <= depth[start.value] - j;
        if i == 0 {
        } else {
          assert c[i] == t[i - 1] && c[j] == t[j - 1];
        }
      }
    }
  }

  /** The order label of a block as `block.btOrder?.getOrder() ?? null` reads it:
      `orders` holds the label of every block that carries an order icon, and a
      block without one reads as null. */
  function Label(orders: map<Id, Option<int>>, id: Id): Option<int>
  {
    if id in orders then orders[id] else None
  }

  /** `block.btOrder?.setOrder(v)`: blocks without an order icon are left alone. */
  function SetLabel(orders: map<Id, Option<int>>, id: Id, v: Option<int>): (r: map<Id, Option<int>>)
    ensures r.Keys == orders.Keys
    ensures Label(r, id) == if id in orders then v else None
    ensures forall x :: x != id ==> Label(r, x) == Label(orders, x)
  {
    if id in orders then orders[id := v] else orders
  }

  /** Labels the k-th block of `chain` (k from 1) with `base + k`, in chain order. */
  function WriteChain(orders: map<Id, Option<int>>, chain: seq<Id>, base: int): (r: map<Id, Option<int>>)
    ensures r.Keys == orders.Keys
    decreases |chain|
  {
    if chain == [] then orders
    else WriteChain(SetLabel(orders, chain[0], Some(base + 1)), chain[1..], base + 1)
  }

  /** Writing a chain of distinct blocks gives its k-th block (k from 1) the label
      `base + k` when it has an order icon, and leaves every block off the chain alone. */
  lemma {:induction false} WriteChainLabels(orders: map<Id, Option<int>>, chain: seq<Id>, base: int)
    requires Distinct(chain)
    ensures forall k :: 0 <= k < |chain| && chain[k] in orders ==>
      Label(WriteChain(orders, chain, base), chain[k]) == Some(base + k + 1)
    ensures forall x :: x !in chain ==> Label(WriteChain(orders, chain, base), x) == Label(orders, x)
    decreases |chain|
  {
    if chain != [] {
      var o1 := SetLabel(orders, chain[0], Some(base + 1));
      var rest := chain[1..];
      assert Distinct(rest) by {
        forall i, j | 0 <= i < j < |rest| ensures rest[i] != rest[j] {
          assert rest[i] == chain[i + 1] && rest[j] == chain[j + 1];
        }
      }
      WriteChainLabels(o1, rest, base + 1);
      forall k | 0 <= k < |chain| && chain[k] in orders
        ensures Label(WriteChain(orders, chain, base), chain[k]) == Some(base + k + 1)
      {
        if k == 0 {
          assert chain[0] !in rest by {
            forall j | 0 <= j < |rest| ensures rest[j] != chain[0] { assert rest[j] == chain[j + 1]; }
          }
        } else {
          assert chain[k] == rest[k - 1];
        }
      }
    }
  }

  /** Sets the label of every listed block to null, in list order. */
  function ClearAll(orders: map<Id, Option<int>>, ids: seq<Id>): (r: map<Id, Option<int>>)
    ensures r.Keys == orders.Keys
    decreases |ids|
  {
    if ids == [] then orders else ClearAll(SetLabel(orders, ids[0], None), ids[1..])
  }

  /** Clearing a list nulls exactly the listed blocks. */
  lemma {:induction false} ClearAllLabels(orders: map<Id, Option<int>>, ids: seq<Id>)
    ensures forall x :: Label(ClearAll(orders, ids), x) == if x in ids then None else Label(orders, x)
    decreases |ids|
  {
    if ids != [] {
      ClearAllLabels(SetLabel(orders, ids[0], None), ids[1..]);
      forall x ensures Label(ClearAll(orders, ids), x) == if x in ids then None else Label(orders, x) {
        assert x in ids <==> x == ids[0] || x in ids[1..];
      }
    }
  }
}

=== FILE: bt_base_node_icon.dfy ===
/** The icon's message map (`textMap`): a JavaScript `Map` from message id to
    text, kept as entries in insertion order, and `getText`'s newline join. */
module Messages {
  import opened Wrappers

  /** No id appears twice. */
  predicate UniqueKeys(m: seq<(string, string)>)
  {
    forall i, j :: 0 <= i < j < |m| ==> m[i].0 != m[j].0
  }

  function Keys(m: seq<(string, string)>): (ks: seq<string>)
    ensures |ks| == |m| && forall k :: 0 <= k < |m| ==> ks[k] == m[k].0
  {
    if m == [] then [] else [m[0].0] + Keys(m[1..])
  }

  /** `values()`, in insertion order. */
  function Values(m: seq<(string, string)>): (vs: seq<string>)
    ensures |vs| == |m| && forall k :: 0 <= k < |m| ==> vs[k] == m[k].1
  {
    if m == [] then [] else [m[0].1] + Values(m[1..])
  }

  /** `get(id)`. */
  function Get(m: seq<(string, string)>, id: string): (r: Option<string>)
    ensures r.Some? <==> id in Keys(m)
  {
    if m == [] then None else if m[0].0 == id then Some(m[0].1) else Get(m[1..], id)
  }

  /** `set(id, text)`: an existing id keeps its place and takes the new text; a
      new id is appended. */
  function Set(m: seq<(string, string)>, id: string, text: string): (r: seq<(string, string)>)
    ensures forall x :: Get(r, x) == if x == id then Some(text) else Get(m, x)
    ensures Keys(r) == if id in Keys(m) then Keys(m) else Keys(m) + [id]
    ensures UniqueKeys(m) ==> UniqueKeys(r)
  {
    if m == [] then [(id, text)]
    else if m[0].0 == id then [(id, text)] + m[1..]
    else
      var t := Set(m[1..], id, text);
      var r := [m[0]] + t;
      assert Keys(r) == [m[0].0] + Keys(t);
      assert Keys(m) == [m[0].0] + Keys(m[1..]);
      assert UniqueKeys(m) ==> UniqueKeys(r) by {
        if UniqueKeys(m) {
          assert UniqueKeys(m[1..]) by {
            forall i, j | 0 <= i < j < |m[1..]| ensures m[1..][i].0 != m[1..][j].0 {
              assert m[1..][i] == m[i + 1] && m[1..][j] == m[j + 1];
            }
          }
          assert m[0].0 !in Keys(t);
          forall i, j | 0 <= i < j < |r| ensures r[i].0 != r[j].0 {
            assert r[j] == t[j - 1] && Keys(t)[j - 1] == t[j - 1].0;
            if i > 0 { assert r[i] == t[i - 1]; }
          }
        }
      }
      r
  }

  /** `delete(id)`: the id is gone and every other entry stays, in order. */
  function Delete(m: seq<(string, string)>, id: string): (r: seq<(string, string)>)
    ensures forall x :: Get(r, x) == if x == id then None else Get(m, x)
    ensures forall k :: 0 <= k < |r| ==> r[k] in m
    ensures UniqueKeys(m) ==> UniqueKeys(r)
  {
    if m == [] then []
    else if m[0].0 == id then Delete(m[1..], id)
    else
      var t := Delete(m[1..], id);
      assert UniqueKeys(m) ==> forall k :: 0 <= k < |t| ==> t[k].0 != m[0].0 by {
        if UniqueKeys(m) {
          forall k | 0 <= k < |t| ensures t[k].0 != m[0].0 {
            var j :| 0 <= j < |m[1..]| && m[1..][j] == t[k];
            assert m[j + 1] == t[k];
          }
        }
      }
      [m[0]] + t
  }

  /** `join('\n')`. */
  function Join(vs: seq<string>): (r: string)
    ensures vs == [] ==> r == ""
    ensures vs != [] ==> vs[0] <= r && |vs[|vs| - 1]| <= |r| && r[|r| - |vs[|vs| - 1]|..] == vs[|vs| - 1]
  {
    if vs == [] then ""
    else if |vs| == 1 then vs[0]
    else vs[0] + "\n" + Join(vs[1..])
  }

  /** `split('\n')`: the pieces between newlines, one more than there are newlines. */
  function Split(s: string): (r: seq<string>)
    ensures |r| >= 1
  {
    if s == [] then [""]
    else
      var rest := Split(s[1..]);
      if s[0] == '\n' then [""] + rest else [[s[0]] + rest[0]] + rest[1..]
  }

  lemma {:induction false} SplitPrefix(v: string, t: string)
    requires '\n' !in v
    ensures Split(v + t) == [v + Split(t)[0]] + Split(t)[1..]
  {
    if v == [] {
      assert v + t == t && v + Split(t)[0] == Split(t)[0];
      assert [Split(t)[0]] + Split(t)[1..] == Split(t);
    } else {
      assert (v + t)[1..] == v[1..] + t;
      SplitPrefix(v[1..], t);
      assert [v[0]] + (v[1..] + Split(t)[0]) == v + Split(t)[0];
    }
  }

  /** Splitting the joined messages at newlines gives the messages back, when no
      message holds a newline itself. */
  lemma {:induction false} SplitJoin(vs: seq<string>)
    requires vs != [] && forall k :: 0 <= k < |vs| ==> '\n' !in vs[k]
    ensures Split(Join(vs)) == vs
  {
    if |vs| == 1 {
      SplitPrefix(vs[0], "");
      assert vs[0] + "" == vs[0];
    } else {
      SplitJoin(vs[1..]);
      var rest := "\n" + Join(vs[1..]);
      SplitPrefix(vs[0], rest);
      assert rest[1..] == Join(vs[1..]);
      assert Join(vs) == vs[0] + rest;
      assert vs[0] + "" == vs[0];
      assert vs == [vs[0]] + vs[1..];
    }
  }
}

/** The connector icons' shared base (core/icons/bt_base_node_icon.ts): the armed
    source of a connecting drag, the release test, the message map, and
    `createArrowLine`, which registers a new arrow line and refreshes the orders. */
module BtBaseNodeIcons {
  import opened Wrappers
  import opened Blocks
  import opened WorkspaceArrowlines
  import opened BehaviorOrder
  import opened BehaviorOrderManagers
  import Messages

  // ---------------------------------------------------------------------------
  // The armed source of a connecting drag

  /** The value of `FROM_BLOCK`: the block whose connector was pressed, and
      whether it was the left (input) connector. */
  datatype DownPoint = DownPoint(blockId: Id, isLeft: bool)

  /** The static field `FROM_BLOCK`, shared by every connector icon. */
  class GestureState {
    var fromBlock: Option<DownPoint>

    constructor ()
      ensures fromBlock == None
    {
      fromBlock := None;
    }
  }

  /** The base `onMouseUp` outcome: true (handled, nothing to connect) when the icon
      is inactive, nothing is armed, the release was forwarded to the connector
      under the pointer, or the armed block is the icon's own block. */
  predicate BaseReleaseHandled(active: bool, armed: Option<DownPoint>, source: Id, forwarded: bool)
  {
    !active || armed.None? || forwarded || armed.value.blockId == source
  }

  /** What a release on a connector does: whether it is handled, the edge it asks
      `createArrowLine` for, and the armed state after it. */
  datatype ReleaseOutcome = ReleaseOutcome(handled: bool, request: Option<Edge>, armed: Option<DownPoint>)

  /** `onMouseUp` of the left (`isLeftIcon`) or right connector of block `source`. */
  function Release(active: bool, armed: Option<DownPoint>, source: Id, isLeftIcon: bool, forwarded: bool): (o: ReleaseOutcome)
    // a request always runs from the right connector's block to the left connector's block
    ensures o.request.Some? ==>
      && armed.Some? && armed.value.isLeft != isLeftIcon
      && (isLeftIcon ==> o.request.value == Edge(armed.value.blockId, source))
      && (!isLeftIcon ==> o.request.value == Edge(source, armed.value.blockId))
    // the gesture never asks for a line from a block to itself
    ensures o.request.Some? ==> o.request.value.from != o.request.value.to
    // the armed state is cleared by a committing release and survives any other
    ensures o.request.Some? ==> o.armed.None?
    ensures o.request.None? ==> o.armed == armed
    // a release is handled when the base handles it or when it commits
    ensures o.handled <==> BaseReleaseHandled(active, armed, source, forwarded) || o.request.Some?
    ensures BaseReleaseHandled(active, armed, source, forwarded) ==> o.request.None?
  {
    if BaseReleaseHandled(active, armed, source, forwarded) then ReleaseOutcome(true, None, armed)
    else if armed.value.isLeft == isLeftIcon then ReleaseOutcome(false, None, armed)
    else if isLeftIcon then ReleaseOutcome(true, Some(Edge(armed.value.blockId, source)), None)
    else ReleaseOutcome(true, Some(Edge(source, armed.value.blockId)), None)
  }

  // ---------------------------------------------------------------------------
  // createArrowLine on the edge sequence

  /** The dispose pass removes a line that leaves `from` when `from` is a top node
      or wrapper, and any line that enters `to`. */
  predicate Disposes(from: Id, to: Id, isFromTop: bool, lineFrom: Id, lineTo: Id)
  {
    (isFromTop && lineFrom == from) || lineTo == to
  }

  /** The edges that survive the dispose pass, in their order. */
  function KeepEdges(edges: seq<Edge>, from: Id, to: Id, isFromTop: bool): (r: seq<Edge>)
    ensures |r| <= |edges|
  {
    if edges == [] then []
    else
      var e := edges[|edges| - 1];
      var front := edges[..|edges| - 1];
      assert forall k :: 0 <= k < |front| ==> front[k] == edges[k];
      KeepEdges(front, from, to, isFromTop) + (if Disposes(from, to, isFromTop, e.from, e.to) then [] else [e])
  }

  /** The dispose pass keeps exactly the edges the rules spare. */
  lemma {:induction false} KeepEdgesFacts(edges: seq<Edge>, from: Id, to: Id, isFromTop: bool)
    ensures var r := KeepEdges(edges, from, to, isFromTop);
      && (forall k :: 0 <= k < |r| ==> r[k] in edges && !Disposes(from, to, isFromTop, r[k].from, r[k].to))
      && (forall k :: 0 <= k < |edges| && !Disposes(from, to, isFromTop, edges[k].from, edges[k].to) ==> edges[k] in r)
  {
    if edges != [] {
      var front := edges[..|edges| - 1];
      var e := edges[|edges| - 1];
      KeepEdgesFacts(front, from, to, isFromTop);
      var rf := KeepEdges(front, from, to, isFromTop);
      var r := KeepEdges(edges, from, to, isFromTop);
      assert r == rf + (if Disposes(from, to, isFromTop, e.from, e.to) then [] else [e]);
      forall k | 0 <= k < |r|
        ensures r[k] in edges && !Disposes(from, to, isFromTop, r[k].from, r[k].to)
      {
        if k < |rf| {
          assert r[k] == rf[k] && rf[k] in front;
          var j :| 0 <= j < |front| && front[j] == rf[k];
          assert edges[j] == front[j];
        } else {
          assert r[k] == e == edges[|edges| - 1];
        }
      }
      forall k | 0 <= k < |edges| && !Disposes(from, to, isFromTop, edges[k].from, edges[k].to)
        ensures edges[k] in r
      {
        if k < |front| {
          assert edges[k] == front[k] && front[k] in rf;
        } else {
          assert r[|r| - 1] == e;
        }
      }
    }
  }

  /** `isSame` on an edge: it joins the two blocks in either direction. */
  predicate SamePair(e: Edge, a: Id, b: Id)
  {
    (e.from == a && e.to == b) || (e.from == b && e.to == a)
  }

  predicate HasPair(edges: seq<Edge>, a: Id, b: Id)
  {
    exists k :: 0 <= k < |edges| && SamePair(edges[k], a, b)
  }

  /** `createArrowLine(from, to)` creates a line: the ids differ, both resolve, and
      no line joins the two blocks yet. */
  predicate Creates(blocks: map<Id, Block>, edges: seq<Edge>, from: Id, to: Id)
  {
    from != to && Resolves(blocks, from) && Resolves(blocks, to) && !HasPair(edges, from, to)
  }

  /** The edges after `createArrowLine(from, to)`: nothing happens for a self-line
      or an unresolved block; otherwise the dispose pass runs, and the new line is
      appended unless a line already joined the two blocks. */
  function AddEdge(blocks: map<Id, Block>, edges: seq<Edge>, from: Id, to: Id): (r: seq<Edge>)
    ensures !(from != to && Resolves(blocks, from) && Resolves(blocks, to)) ==> r == edges
    ensures Creates(blocks, edges, from, to) <==> r != [] && r[|r| - 1] == Edge(from, to) && Edge(from, to) !in edges
  {
    if from == to || !Resolves(blocks, from) || !Resolves(blocks, to) then edges
    else
      var kept := KeepEdges(edges, from, to, blocks[from].isTopNodeOrWrapper);
      KeepEdgesFacts(edges, from, to, blocks[from].isTopNodeOrWrapper);
      if HasPair(edges, from, to) then kept else kept + [Edge(from, to)]
  }

  /** The two outcomes of a resolved, non-self request: an existing pair leaves only
      the surviving lines, otherwise the new edge follows them. */
  lemma AddEdgeCases(blocks: map<Id, Block>, edges: seq<Edge>, from: Id, to: Id)
    requires from != to && Resolves(blocks, from) && Resolves(blocks, to)
    ensures var kept := KeepEdges(edges, from, to, blocks[from].isTopNodeOrWrapper);
      AddEdge(blocks, edges, from, to) == if HasPair(edges, from, to) then kept else kept + [Edge(from, to)]
  {
  }

  /** Fan-in: afterwards at most one line enters `to`, and it is the new one. */
  lemma AddEdgeFanIn(blocks: map<Id, Block>, edges: seq<Edge>, from: Id, to: Id)
    requires from != to && Resolves(blocks, from) && Resolves(blocks, to)
    ensures var r := AddEdge(blocks, edges, from, to);
      forall k :: 0 <= k < |r| && r[k].to == to ==>
        k == |r| - 1 && r[k] == Edge(from, to) && Creates(blocks, edges, from, to)
  {
    KeepEdgesFacts(edges, from, to, blocks[from].isTopNodeOrWrapper);
  }

  /** Fan-out of a top node or wrapper: afterwards the only line leaving `from` is
      the new one. */
  lemma AddEdgeTopFanOut(blocks: map<Id, Block>, edges: seq<Edge>, from: Id, to: Id)
    requires from != to && Resolves(blocks, from) && Resolves(blocks, to) && blocks[from].isTopNodeOrWrapper
    ensures var r := AddEdge(blocks, edges, from, to);
      forall k :: 0 <= k < |r| && r[k].from == from ==>
        k == |r| - 1 && r[k] == Edge(from, to) && Creates(blocks, edges, from, to)
  {
    KeepEdgesFacts(edges, from, to, true);
  }

  /** Every line the dispose rules spare survives, and nothing but the new line
      is added. */
  lemma AddEdgeKeeps(blocks: map<Id, Block>, edges: seq<Edge>, from: Id, to: Id)
    requires from != to && Resolves(blocks, from) && Resolves(blocks, to)
    ensures var r := AddEdge(blocks, edges, from, to);
      && (forall k :: 0 <= k < |edges| && !Disposes(from, to, blocks[from].isTopNodeOrWrapper, edges[k].from, edges[k].to) ==>
            edges[k] in r)
      && (forall k :: 0 <= k < |r| ==> r[k] in edges || r[k] == Edge(from, to))
  {
    KeepEdgesFacts(edges, from, to, blocks[from].isTopNodeOrWrapper);
  }

  /** Adding a line that exists removes it and creates nothing; a line in the
      reverse direction blocks the new line and survives. */
  lemma AddEdgeExisting(blocks: map<Id, Block>, edges: seq<Edge>, from: Id, to: Id)
    requires from != to && Resolves(blocks, from) && Resolves(blocks, to)
    ensures Edge(from, to) in edges ==> Edge(from, to) !in AddEdge(blocks, edges, from, to)
    ensures Edge(to, from) in edges ==>
      Edge(to, from) in AddEdge(blocks, edges, from, to) && !Creates(blocks, edges, from, to)
  {
    var isFromTop := blocks[from].isTopNodeOrWrapper;
    KeepEdgesFacts(edges, from, to, isFromTop);
    if Edge(from, to) in edges {
      var k :| 0 <= k < |edges| && edges[k] == Edge(from, to);
      assert SamePair(edges[k], from, to);
    }
    if Edge(to, from) in edges {
      var k :| 0 <= k < |edges| && edges[k] == Edge(to, from);
      assert SamePair(edges[k], from, to);
      assert !Disposes(from, to, isFromTop, edges[k].from, edges[k].to);
    }
  }

  /** The lines that survive the dispose pass, in their order. */
  function KeepLines(lines: seq<WorkspaceArrowline>, from: Id, to: Id, isFromTop: bool): (r: seq<WorkspaceArrowline>)
    ensures |r| <= |lines|
  {
    if lines == [] then []
    else
      var l := lines[|lines| - 1];
      var front := lines[..|lines| - 1];
      assert forall k :: 0 <= k < |front| ==> front[k] == lines[k];
      KeepLines(front, from, to, isFromTop) + (if Disposes(from, to, isFromTop, l.fromBlockId, l.toBlockId) then [] else [l])
  }

  lemma EdgesOfAppend(a: seq<WorkspaceArrowline>, b: seq<WorkspaceArrowline>)
    ensures EdgesOf(a + b) == EdgesOf(a) + EdgesOf(b)
  {
    var l, r := EdgesOf(a + b), EdgesOf(a) + EdgesOf(b);
    forall k | 0 <= k < |l| ensures l[k] == r[k] {
      if k < |a| { assert (a + b)[k] == a[k]; } else { assert (a + b)[k] == b[k - |a|]; }
    }
  }

  /** The edges of the surviving lines are the surviving edges. */
  lemma {:induction false} KeepLinesEdges(lines: seq<WorkspaceArrowline>, from: Id, to: Id, isFromTop: bool)
    ensures EdgesOf(KeepLines(lines, from, to, isFromTop)) == KeepEdges(EdgesOf(lines), from, to, isFromTop)
  {
    if lines != [] {
      var front := lines[..|lines| - 1];
      var l := lines[|lines| - 1];
      var tail := if Disposes(from, to, isFromTop, l.fromBlockId, l.toBlockId) then [] else [l];
      KeepLinesEdges(front, from, to, isFromTop);
      EdgesOfAppend(KeepLines(front, from, to, isFromTop), tail);
      var es := EdgesOf(lines);
      assert es[..|es| - 1] == EdgesOf(front) by {
        assert forall k :: 0 <= k < |front| ==> front[k] == lines[k];
      }
      assert es[|es| - 1] == Edge(l.fromBlockId, l.toBlockId);
    }
  }

  /** Removing an element that does not occur changes nothing. */
  lemma {:induction false} WithoutAbsent<T>(b: seq<T>, x: T)
    requires forall k :: 0 <= k < |b| ==> b[k] != x
    ensures Without(b, x) == b
  {
    if b != [] {
      WithoutAbsent(b[1..], x);
    }
  }

  /** Removing an element that occurs once leaves the rest in order. */
  lemma {:induction false} WithoutOnce<T>(a: seq<T>, x: T, b: seq<T>)
    requires forall k :: 0 <= k < |a| ==> a[k] != x
    requires forall k :: 0 <= k < |b| ==> b[k] != x
    ensures Without(a + [x] + b, x) == a + b
  {
    var s := a + [x] + b;
    if a == [] {
      assert s == [x] + b && s[1..] == b;
      WithoutAbsent(b, x);
    } else {
      assert s[1..] == a[1..] + [x] + b;
      WithoutOnce(a[1..], x, b);
      assert a + b == [a[0]] + (a[1..] + b);
    }
  }

  /** Scanning one more line keeps it unless it conflicts with the new edge. */
  lemma KeepLinesStep(lines: seq<WorkspaceArrowline>, i: int, from: Id, to: Id, isFromTop: bool)
    requires 0 <= i < |lines|
    ensures AnySame(lines[..i + 1], from, to) == (AnySame(lines[..i], from, to) || lines[i].IsSame(from, to))
    ensures KeepLines(lines[..i + 1], from, to, isFromTop) ==
      KeepLines(lines[..i], from, to, isFromTop) +
      (if Disposes(from, to, isFromTop, lines[i].fromBlockId, lines[i].toBlockId) then [] else [lines[i]])
  {
    assert lines[..i + 1][..i] == lines[..i];
  }

  /** Whether some line of the collection joins the two blocks, in either direction. */
  function AnySame(lines: seq<WorkspaceArrowline>, a: Id, b: Id): bool
  {
    lines != [] && (AnySame(lines[..|lines| - 1], a, b) || lines[|lines| - 1].IsSame(a, b))
  }

  /** A collection holds a line joining two blocks exactly when its edges hold that pair. */
  lemma {:induction false} HasPairLines(lines: seq<WorkspaceArrowline>, a: Id, b: Id)
    ensures AnySame(lines, a, b) <==> HasPair(EdgesOf(lines), a, b)
  {
    if lines != [] {
      var front := lines[..|lines| - 1];
      HasPairLines(front, a, b);
      var es := EdgesOf(lines);
      var fs := EdgesOf(front);
      assert forall k :: 0 <= k < |fs| ==> fs[k] == es[k];
      if HasPair(es, a, b) {
        var k :| 0 <= k < |es| && SamePair(es[k], a, b);
        if k < |fs| {
          assert SamePair(fs[k], a, b);
        }
      }
      if HasPair(fs, a, b) {
        var k :| 0 <= k < |fs| && SamePair(fs[k], a, b);
        assert SamePair(es[k], a, b);
      }
    }
  }

  lemma DropFirst<T>(s: seq<T>, i: int)
    requires 0 <= i < |s|
    ensures s[i..] == [s[i]] + s[i + 1..]
  {
  }

  /** In a sequence without repeats, an element occurs neither before nor after
      its own position. */
  lemma DistinctSplit<T>(a: seq<T>, x: T, b: seq<T>)
    requires forall i, j :: 0 <= i < j < |a + [x] + b| ==> (a + [x] + b)[i] != (a + [x] + b)[j]
    ensures forall k :: 0 <= k < |a| ==> a[k] != x
    ensures forall k :: 0 <= k < |b| ==> b[k] != x
  {
    var s := a + [x] + b;
    forall k | 0 <= k < |a| ensures a[k] != x {
      assert s[k] == a[k] && s[|a|] == x;
    }
    forall k | 0 <= k < |b| ensures b[k] != x {
      assert s[|a| + 1 + k] == b[k] && s[|a|] == x;
    }
  }

  /** A line that closes a cycle the root does not reach: from T -> A -> B -> C,
      with T the only TOP block, the line C -> A disposes T -> A (the line into A)
      and leaves the cycle A -> B -> C -> A, which needs no ranks. */
  lemma CycleOffRootRanked(blocks: map<Id, Block>)
    requires Resolves(blocks, "T") && Resolves(blocks, "A") && Resolves(blocks, "B") && Resolves(blocks, "C")
    requires TopOf(blocks, "T") && !TopOf(blocks, "A") && !TopOf(blocks, "B") && !TopOf(blocks, "C")
    requires !blocks["C"].isTopNodeOrWrapper
    ensures var r := AddEdge(blocks, [Edge("T", "A"), Edge("A", "B"), Edge("B", "C")], "C", "A");
      && r == [Edge("A", "B"), Edge("B", "C"), Edge("C", "A")]
      && LinesRanked(blocks, r, map[])
  {
    var edges := [Edge("T", "A"), Edge("A", "B"), Edge("B", "C")];
    var r := [Edge("A", "B"), Edge("B", "C"), Edge("C", "A")];
    assert !HasPair(edges, "C", "A") by {
      assert forall k :: 0 <= k < |edges| ==> !SamePair(edges[k], "C", "A");
    }
    KeepCycleEdges(edges);
    AddEdgeCases(blocks, edges, "C", "A");
    CycleEnds(r);
    UnrootedLinesRanked(blocks, r);
  }

  /** The dispose pass of C -> A over T -> A, A -> B, B -> C drops only T -> A. */
  lemma KeepCycleEdges(edges: seq<Edge>)
    requires edges == [Edge("T", "A"), Edge("A", "B"), Edge("B", "C")]
    ensures KeepEdges(edges, "C", "A", false) == [Edge("A", "B"), Edge("B", "C")]
  {
    var e1, e2 := [Edge("T", "A")], [Edge("T", "A"), Edge("A", "B")];
    assert e1[..0] == [] && e2[..1] == e1 && edges[..2] == e2;
    assert KeepEdges(e1, "C", "A", false) == [];
    assert KeepEdges(e2, "C", "A", false) == [Edge("A", "B")];
  }

  /** The ends of A -> B, B -> C, C -> A are the blocks A, B, C. */
  lemma CycleEnds(r: seq<Edge>)
    requires r == [Edge("A", "B"), Edge("B", "C"), Edge("C", "A")]
    ensures forall m :: 0 <= m < |Ends(r)| ==> Ends(r)[m] in {"A", "B", "C"}
  {
    var r1, r2 := [Edge("A", "B")], [Edge("A", "B"), Edge("B", "C")];
    assert r1[..0] == [] && r2[..1] == r1 && r[..2] == r2;
    assert Ends(r1) == ["A", "B"];
    assert Ends(r2) == ["A", "B", "B", "C"];
    assert Ends(r) == ["A", "B", "B", "C", "C", "A"];
  }

  /** A line that closes a cycle through the root: from T -> A -> X, with T of
      kind TOP, the line X -> T leaves T -> A -> X -> T, which no ranks admit. */
  lemma CycleThroughRootUnranked(blocks: map<Id, Block>, edgeRank: map<Id, nat>)
    requires TopOf(blocks, "T")
    ensures !LinesRanked(blocks, [Edge("T", "A"), Edge("A", "X"), Edge("X", "T")], edgeRank)
  {
    var r := [Edge("T", "A"), Edge("A", "X"), Edge("X", "T")];
    var r1, r2 := [Edge("T", "A")], [Edge("T", "A"), Edge("A", "X")];
    assert r1[..0] == [] && r2[..1] == r1 && r[..2] == r2;
    assert Ends(r1) == ["T", "A"];
    assert Ends(r) == ["T", "A", "A", "X", "X", "T"] by {
      assert Ends(r2) == ["T", "A", "A", "X"];
    }
    assert FirstTopAt(blocks, Ends(r), 0);
    assert Targets(r, "T") != [] by {
      assert Targets(r1, "T") == ["A"];
      assert Targets(r2, "T") == Targets(r1, "T") + [];
    }
    EdgesRankedMeaning(r, edgeRank);
  }

  /** The same cycle through the root, made before anything is labelled: the line
      X -> T disposes nothing and is added, both updates stop at `shouldUpdate`,
      so the request is modelled, with the labels left alone, for any ranks. */
  lemma QuietCycleThroughRoot(blocks: map<Id, Block>, depth: map<Id, nat>, topBlocks: seq<Id>, edgeRank: map<Id, nat>)
    requires WellLinked(blocks, depth) && forall k :: 0 <= k < |topBlocks| ==> topBlocks[k] in blocks
    requires Resolves(blocks, "T") && Resolves(blocks, "A") && Resolves(blocks, "X")
    requires !blocks["X"].isTopNodeOrWrapper
    ensures var edges := [Edge("T", "A"), Edge("A", "X")];
      && AddEdge(blocks, edges, "X", "T") == edges + [Edge("X", "T")]
      && CreateReady(blocks, depth, topBlocks, map[], edges, edgeRank, "X", "T")
      && CreateOrders(blocks, depth, topBlocks, map[], edges, edgeRank, "X", "T") == map[]
  {
    QuietCycleEdges(blocks);
    UnlabelledCreateReady(blocks, depth, topBlocks, [Edge("T", "A"), Edge("A", "X")], edgeRank, "X", "T");
  }

  /** The line X -> T over T -> A, A -> X disposes nothing and is added. */
  lemma QuietCycleEdges(blocks: map<Id, Block>)
    requires Resolves(blocks, "T") && Resolves(blocks, "X") && !blocks["X"].isTopNodeOrWrapper
    ensures var edges := [Edge("T", "A"), Edge("A", "X")];
      AddEdge(blocks, edges, "X", "T") == edges + [Edge("X", "T")]
  {
    var edges := [Edge("T", "A"), Edge("A", "X")];
    var e1 := [Edge("T", "A")];
    assert e1[..0] == [] && edges[..1] == e1;
    assert KeepEdges(e1, "X", "T", false) == e1;
    assert KeepEdges(edges, "X", "T", false) == edges;
    assert !HasPair(edges, "X", "T") by {
      assert forall k :: 0 <= k < |edges| ==> !SamePair(edges[k], "X", "T");
    }
    AddEdgeCases(blocks, edges, "X", "T");
  }

  /** Before any block is labelled, every request is modelled, whatever the lines:
      both updates stop at `shouldUpdate`, and the labels stay as they were. */
  lemma UnlabelledCreateReady(blocks: map<Id, Block>, depth: map<Id, nat>, topBlocks: seq<Id>,
                              edges: seq<Edge>, edgeRank: map<Id, nat>, from: Id, to: Id)
    requires WellLinked(blocks, depth) && forall k :: 0 <= k < |topBlocks| ==> topBlocks[k] in blocks
    requires from in blocks && to in blocks
    ensures CreateReady(blocks, depth, topBlocks, map[], edges, edgeRank, from, to)
    ensures CreateOrders(blocks, depth, topBlocks, map[], edges, edgeRank, from, to) == map[]
  {
    UnlabelledNoUpdate(blocks, from, WrappedFirstAtStart(blocks, from));
    UnlabelledNoUpdate(blocks, to, WrappedFirstAtStart(blocks, to));
  }

  // ---------------------------------------------------------------------------
  // The order refresh after a new line

  /** What the source demands for `[fromBlock, toBlock].some(block => manager.update())`:
      the update on `from` can run, and when it returns false the one on `to` can. */
  ghost predicate UpdatesReady(blocks: map<Id, Block>, depth: map<Id, nat>, topBlocks: seq<Id>, orders: map<Id, Option<int>>,
                               edges: seq<Edge>, edgeRank: map<Id, nat>, from: Id, to: Id)
  {
    && from in blocks && to in blocks
    && CanUpdate(blocks, depth, topBlocks, orders, edges, edgeRank, from, WrappedFirstAtStart(blocks, from))
    && (!UpdateResult(blocks, depth, topBlocks, orders, edges, edgeRank, from, WrappedFirstAtStart(blocks, from)).0 ==>
          CanUpdate(blocks, depth, topBlocks, orders, edges, edgeRank, to, WrappedFirstAtStart(blocks, to)))
  }

  /** The labels after the refresh: the update on `from`, or, when that one did
      not render, the update on `to`. */
  ghost function UpdateEither(blocks: map<Id, Block>, depth: map<Id, nat>, topBlocks: seq<Id>, orders: map<Id, Option<int>>,
                              edges: seq<Edge>, edgeRank: map<Id, nat>, from: Id, to: Id): (r: map<Id, Option<int>>)
    requires UpdatesReady(blocks, depth, topBlocks, orders, edges, edgeRank, from, to)
  {
    var first := UpdateResult(blocks, depth, topBlocks, orders, edges, edgeRank, from, WrappedFirstAtStart(blocks, from));
    if first.0 then first.1
    else UpdateResult(blocks, depth, topBlocks, orders, edges, edgeRank, to, WrappedFirstAtStart(blocks, to)).1
  }

  /** `UpdateEither` by the outcome of the first update: a rendering first update
      decides the labels, and otherwise the second update can run on the
      unchanged labels. */
  lemma UpdateEitherCases(blocks: map<Id, Block>, depth: map<Id, nat>, topBlocks: seq<Id>, orders: map<Id, Option<int>>,
                          edges: seq<Edge>, edgeRank: map<Id, nat>, from: Id, to: Id)
    requires UpdatesReady(blocks, depth, topBlocks, orders, edges, edgeRank, from, to)
    ensures var first := UpdateResult(blocks, depth, topBlocks, orders, edges, edgeRank, from, WrappedFirstAtStart(blocks, from));
      && (first.0 ==> UpdateEither(blocks, depth, topBlocks, orders, edges, edgeRank, from, to) == first.1)
      && (!first.0 ==> first.1 == orders && CanUpdate(blocks, depth, topBlocks, orders, edges, edgeRank, to, WrappedFirstAtStart(blocks, to)))
      && (!first.0 ==> UpdateEither(blocks, depth, topBlocks, orders, edges, edgeRank, from, to) ==
                       UpdateResult(blocks, depth, topBlocks, orders, edges, edgeRank, to, WrappedFirstAtStart(blocks, to)).1)
  {
  }

  /** What `createArrowLine(from, to)` needs: the refresh can run when a line is created. */
  ghost predicate CreateReady(blocks: map<Id, Block>, depth: map<Id, nat>, topBlocks: seq<Id>, orders: map<Id, Option<int>>,
                              edges: seq<Edge>, edgeRank: map<Id, nat>, from: Id, to: Id)
  {
    Creates(blocks, edges, from, to) ==>
      UpdatesReady(blocks, depth, topBlocks, orders, AddEdge(blocks, edges, from, to), edgeRank, from, to)
  }

  /** The labels after `createArrowLine(from, to)`: refreshed when a line was
      created, unchanged otherwise. */
  ghost function CreateOrders(blocks: map<Id, Block>, depth: map<Id, nat>, topBlocks: seq<Id>, orders: map<Id, Option<int>>,
                              edges: seq<Edge>, edgeRank: map<Id, nat>, from: Id, to: Id): (r: map<Id, Option<int>>)
    requires CreateReady(blocks, depth, topBlocks, orders, edges, edgeRank, from, to)
    ensures !Creates(blocks, edges, from, to) ==> r == orders
  {
    if Creates(blocks, edges, from, to) then
      UpdateEither(blocks, depth, topBlocks, orders, AddEdge(blocks, edges, from, to), edgeRank, from, to)
    else orders
  }

  /** What `createArrowLine` does, case by case, on the surviving lines: when a line
      already joined the two blocks, the survivors are the result and the labels
      stay; otherwise the new edge follows the survivors, the refresh runs on them
      and the labels are the refreshed ones. */
  lemma CreateReadyUse(blocks: map<Id, Block>, depth: map<Id, nat>, topBlocks: seq<Id>, orders: map<Id, Option<int>>,
                       edges: seq<Edge>, edgeRank: map<Id, nat>, from: Id, to: Id)
    requires from != to && Resolves(blocks, from) && Resolves(blocks, to)
    requires CreateReady(blocks, depth, topBlocks, orders, edges, edgeRank, from, to)
    ensures var kept := KeepEdges(edges, from, to, blocks[from].isTopNodeOrWrapper);
      && (HasPair(edges, from, to) ==>
            AddEdge(blocks, edges, from, to) == kept
            && CreateOrders(blocks, depth, topBlocks, orders, edges, edgeRank, from, to) == orders)
      && (!HasPair(edges, from, to) ==>
            AddEdge(blocks, edges, from, to) == kept + [Edge(from, to)]
            && UpdatesReady(blocks, depth, topBlocks, orders, kept + [Edge(from, to)], edgeRank, from, to)
            && CreateOrders(blocks, depth, topBlocks, orders, edges, edgeRank, from, to) ==
               UpdateEither(blocks, depth, topBlocks, orders, kept + [Edge(from, to)], edgeRank, from, to))
  {
    AddEdgeCases(blocks, edges, from, to);
  }

  // ---------------------------------------------------------------------------
  // The icon

  /** `BtBaseNodeIcon` on a block: its size, whether it reacts to the pointer, its
      messages (`textMap`, as (id, text) entries in insertion order), and the
      shared armed state. */
  class BtBaseNodeIcon {
    const sourceBlock: Id
    const workspace: Workspace
    const gesture: GestureState
    var width: int
    var height: int
    var active: bool
    var textMap: seq<(string, string)>

    constructor (sourceBlock: Id, workspace: Workspace, gesture: GestureState)
      ensures this.sourceBlock == sourceBlock && this.workspace == workspace && this.gesture == gesture
      ensures width == 20 && height == 60 && active && textMap == []
    {
      this.sourceBlock := sourceBlock;
      this.workspace := workspace;
      this.gesture := gesture;
      width := 20;
      height := 60;
      active := true;
      textMap := [];
    }

    /** `setSize`: a given number replaces the width or the height; an omitted one
        leaves it as it is. */
    method SetSize(width: Option<int>, height: Option<int>)
      modifies this`width, this`height
      ensures this.width == if width.Some? then width.value else old(this.width)
      ensures this.height == if height.Some? then height.value else old(this.height)
    {
      if width.Some? && this.width != width.value {
        this.width := width.value;
      }
      if height.Some? && this.height != height.value {
        this.height := height.value;
      }
    }

    /** `setActive`. */
    method SetActive(active: bool) returns (r: BtBaseNodeIcon)
      modifies this`active
      ensures r == this && this.active == active
    {
      this.active := active;
      r := this;
    }

    /** `addMessage`: nothing changes when the id already holds this text; a
        non-empty text is stored under the id, an empty one removes the id. */
    method AddMessage(text: string, id: string) returns (r: BtBaseNodeIcon)
      requires Messages.UniqueKeys(textMap)
      modifies this`textMap
      ensures r == this && Messages.UniqueKeys(textMap)
      ensures Messages.Get(old(textMap), id) == Some(text) ==> textMap == old(textMap)
      ensures Messages.Get(old(textMap), id) != Some(text) ==>
        textMap == if text != "" then Messages.Set(old(textMap), id, text) else Messages.Delete(old(textMap), id)
    {
      r := this;
      if Messages.Get(textMap, id) == Some(text) {
        return;
      }
      if text != "" {
        textMap := Messages.Set(textMap, id, text);
      } else {
        textMap := Messages.Delete(textMap, id);
      }
    }

    /** `getText`: the messages joined by newlines, in insertion order. */
    function GetText(): (s: string)
      reads this`textMap
      ensures textMap != [] && (forall k :: 0 <= k < |textMap| ==> '\n' !in textMap[k].1) ==>
        Messages.Split(s) == Messages.Values(textMap)
    {
      var s := Messages.Join(Messages.Values(textMap));
      if textMap != [] && (forall k :: 0 <= k < |textMap| ==> '\n' !in textMap[k].1) then
        Messages.SplitJoin(Messages.Values(textMap));
        s
      else s
    }

    /** `recordDownPoint`: arms the block's connector, replacing any armed one. */
    static method RecordDownPoint(gesture: GestureState, blockId: Id, isLeft: bool)
      modifies gesture
      ensures gesture.fromBlock == Some(DownPoint(blockId, isLeft))
    {
      gesture.fromBlock := Some(DownPoint(blockId, isLeft));
    }

    /** `clearDownPoint`: disarms. */
    static method ClearDownPoint(gesture: GestureState)
      modifies gesture
      ensures gesture.fromBlock == None
    {
      gesture.fromBlock := None;
    }

    /** The base `onMouseUp`; `forwarded` says that the pointer is over a connector
        icon and the release was dispatched to it. */
    method OnMouseUp(forwarded: bool) returns (handled: bool)
      ensures handled == BaseReleaseHandled(active, gesture.fromBlock, sourceBlock, forwarded)
    {
      if !active {
        return true;
      }
      if gesture.fromBlock.None? {
        return true;
      }
      if forwarded {
        return true;
      }
      if gesture.fromBlock.value.blockId == sourceBlock {
        return true;
      }
      return false;
    }

    /** `createArrowLine(from, to)` over a snapshot of the workspace's lines; `uid`
        is the id generated for a new line, `edgeRank` ranks the resulting lines. */
    method CreateArrowLine(fromBlockId: Id, toBlockId: Id, uid: string, ghost edgeRank: map<Id, nat>)
      requires workspace.Valid()
      requires CreateReady(workspace.blocks, workspace.depth, workspace.topBlocks, workspace.orders,
                           workspace.Edges(), edgeRank, fromBlockId, toBlockId)
      modifies workspace`arrowlines, workspace`orders, set l | l in workspace.arrowlines
      ensures workspace.LinesValid()
      ensures workspace.Edges() == AddEdge(workspace.blocks, old(workspace.Edges()), fromBlockId, toBlockId)
      ensures workspace.orders == CreateOrders(workspace.blocks, workspace.depth, workspace.topBlocks, old(workspace.orders),
                                               old(workspace.Edges()), edgeRank, fromBlockId, toBlockId)
    {
      if fromBlockId == toBlockId {
        return;
      }
      if !(fromBlockId in workspace.blocks && !workspace.blocks[fromBlockId].disposed) ||
         !(toBlockId in workspace.blocks && !workspace.blocks[toBlockId].disposed) {
        return;
      }
      LinkBlocks(fromBlockId, toBlockId, uid, edgeRank);
    }

    /** `createArrowLine` past its guards: the lines the new one replaces are
        disposed, and the new line is added unless one already joins the blocks. */
    method LinkBlocks(fromBlockId: Id, toBlockId: Id, uid: string, ghost edgeRank: map<Id, nat>)
      requires workspace.LinesValid()
      requires fromBlockId != toBlockId && Resolves(workspace.blocks, fromBlockId) && Resolves(workspace.blocks, toBlockId)
      requires CreateReady(workspace.blocks, workspace.depth, workspace.topBlocks, workspace.orders,
                           workspace.Edges(), edgeRank, fromBlockId, toBlockId)
      modifies workspace`arrowlines, workspace`orders, set l | l in workspace.arrowlines
      ensures workspace.LinesValid()
      ensures workspace.Edges() == AddEdge(workspace.blocks, old(workspace.Edges()), fromBlockId, toBlockId)
      ensures workspace.orders == CreateOrders(workspace.blocks, workspace.depth, workspace.topBlocks, old(workspace.orders),
                                               old(workspace.Edges()), edgeRank, fromBlockId, toBlockId)
    {
      ghost var edges0 := workspace.Edges();
      ghost var orders0 := workspace.orders;
      var isFromTop := workspace.blocks[fromBlockId].isTopNodeOrWrapper;
      CreateReadyUse(workspace.blocks, workspace.depth, workspace.topBlocks, orders0, edges0, edgeRank, fromBlockId, toBlockId);
      var isExist := DisposeConflicts(fromBlockId, toBlockId, isFromTop);
      if isExist {
        return;
      }
      CompleteLine(fromBlockId, toBlockId, uid, edges0, orders0, edgeRank);
    }

    /** The line is added after the dispose pass, which found no line joining the
        two blocks: the result is what `createArrowLine` gives on the lines before. */
    method CompleteLine(fromBlockId: Id, toBlockId: Id, uid: string, ghost edges0: seq<Edge>,
                        ghost orders0: map<Id, Option<int>>, ghost edgeRank: map<Id, nat>)
      requires workspace.LinesValid()
      requires fromBlockId != toBlockId && Resolves(workspace.blocks, fromBlockId) && Resolves(workspace.blocks, toBlockId)
      requires !HasPair(edges0, fromBlockId, toBlockId)
      requires workspace.Edges() == KeepEdges(edges0, fromBlockId, toBlockId, workspace.blocks[fromBlockId].isTopNodeOrWrapper)
      requires workspace.orders == orders0
      requires CreateReady(workspace.blocks, workspace.depth, workspace.topBlocks, orders0, edges0, edgeRank, fromBlockId, toBlockId)
      modifies workspace`arrowlines, workspace`orders
      ensures workspace.LinesValid()
      ensures workspace.Edges() == AddEdge(workspace.blocks, edges0, fromBlockId, toBlockId)
      ensures workspace.orders == CreateOrders(workspace.blocks, workspace.depth, workspace.topBlocks, orders0,
                                               edges0, edgeRank, fromBlockId, toBlockId)
    {
      CreateReadyUse(workspace.blocks, workspace.depth, workspace.topBlocks, orders0, edges0, edgeRank, fromBlockId, toBlockId);
      AppendLine(fromBlockId, toBlockId, uid, edgeRank);
    }

    /** The tail of `createArrowLine` once no line joins the two blocks: a new line
        is added to the collection and the orders are refreshed. */
    method AppendLine(fromBlockId: Id, toBlockId: Id, uid: string, ghost edgeRank: map<Id, nat>)
      requires workspace.LinesValid()
      requires UpdatesReady(workspace.blocks, workspace.depth, workspace.topBlocks, workspace.orders,
                            workspace.Edges() + [Edge(fromBlockId, toBlockId)], edgeRank, fromBlockId, toBlockId)
      modifies workspace`arrowlines, workspace`orders
      ensures workspace.LinesValid()
      ensures workspace.Edges() == old(workspace.Edges()) + [Edge(fromBlockId, toBlockId)]
      ensures workspace.orders == UpdateEither(workspace.blocks, workspace.depth, workspace.topBlocks, old(workspace.orders),
                                               workspace.Edges(), edgeRank, fromBlockId, toBlockId)
    {
      PushLine(fromBlockId, toBlockId, uid);
      assert unchanged(workspace`blocks, workspace`depth, workspace`topBlocks, workspace`orders);
      RefreshOrders(fromBlockId, toBlockId, edgeRank);
    }

    /** `new WorkspaceArrowline(workspace, from, to)`: the new line joins the end of
        the collection. */
    method PushLine(fromBlockId: Id, toBlockId: Id, uid: string)
      requires workspace.LinesValid()
      modifies workspace`arrowlines
      ensures workspace.LinesValid()
      ensures workspace.Edges() == old(workspace.Edges()) + [Edge(fromBlockId, toBlockId)]
    {
      var line := new WorkspaceArrowline(workspace, fromBlockId, toBlockId, None, uid);
      EdgesOfAppend(old(workspace.arrowlines), [line]);
      assert EdgesOf([line]) == [Edge(fromBlockId, toBlockId)];
    }

    /** `[fromBlock, toBlock].some(block => manager.update())` after a new line:
        the update on `from`, then, when that one did not render, the update on `to`. */
    method RefreshOrders(fromBlockId: Id, toBlockId: Id, ghost edgeRank: map<Id, nat>)
      requires UpdatesReady(workspace.blocks, workspace.depth, workspace.topBlocks, workspace.orders,
                            workspace.Edges(), edgeRank, fromBlockId, toBlockId)
      modifies workspace`orders
      ensures workspace.orders == UpdateEither(workspace.blocks, workspace.depth, workspace.topBlocks, old(workspace.orders),
                                               workspace.Edges(), edgeRank, fromBlockId, toBlockId)
    {
      ghost var blocks, depth, topBlocks, edges := workspace.blocks, workspace.depth, workspace.topBlocks, workspace.Edges();
      ghost var orders0 := workspace.orders;
      ghost var first := UpdateResult(blocks, depth, topBlocks, orders0, edges, edgeRank,
                                      fromBlockId, WrappedFirstAtStart(blocks, fromBlockId));
      UpdateEitherCases(blocks, depth, topBlocks, orders0, edges, edgeRank, fromBlockId, toBlockId);
      var fromManager := new BehaviorOrderManager(fromBlockId, workspace);
      var updated := fromManager.Update(edgeRank);
      assert (updated, workspace.orders) == first;
      if !updated {
        var toManager := new BehaviorOrderManager(toBlockId, workspace);
        updated := toManager.Update(edgeRank);
      }
    }

    /** One step of the conflict scan: disposes `line`, found between `kept` and
        `rest` in the collection, when it starts at the source of a top block or
        ends at the target. */
    method DisposeOne(ghost kept: seq<WorkspaceArrowline>, line: WorkspaceArrowline, ghost rest: seq<WorkspaceArrowline>,
                      fromBlockId: Id, toBlockId: Id, isFromTop: bool)
      requires workspace.LinesValid()
      requires workspace.arrowlines == kept + ([line] + rest)
      modifies workspace`arrowlines, line
      ensures workspace.LinesValid()
      ensures workspace.arrowlines ==
        kept + (if Disposes(fromBlockId, toBlockId, isFromTop, line.fromBlockId, line.toBlockId) then [] else [line]) + rest
    {
      assert workspace.arrowlines == kept + [line] + rest;
      assert line.workspace == workspace && !line.disposed by {
        assert workspace.arrowlines[|kept|] == line;
      }
      if Disposes(fromBlockId, toBlockId, isFromTop, line.fromBlockId, line.toBlockId) {
        DistinctSplit(kept, line, rest);
        WithoutOnce(kept, line, rest);
      }
      if isFromTop && line.IsConnectingFrom(fromBlockId) {
        line.Dispose();
      }
      if line.IsConnectingTo(toBlockId) {
        line.Dispose();
      }
    }

    /** The `getBottomArrowlines().forEach` pass of `createArrowLine`: disposes every
        line the rules name and reports whether a line joins the two blocks. */
    method DisposeConflicts(fromBlockId: Id, toBlockId: Id, isFromTop: bool) returns (isExist: bool)
      requires workspace.LinesValid()
      modifies workspace`arrowlines, set l | l in workspace.arrowlines
      ensures workspace.LinesValid()
      ensures workspace.arrowlines == KeepLines(old(workspace.arrowlines), fromBlockId, toBlockId, isFromTop)
      ensures isExist <==> HasPair(EdgesOf(old(workspace.arrowlines)), fromBlockId, toBlockId)
      ensures workspace.Edges() == KeepEdges(EdgesOf(old(workspace.arrowlines)), fromBlockId, toBlockId, isFromTop)
    {
      var lines := workspace.arrowlines;
      isExist := false;
      for i := 0 to |lines|
        invariant workspace.LinesValid()
        invariant workspace.arrowlines == KeepLines(lines[..i], fromBlockId, toBlockId, isFromTop) + lines[i..]
        invariant isExist == AnySame(lines[..i], fromBlockId, toBlockId)
      {
        var line := lines[i];
        ghost var kept := KeepLines(lines[..i], fromBlockId, toBlockId, isFromTop);
        KeepLinesStep(lines, i, fromBlockId, toBlockId, isFromTop);
        DropFirst(lines, i);
        DisposeOne(kept, line, lines[i + 1..], fromBlockId, toBlockId, isFromTop);
        if line.IsSame(fromBlockId, toBlockId) {
          isExist := true;
        }
      }
      assert lines[..|lines|] == lines;
      HasPairLines(lines, fromBlockId, toBlockId);
      KeepLinesEdges(lines, fromBlockId, toBlockId, isFromTop);
    }
  }
}

=== FILE: bt_left_node_icon.dfy ===
/** The left (input) connector of a behaviour-tree node
    (core/icons/bt_left_node_icon.ts): pressing it arms the block as the child end
    of a line, and releasing a drag from a right connector on it draws the line
    into its block. */
module BtLeftNodeIcons {
  import opened Wrappers
  import opened Blocks
  import opened WorkspaceArrowlines
  import opened BtBaseNodeIcons

  /** `BtLeftNodeIcon`: the left connector of `base.sourceBlock`, sharing the
      base icon's state. */
  class BtLeftNodeIcon {
    const base: BtBaseNodeIcon

    constructor (base: BtBaseNodeIcon)
      ensures this.base == base
    {
      this.base := base;
    }

    /** `onMouseDown`: arms the block's left connector. */
    method OnMouseDown()
      modifies base.gesture
      ensures base.gesture.fromBlock == Some(DownPoint(base.sourceBlock, true))
    {
      BtBaseNodeIcon.RecordDownPoint(base.gesture, base.sourceBlock, true);
    }

    /** `onMouseUp`: after the base checks, a drag armed on a right connector is
        committed as the line from the armed block to this block, and the armed
        state is cleared; a drag armed on a left connector is not handled. */
    method OnMouseUp(forwarded: bool, uid: string, ghost edgeRank: map<Id, nat>) returns (handled: bool)
      requires base.workspace.Valid()
      requires var o := Release(base.active, base.gesture.fromBlock, base.sourceBlock, true, forwarded);
        o.request.Some? ==>
          CreateReady(base.workspace.blocks, base.workspace.depth, base.workspace.topBlocks, base.workspace.orders,
                      base.workspace.Edges(), edgeRank, o.request.value.from, o.request.value.to)
      modifies base.gesture, base.workspace`arrowlines, base.workspace`orders, set l | l in base.workspace.arrowlines
      ensures base.workspace.Valid()
      ensures var o := Release(base.active, old(base.gesture.fromBlock), base.sourceBlock, true, forwarded);
        && handled == o.handled
        && base.gesture.fromBlock == o.armed
        && (o.request.None? ==>
              base.workspace.arrowlines == old(base.workspace.arrowlines) && base.workspace.orders == old(base.workspace.orders))
        && (o.request.Some? ==>
              && base.workspace.Edges() ==
                 AddEdge(base.workspace.blocks, old(base.workspace.Edges()), o.request.value.from, o.request.value.to)
              && base.workspace.orders ==
                 CreateOrders(base.workspace.blocks, base.workspace.depth, base.workspace.topBlocks, old(base.workspace.orders),
                              old(base.workspace.Edges()), edgeRank, o.request.value.from, o.request.value.to))
    {
      handled := base.OnMouseUp(forwarded);
      if handled {
        return;
      }
      var armed := base.gesture.fromBlock;
      // the base check has already returned when nothing is armed
      if armed.None? || armed.value.isLeft {
        return false;
      }
      base.CreateArrowLine(armed.value.blockId, base.sourceBlock, uid, edgeRank);
      BtBaseNodeIcon.ClearDownPoint(base.gesture);
      return true;
    }
  }
}

=== FILE: bt_node_type.dfy ===
/** The behaviour-tree node kind tag of a block and its membership predicates
    (core/bt_node_type.ts). */
module BtNodeTypes {
  import opened Wrappers

  /** The enum BtNodeType; a block without a kind has `None`. */
  datatype BtNodeType = Top | Left | Both

  /** The enum's values in declaration order ('top', 'left', 'both'). */
  const NodeTypes: seq<BtNodeType> := [Top, Left, Both]

  /** The string value each enum member stands for. */
  function Name(t: BtNodeType): (s: string)
  {
    match t
    case Top => "top"
    case Left => "left"
    case Both => "both"
  }

  /** `isNode`: a kind is a node kind when it is present and one of the enum's values. */
  predicate IsNode(t: Option<BtNodeType>)
  {
    t.Some? && t.value in NodeTypes
  }

  /** `isTop`: the kind is TOP. */
  predicate IsTop(t: Option<BtNodeType>)
  {
    t == Some(Top)
  }

  /** `isLeft`: the kind is LEFT. */
  predicate IsLeft(t: Option<BtNodeType>)
  {
    t == Some(Left)
  }

  /** The enum's string values are pairwise distinct, so comparing kinds is comparing their names. */
  lemma NamesDistinct(a: BtNodeType, b: BtNodeType)
    ensures Name(a) == Name(b) <==> a == b
  {
  }

  /** Every present kind is a node kind; a missing kind is not. */
  lemma IsNodeExactly(t: Option<BtNodeType>)
    ensures IsNode(t) <==> t == Some(Top) || t == Some(Left) || t == Some(Both)
  {
  }

  /** The predicates compare string values, as the enum does: `isTop` and
      `isLeft` hold iff the kind's name is 'top' or 'left', and `isNode` iff
      there is a kind and its name is one of the enum's values. */
  lemma KindPredicatesByName(t: Option<BtNodeType>)
    ensures IsTop(t) <==> t.Some? && Name(t.value) == "top"
    ensures IsLeft(t) <==> t.Some? && Name(t.value) == "left"
    ensures IsNode(t) <==> t.Some? && Name(t.value) in ["top", "left", "both"]
  {
  }

  /** TOP and LEFT exclude each other, each is a node kind, and BOTH is a node kind that is neither. */
  lemma KindPredicatesRelate(t: Option<BtNodeType>)
    ensures !(IsTop(t) && IsLeft(t))
    ensures IsTop(t) ==> IsNode(t)
    ensures IsLeft(t) ==> IsNode(t)
    ensures t == Some(Both) ==> IsNode(t) && !IsTop(t) && !IsLeft(t)
  {
  }
}

=== FILE: bt_order_icon.dfy ===
/** The order icon a block shows its behaviour-tree order label in
    (core/icons/bt_order_icon.ts): the label, and the text the icon displays. */
module BtOrderIcons {
  import opened Wrappers

  /** The icon's side length in workspace units (`SIZE`). */
  const Size: int := 20

  /** The character of a decimal digit. */
  function DigitChar(d: nat): (c: char)
    requires d < 10
    ensures '0' <= c <= '9' && (c as int) - ('0' as int) == d
  {
    "0123456789"[d]
  }

  predicate IsDigits(s: string)
  {
    forall k :: 0 <= k < |s| ==> '0' <= s[k] <= '9'
  }

  /** The decimal digits of a natural number, most significant first, without
      leading zeros. */
  function NatToDecimal(n: nat): (s: string)
    ensures |s| >= 1 && IsDigits(s)
    ensures s[0] == '0' ==> n == 0
    decreases n
  {
    if n < 10 then [DigitChar(n)] else NatToDecimal(n / 10) + [DigitChar(n % 10)]
  }

  /** The number a string of decimal digits denotes. */
  function DecimalValue(s: string): (v: nat)
    requires IsDigits(s)
  {
    if s == [] then 0 else DecimalValue(s[..|s| - 1]) * 10 + ((s[|s| - 1] as int) - ('0' as int))
  }

  lemma {:induction false} DecimalRoundTrip(n: nat)
    ensures DecimalValue(NatToDecimal(n)) == n
    decreases n
  {
    if n >= 10 {
      DecimalRoundTrip(n / 10);
      var s := NatToDecimal(n);
      assert s[..|s| - 1] == NatToDecimal(n / 10);
    }
  }

  /** `String(order)` for an integer: a minus sign for negative numbers, then
      the decimal digits of the magnitude. */
  function NumberToString(n: int): (s: string)
    ensures |s| >= 1
    ensures s[0] == '-' <==> n < 0
    ensures n >= 0 ==> IsDigits(s) && DecimalValue(s) == n
    ensures n < 0 ==> IsDigits(s[1..]) && DecimalValue(s[1..]) == -n
  {
    if n < 0 then
      DecimalRoundTrip(-n);
      var s := "-" + NatToDecimal(-n);
      assert s[1..] == NatToDecimal(-n);
      s
    else
      DecimalRoundTrip(n);
      NatToDecimal(n)
  }

  /** `getOrderText`: `'...'` for a null order, the decimal string otherwise. */
  function OrderText(order: Option<int>): (s: string)
    ensures s != []
    ensures s == "..." <==> order.None?
  {
    match order
    case None => "..."
    case Some(n) => NumberToString(n)
  }

  /** Reads a displayed label back: `'...'` is null, an optional minus sign
      followed by digits is that number, anything else is not a label. */
  function ParseOrderText(s: string): Option<Option<int>>
  {
    if s == "..." then Some(None)
    else if |s| >= 2 && s[0] == '-' && IsDigits(s[1..]) then Some(Some(-(DecimalValue(s[1..]) as int)))
    else if |s| >= 1 && IsDigits(s) then Some(Some(DecimalValue(s)))
    else None
  }

  /** The displayed text determines the order: reading it back gives the order. */
  lemma OrderTextRoundTrip(order: Option<int>)
    ensures ParseOrderText(OrderText(order)) == Some(order)
  {
    match order
    case None =>
    case Some(n) =>
      var s := NumberToString(n);
      assert s[0] != '.';
      if n < 0 {
        assert |s| >= 2;
      }
  }

  /** Two orders show the same text only when they are equal; in particular no
      number is shown as `'...'`. */
  lemma OrderTextInjective(a: Option<int>, b: Option<int>)
    ensures OrderText(a) == OrderText(b) <==> a == b
  {
    OrderTextRoundTrip(a);
    OrderTextRoundTrip(b);
  }

  /** `BtOrderIcon`: the order label of one block. `svgText` is the content of the
      icon's text element, absent until `initView` has created it. */
  class BtOrderIcon {
    var order: Option<int>
    var svgText: Option<string>

    /** A new icon has a null order and no view yet. */
    constructor ()
      ensures order == None && svgText == None
    {
      order := None;
      svgText := None;
    }

    /** `initView`: the first call creates the text element and shows the order;
        later calls change nothing. */
    method InitView()
      modifies this`svgText
      ensures old(svgText).Some? ==> svgText == old(svgText)
      ensures old(svgText).None? ==> svgText == Some(OrderText(order))
    {
      if svgText.Some? {
        return;
      }
      svgText := Some("");
      UpdateOrderText();
    }

    /** `setOrder`: stores the order, refreshes the shown text, and returns the icon. */
    method SetOrder(order: Option<int>) returns (r: BtOrderIcon)
      modifies this
      ensures r == this && this.order == order
      ensures old(svgText).None? ==> svgText == None
      ensures old(svgText).Some? ==> svgText == Some(OrderText(order))
    {
      this.order := order;
      UpdateOrderText();
      r := this;
    }

    /** `getOrder`: the last order set, null for a new icon. */
    function GetOrder(): (r: Option<int>)
      reads this`order
    {
      order
    }

    /** `getOrderText`. */
    function GetOrderText(): (s: string)
      reads this`order
      ensures ParseOrderText(s) == Some(GetOrder())
    {
      OrderTextRoundTrip(order);
      OrderText(order)
    }

    /** `updateOrderText`: shows the order's text once the view exists, and does
        nothing before. */
    method UpdateOrderText()
      modifies this`svgText
      ensures old(svgText).None? ==> svgText == None
      ensures old(svgText).Some? ==> svgText == Some(OrderText(order))
    {
      if svgText.None? {
        return;
      }
      svgText := Some(GetOrderText());
    }

    /** `getSize`: the icon is always a `Size` by `Size` square. */
    function GetSize(): (wh: (int, int))
      ensures wh.0 == wh.1 == 20
    {
      (Size, Size)
    }
  }
}

=== FILE: bt_right_node_icon.dfy ===
/** The right (output) connector of a behaviour-tree node
    (core/icons/bt_right_node_icon.ts): pressing it arms the block as the parent
    end of a line, and releasing a drag from a left connector on it draws the line
    out of its block. */
module BtRightNodeIcons {
  import opened Wrappers
  import opened Blocks
  import opened WorkspaceArrowlines
  import opened BtBaseNodeIcons

  /** `BtRightNodeIcon`: the right connector of `base.sourceBlock`, sharing the
      base icon's state. */
  class BtRightNodeIcon {
    const base: BtBaseNodeIcon

    constructor (base: BtBaseNodeIcon)
      ensures this.base == base
    {
      this.base := base;
    }

    /** `onMouseDown`: arms the block's right connector. */
    method OnMouseDown()
      modifies base.gesture
      ensures base.gesture.fromBlock == Some(DownPoint(base.sourceBlock, false))
    {
      BtBaseNodeIcon.RecordDownPoint(base.gesture, base.sourceBlock, false);
    }

    /** `onMouseUp`: after the base checks, a drag armed on a left connector is
        committed as the line from this block to the armed block, and the armed
        state is cleared; a drag armed on a right connector is not handled. */
    method OnMouseUp(forwarded: bool, uid: string, ghost edgeRank: map<Id, nat>) returns (handled: bool)
      requires base.workspace.Valid()
      requires var o := Release(base.active, base.gesture.fromBlock, base.sourceBlock, false, forwarded);
        o.request.Some? ==>
          CreateReady(base.workspace.blocks, base.workspace.depth, base.workspace.topBlocks, base.workspace.orders,
                      base.workspace.Edges(), edgeRank, o.request.value.from, o.request.value.to)
      modifies base.gesture, base.workspace`arrowlines, base.workspace`orders, set l | l in base.workspace.arrowlines
      ensures base.workspace.Valid()
      ensures var o := Release(base.active, old(base.gesture.fromBlock), base.sourceBlock, false, forwarded);
        && handled == o.handled
        && base.gesture.fromBlock == o.armed
        && (o.request.None? ==>
              base.workspace.arrowlines == old(base.workspace.arrowlines) && base.workspace.orders == old(base.workspace.orders))
        && (o.request.Some? ==>
              && base.workspace.Edges() ==
                 AddEdge(base.workspace.blocks, old(base.workspace.Edges()), o.request.value.from, o.request.value.to)
              && base.workspace.orders ==
                 CreateOrders(base.workspace.blocks, base.workspace.depth, base.workspace.topBlocks, old(base.workspace.orders),
                              old(base.workspace.Edges()), edgeRank, o.request.value.from, o.request.value.to))
    {
      handled := base.OnMouseUp(forwarded);
      if handled {
        return;
      }
      var armed := base.gesture.fromBlock;
      // the base check has already returned when nothing is armed
      if armed.None? || !armed.value.isLeft {
        return false;
      }
      base.CreateArrowLine(base.sourceBlock, armed.value.blockId, uid, edgeRank);
      BtBaseNodeIcon.ClearDownPoint(base.gesture);
      return true;
    }
  }
}

=== FILE: workspace_arrowline.dfy ===
/** Arrow lines: the directed edges between blocks, their registration in the
    workspace's arrowline collection, and their XML and JSON-state forms
    (core/workspace_arrowline.ts). The host workspace is modelled here too, as
    far as the ordering subsystem uses it. */
module WorkspaceArrowlines {
  import opened Wrappers
  import opened Blocks

  /** The error `parseAttributes` and `parseAttributesFromState` throw. */
  const NoIdError := "No ID present in XML arrowline definition."

  /** A directed edge as `getPair()` reports it. */
  datatype Edge = Edge(from: Id, to: Id)

  /** The host editor's workspace: its blocks, its top-level blocks in
      `getTopBlocks()` order, the order label of every block with an order icon,
      its collection of arrow lines (`getBottomArrowlines()`) and the ids that
      `getCommentById` finds. */
  class Workspace {
    var blocks: map<Id, Block>
    ghost var depth: map<Id, nat>
    var topBlocks: seq<Id>
    var orders: map<Id, Option<int>>
    var arrowlines: seq<WorkspaceArrowline>
    var commentIds: set<string>

    /** The block graph is well linked and every top-level block is a known block. */
    ghost predicate HostValid()
      reads this`blocks, this`depth, this`topBlocks
    {
      && WellLinked(blocks, depth)
      && forall k :: 0 <= k < |topBlocks| ==> topBlocks[k] in blocks
    }

    /** The collection holds each line once, every line belongs to this workspace,
        and no line in it has been disposed. */
    ghost predicate LinesValid()
      reads this`arrowlines, set l | l in arrowlines
    {
      && (forall i, j :: 0 <= i < j < |arrowlines| ==> arrowlines[i] != arrowlines[j])
      && (forall k :: 0 <= k < |arrowlines| ==> arrowlines[k].workspace == this && !arrowlines[k].disposed)
    }

    ghost predicate Valid()
      reads this, set l | l in arrowlines
    {
      HostValid() && LinesValid()
    }

    /** The edges of the collection, in collection order. */
    function Edges(): seq<Edge>
      reads this`arrowlines
    {
      EdgesOf(arrowlines)
    }

    constructor (blocks: map<Id, Block>, ghost depth: map<Id, nat>, topBlocks: seq<Id>,
                 orders: map<Id, Option<int>>, commentIds: set<string>)
      requires WellLinked(blocks, depth)
      requires forall k :: 0 <= k < |topBlocks| ==> topBlocks[k] in blocks
      ensures Valid() && arrowlines == []
      ensures this.blocks == blocks && this.depth == depth && this.topBlocks == topBlocks
      ensures this.orders == orders && this.commentIds == commentIds
    {
      this.blocks := blocks;
      this.depth := depth;
      this.topBlocks := topBlocks;
      this.orders := orders;
      this.commentIds := commentIds;
      this.arrowlines := [];
    }
  }

  /** The edges of a list of lines, in list order. */
  function EdgesOf(lines: seq<WorkspaceArrowline>): (es: seq<Edge>)
    ensures |es| == |lines|
    ensures forall k :: 0 <= k < |es| ==> es[k] == Edge(lines[k].fromBlockId, lines[k].toBlockId)
  {
    seq(|lines|, k requires 0 <= k < |lines| => Edge(lines[k].fromBlockId, lines[k].toBlockId))
  }

  /** The sequence without any occurrence of `x` (`removeBottomArrowline`). */
  function Without<T(==)>(s: seq<T>, x: T): (r: seq<T>)
    ensures |r| <= |s|
  {
    if s == [] then [] else (if s[0] == x then [] else [s[0]]) + Without(s[1..], x)
  }

  /** Removal drops `x` and only `x`: what is left came from `s`, and every other
      element of `s` is still there. */
  lemma {:induction false} WithoutFacts<T>(s: seq<T>, x: T)
    ensures x !in Without(s, x)
    ensures forall y :: y in Without(s, x) <==> y in s && y != x
  {
    if s != [] {
      WithoutFacts(s[1..], x);
      var t := Without(s[1..], x);
      var h := if s[0] == x then [] else [s[0]];
      assert Without(s, x) == h + t;
      assert forall y :: y in s <==> y == s[0] || y in s[1..];
    }
  }

  /** The id a new line takes: `opt_id` when it is given, non-empty and not found by
      `getCommentById`, otherwise the freshly generated `uid`. */
  function ChooseId(optId: Option<string>, taken: set<string>, uid: string): (id: string)
    ensures optId.Some? && optId.value != "" && optId.value !in taken ==> id == optId.value
    ensures !(optId.Some? && optId.value != "" && optId.value !in taken) ==> id == uid
  {
    if optId.Some? && optId.value != "" && optId.value !in taken then optId.value else uid
  }

  /** A line's id is never empty when the generated id is not. */
  lemma ChooseIdNonEmpty(optId: Option<string>, taken: set<string>, uid: string)
    requires uid != ""
    ensures ChooseId(optId, taken, uid) != ""
  {
  }

  /** The XML element `toXml` builds: tag name and the `id`, `from` and `to` attributes (absent = None). */
  datatype ArrowlineXml = ArrowlineXml(tag: string, id: Option<string>, from: Option<string>, to: Option<string>)

  /** The JSON state `saveState` builds. */
  datatype ArrowlineState = ArrowlineState(id: Option<string>, from: Id, to: Id)

  /** What the parsers return. */
  datatype ArrowlineInfo = ArrowlineInfo(id: string, from: Id, to: Id)

  /** `parseAttributes`: a missing or empty id throws; a missing `from` or `to` reads as ''. */
  function ParseAttributes(xml: ArrowlineXml): (r: Result<ArrowlineInfo>)
    ensures r.Err? <==> xml.id.None? || xml.id.value == ""
    ensures r.Err? ==> r.message == NoIdError
    ensures r.Ok? ==> r.value.id == xml.id.value
    ensures r.Ok? ==> r.value.from == (if xml.from.Some? then xml.from.value else "")
    ensures r.Ok? ==> r.value.to == (if xml.to.Some? then xml.to.value else "")
  {
    var from := if xml.from.Some? && xml.from.value != "" then xml.from.value else "";
    var to := if xml.to.Some? && xml.to.value != "" then xml.to.value else "";
    if xml.id.None? || xml.id.value == "" then Err(NoIdError)
    else Ok(ArrowlineInfo(xml.id.value, from, to))
  }

  /** `parseAttributesFromState`: a missing or empty id throws; otherwise the fields pass through. */
  function ParseAttributesFromState(state: ArrowlineState): (r: Result<ArrowlineInfo>)
    ensures r.Err? <==> state.id.None? || state.id.value == ""
    ensures r.Err? ==> r.message == NoIdError
    ensures r.Ok? ==> r.value == ArrowlineInfo(state.id.value, state.from, state.to)
  {
    if state.id.None? || state.id.value == "" then Err(NoIdError)
    else Ok(ArrowlineInfo(state.id.value, state.from, state.to))
  }

  /** One arrow line: a directed edge from one block to another, registered in its workspace. */
  class WorkspaceArrowline {
    const workspace: Workspace
    const id: string
    const fromBlockId: Id
    const toBlockId: Id
    var disposed: bool

    /** Takes `opt_id` when it is usable (else the generated `uid`) and appends the
        new line to the workspace's collection. */
    constructor (workspace: Workspace, fromBlockId: Id, toBlockId: Id, optId: Option<string>, uid: string)
      requires workspace.LinesValid()
      modifies workspace`arrowlines
      ensures this.workspace == workspace && this.fromBlockId == fromBlockId && this.toBlockId == toBlockId
      ensures id == ChooseId(optId, workspace.commentIds, uid)
      ensures !disposed
      ensures workspace.arrowlines == old(workspace.arrowlines) + [this]
      ensures workspace.LinesValid()
    {
      this.workspace := workspace;
      this.id := ChooseId(optId, workspace.commentIds, uid);
      this.fromBlockId := fromBlockId;
      this.toBlockId := toBlockId;
      this.disposed := false;
      new;
      workspace.arrowlines := workspace.arrowlines + [this];
    }

    /** `isConnectingTo`: the line ends at the block. */
    predicate IsConnectingTo(blockId: Id)
    {
      blockId == toBlockId
    }

    /** `isConnectingFrom`: the line starts at the block. */
    predicate IsConnectingFrom(blockId: Id)
    {
      blockId == fromBlockId
    }

    /** `isConnecting`: the block is either end of the line. */
    predicate IsConnecting(blockId: Id)
    {
      blockId == fromBlockId || blockId == toBlockId
    }

    /** `isSame`: the line joins the two blocks, in either direction. */
    predicate IsSame(blockIdA: Id, blockIdB: Id)
    {
      (fromBlockId == blockIdA && toBlockId == blockIdB) ||
      (fromBlockId == blockIdB && toBlockId == blockIdA)
    }

    /** `getPair`. */
    function GetPair(): (pair: seq<Id>)
      ensures |pair| == 2 && pair[0] == fromBlockId && pair[1] == toBlockId
    {
      [fromBlockId, toBlockId]
    }

    /** `dispose`: the first call removes the line from its workspace's collection
        and marks it disposed; later calls change nothing. */
    method Dispose()
      requires workspace.LinesValid()
      modifies this, workspace`arrowlines
      ensures disposed
      ensures old(disposed) ==> workspace.arrowlines == old(workspace.arrowlines)
      ensures !old(disposed) ==> workspace.arrowlines == Without(old(workspace.arrowlines), this)
      ensures workspace.LinesValid()
    {
      if disposed {
        return;
      }
      workspace.arrowlines := Without(workspace.arrowlines, this);
      disposed := true;
      DistinctWithout(old(workspace.arrowlines), this);
      WithoutFacts(old(workspace.arrowlines), this);
      ghost var lines := old(workspace.arrowlines);
      ghost var r := workspace.arrowlines;
      forall k | 0 <= k < |r|
        ensures r[k].workspace == workspace && !r[k].disposed
      {
        assert r[k] in lines && r[k] != this;
        var j :| 0 <= j < |lines| && lines[j] == r[k];
      }
    }

    /** `toXml(opt_noId)`. */
    function ToXml(noId: bool): (x: ArrowlineXml)
      ensures x.tag == "arrowline" && x.from == Some(fromBlockId) && x.to == Some(toBlockId)
      ensures x.id.Some? <==> !noId
      ensures !noId ==> x.id == Some(id)
    {
      ArrowlineXml("arrowline", if noId then None else Some(id), Some(fromBlockId), Some(toBlockId))
    }

    /** `saveState(opt_noId)`. */
    function SaveState(noId: bool): (s: ArrowlineState)
      ensures s.from == fromBlockId && s.to == toBlockId
      ensures s.id.Some? <==> !noId
      ensures !noId ==> s.id == Some(id)
    {
      ArrowlineState(if noId then None else Some(id), fromBlockId, toBlockId)
    }
  }

  /** Removing an object from a duplicate-free sequence keeps it duplicate-free. */
  lemma DistinctWithout<T>(s: seq<T>, x: T)
    requires forall i, j :: 0 <= i < j < |s| ==> s[i] != s[j]
    ensures var r := Without(s, x); forall i, j :: 0 <= i < j < |r| ==> r[i] != r[j]
  {
    if s != [] {
      DistinctWithout(s[1..], x);
      var r := Without(s, x);
      var t := Without(s[1..], x);
      WithoutFacts(s[1..], x);
      assert s[0] !in s[1..] by {
        forall k | 0 <= k < |s[1..]| ensures s[1..][k] != s[0] { assert s[1..][k] == s[k + 1]; }
      }
      assert s[0] !in t;
    }
  }

  /** `isConnecting` is `isConnectingFrom` or `isConnectingTo`. */
  lemma ConnectingIsEitherEnd(line: WorkspaceArrowline, blockId: Id)
    ensures line.IsConnecting(blockId) <==> line.IsConnectingFrom(blockId) || line.IsConnectingTo(blockId)
  {
  }

  /** The connection tests read the line's pair: `isConnectingFrom` tests its
      first entry, `isConnectingTo` its second, and `isConnecting` either. */
  lemma ConnectingMatchesPair(line: WorkspaceArrowline, blockId: Id)
    ensures line.IsConnectingFrom(blockId) <==> blockId == line.GetPair()[0]
    ensures line.IsConnectingTo(blockId) <==> blockId == line.GetPair()[1]
    ensures line.IsConnecting(blockId) <==> blockId in line.GetPair()
  {
  }

  /** `isSame` is symmetric and holds exactly when the two blocks are the line's two ends, as an unordered pair. */
  lemma IsSameIsUnorderedPair(line: WorkspaceArrowline, a: Id, b: Id)
    ensures line.IsSame(a, b) <==> line.IsSame(b, a)
    ensures line.IsSame(a, b) <==> multiset{a, b} == multiset{line.fromBlockId, line.toBlockId}
  {
    var f, t := line.fromBlockId, line.toBlockId;
    if multiset{a, b} == multiset{f, t} {
      assert a in multiset{f, t};
      if a == f {
        assert multiset{a, b} - multiset{a} == multiset{f, t} - multiset{f};
        assert b in multiset{b};
      } else {
        assert a == t;
        assert multiset{a, b} - multiset{a} == multiset{f, t} - multiset{t};
        assert b in multiset{b};
      }
    }
  }

  /** The JSON state round trip: parsing `saveState()` gives back the line's id, from and
      to; a state saved without its id fails to parse. */
  lemma SaveStateRoundTrip(line: WorkspaceArrowline)
    requires line.id != ""
    ensures ParseAttributesFromState(line.SaveState(false)) == Ok(ArrowlineInfo(line.id, line.fromBlockId, line.toBlockId))
    ensures ParseAttributesFromState(line.SaveState(true)) == Err(NoIdError)
  {
  }

  /** The XML round trip: parsing `toXml()` gives back the line's id, from and to; an
      element written without its id fails to parse. */
  lemma ToXmlRoundTrip(line: WorkspaceArrowline)
    requires line.id != ""
    ensures ParseAttributes(line.ToXml(false)) == Ok(ArrowlineInfo(line.id, line.fromBlockId, line.toBlockId))
    ensures ParseAttributes(line.ToXml(true)) == Err(NoIdError)
  {
  }

  /** `fromXml`: parses the element and, unless that throws, creates a line with the
      parsed ends and a freshly generated id (the parsed id is not passed on). */
  method FromXml(xml: ArrowlineXml, workspace: Workspace, uid: string) returns (r: Result<WorkspaceArrowline>)
    requires workspace.LinesValid()
    modifies workspace`arrowlines
    ensures r.Err? <==> ParseAttributes(xml).Err?
    ensures r.Err? ==> r.message == NoIdError && workspace.arrowlines == old(workspace.arrowlines)
    ensures r.Ok? ==>
      && fresh(r.value) && r.value.workspace == workspace
      && r.value.id == ChooseId(None, workspace.commentIds, uid)
      && r.value.fromBlockId == ParseAttributes(xml).value.from
      && r.value.toBlockId == ParseAttributes(xml).value.to
      && workspace.arrowlines == old(workspace.arrowlines) + [r.value]
    ensures workspace.LinesValid()
  {
    var info := ParseAttributes(xml);
    if info.Err? {
      return Err(info.message);
    }
    var line := new WorkspaceArrowline(workspace, info.value.from, info.value.to, None, uid);
    r := Ok(line);
  }

  /** `loadState`: parses the state and, unless that throws, creates a line with the
      parsed ends, passing the parsed id on as `opt_id`. */
  method LoadState(state: ArrowlineState, workspace: Workspace, uid: string) returns (r: Result<WorkspaceArrowline>)
    requires workspace.LinesValid()
    modifies workspace`arrowlines
    ensures r.Err? <==> ParseAttributesFromState(state).Err?
    ensures r.Err? ==> r.message == NoIdError && workspace.arrowlines == old(workspace.arrowlines)
    ensures r.Ok? ==>
      && fresh(r.value) && r.value.workspace == workspace
      && r.value.id == ChooseId(state.id, workspace.commentIds, uid)
      && r.value.fromBlockId == state.from && r.value.toBlockId == state.to
      && workspace.arrowlines == old(workspace.arrowlines) + [r.value]
    ensures workspace.LinesValid()
  {
    var info := ParseAttributesFromState(state);
    if info.Err? {
      return Err(info.message);
    }
    var line := new WorkspaceArrowline(workspace, info.value.from, info.value.to, Some(info.value.id), uid);
    r := Ok(line);
  }

  /** Saving a line and loading the state into a workspace where its id is still
      free gives a line with the same id, from and to. */
  lemma LoadStateKeepsSavedId(line: WorkspaceArrowline, taken: set<string>, uid: string)
    requires line.id != "" && line.id !in taken
    ensures var info := ParseAttributesFromState(line.SaveState(false));
      info.Ok? && ChooseId(Some(info.value.id), taken, uid) == line.id
      && info.value.from == line.fromBlockId && info.value.to == line.toBlockId
  {
  }
}

=== FILE: wrappers.dfy ===
/** Optional values and results with an error message, used for the
    source's `null`/`undefined` values and thrown errors. */
module Wrappers {

  datatype Option<+T> = None | Some(value: T)

  datatype Result<+T> = Ok(value: T) | Err(message: string)
}
